=== FILE: README.md ===
# elftree, modelled in Dafny

elftree shows the shared-library dependency tree of an ELF executable in a
terminal UI. The left pane is the dependency tree. The right pane shows
details of the selected library: file info, symbols, dynamic entries or
sections. This project models the three pure parts of the program and
proves properties about them.

- **The fold-aware tree and its viewport** (`tui.go`).
  - A `TreeItem` is an immutable `Item(node, folded, total, children)`.
  - A cursor is a path of child indices. The parent is the path's prefix, and siblings are indices ±1.
  - `Rows(t)` lists the visible items in pre-order; a folded item hides its subtree.
  - `WellFormed(t)` is the invariant the code keeps on `total`: an unfolded item counts `1 + total` for each child, and a folded item counts 0.
  - Under it, `|Rows(t)| == t.total + 1`.
  - `nextItem`/`prevItem` are written the way the Go loops walk the links, and proved to be the row successor and predecessor.
  - `expand`/`fold`/`toggle` are rebuilds along the path, and toggling twice restores the tree.
  - The `TreeView` cursor operations are functions on `View(root, top, curr, idx, off, pos, rows)`. Each preserves the viewport invariant `0 <= off <= idx < off + rows`, `idx <= root.total`, `curr == Rows[idx]`, `top == Rows[off]`.
  - The trees are built by `makeDepsItems` and `AddSubTree`, and the detail panes are saved and restored per library.
- **Dependency discovery** (`main.go`). All I/O is abstracted into parameters.
  - `readElfString` reads a NUL-terminated string.
  - `readDynamic` decodes `(d_tag, d_val)` word pairs, both little- and big-endian at either word width.
  - `findLib` searches in elftree's own order (DT_RPATH, LD_LIBRARY_PATH, DT_RUNPATH, ld.so.conf, the default directories) over an abstract `present` predicate and an abstract path `join`.
  - `readLdSoConf` expands includes recursively, with fuel standing in for the missing cycle guard.
  - `processDep` and the worklist loop in `main` are modelled over an arena of nodes, with an abstract `needed` function that gives a library's DT_NEEDED list.
- **ELF formatters** (`elf.go`).
  - The DT_FLAGS and DT_FLAGS_1 names, the section flag letters, the program header flag triples and type names, the symbol type and binding tokens, and the per-entry dispatch of `makeDynamicStrings`.
  - These follow the System V ABI, chapter 4 ("Sections", "String Table", "Symbol Table") and chapter 5 ("Program Header", "Dynamic Section").

Modules, one per file:

- `Wrappers`: `Option`.
- `TreeItems`: items, rows, `nextItem`/`prevItem`.
- `TreeFold`: expand, fold, toggle.
- `TreeView`: cursor operations.
- `TreeBuild`: `makeDepsItems`, `AddSubTree`.
- `InfoView`: the detail trees and their save/restore.
- `Dynamic`: byte decoding, `readElfString`, `readDynamic`.
- `Resolver`: `findLib`, `readLdSoConf`.
- `DepGraph`: `processDep` and the worklist.
- `ElfStrings`: the formatters.

Where the intent a reader would assume differs from the code, the model follows the code.

- `AddSubTree` adds `len(items)+1` to the new label's `total` and leaves the parent's `total` alone.
- `saveInfoView` saves nothing. No key handler moves the detail pane, so this has no visible effect today.
- A missing `.dynstr` section makes `readDynamic` dereference nil, which is a panic and not the -1 return.

The first two are listed under "## Findings".

## Model

| member | source | states |
|---|---|---|
| TreeItems.RowCount | tui.go:15-23 | when every unfolded item's `total` counts `1 + total` per child and every folded item's is 0, the visible rows of a tree number exactly `total + 1` |
| TreeItems.NextItemRow | tui.go:112-124 | `nextItem` of visible row i is visible row i+1, and nil on the last visible row: it enters an unfolded item's first child, skips a folded subtree and climbs to the nearest next sibling of an ancestor |
| TreeItems.NextItemCons | tui.go:112-124 | inside child k, `nextItem` is the child's own successor lifted to the parent; when the child's subtree is exhausted it moves to sibling k+1, or to nil after the last child |
| TreeItems.NextSiblingUpCons | tui.go:114-121 | the climb through `parent` links stops at the first ancestor that has a next sibling, and yields nil when none has |
| TreeItems.PrevItemRow | tui.go:91-110 | `prevItem` of visible row i is visible row i-1, and nil on the root |
| TreeItems.PrevItemTop | tui.go:91-110 | with no previous sibling `prevItem` returns the parent; otherwise it returns the last visible descendant of the previous sibling, never entering a folded item |
| TreeItems.LastVisibleIsLastRow | tui.go:99-109 | descending through the last children of unfolded items reaches the last visible row |
| TreeItems.NextPrevInverse | tui.go:91-124 | on visible rows, `prevItem(nextItem(x)) == x` whenever x is not the last row, and `nextItem(prevItem(x)) == x` whenever x is not the root |
| TreeItems.RowShown | tui.go:25-42 | each visible row is a shown item whose row index is its position, so `idx` and `Curr` can describe the same cursor |
| TreeItems.ShownRow | tui.go:25-42 | a shown item sits at its row index among the visible rows |
| TreeFold.Expand | tui.go:126-140 | on a folded item with children: clears `folded`, adds the sum of `total + 1` over the children to its `total`, keeps its children, and adds its new `total` to every ancestor; on an unfolded or childless item the tree is unchanged |
| TreeFold.Fold | tui.go:142-153 | on an unfolded item with children: sets `folded`, sets its `total` to 0 and subtracts its old `total` from every ancestor; on a folded or childless item the tree is unchanged |
| TreeFold.Toggle | tui.go:155-161 | a folded item is expanded and an unfolded one folded |
| TreeFold.RebuildAncestors | tui.go:135-137 | the incremental update along the ancestor chain changes every ancestor's `total` by the same amount |
| TreeFold.RebuildElsewhere | tui.go:126-153 | items outside the toggled item's ancestor chain and subtree are untouched |
| TreeFold.ExpandWellFormed | tui.go:126-140 | expanding a shown item keeps the `total` invariant, so the visible row count is again `total + 1` |
| TreeFold.FoldWellFormed | tui.go:142-153 | folding a shown item keeps the `total` invariant, so the visible row count is again `total + 1` |
| TreeFold.ToggleWellFormed | tui.go:155-161 | toggling a shown item keeps the `total` invariant |
| TreeFold.ExpandThenFold | tui.go:126-153 | folding a just-expanded item gives back the original tree, every `total` included |
| TreeFold.FoldThenExpand | tui.go:126-153 | expanding a just-folded item of a well-formed tree gives back the original tree, every `total` included |
| TreeFold.ToggleTwice | tui.go:155-161 | on a well-formed tree, toggling the same item twice restores the tree |
| TreeFold.ToggleKeepsRowsBefore | tui.go:415-417 | toggling the item under the cursor keeps it at the same row and leaves every row above it unchanged |
| TreeView.ForwardRows | tui.go:389-391 | n `nextItem` steps from visible row i reach row i+n |
| TreeView.BackwardRows | tui.go:396-399 | n `prevItem` steps from visible row i reach row i-n |
| TreeView.RunToEnd | tui.go:389-391 | following `nextItem` until nil ends on the last visible row |
| TreeView.InitView | tui.go:71-80 | a new view over a well-formed root starts at row 0 with `Curr` and `Top` on the root (as `ShowWithTUI` sets them, tui.go:671-677) and satisfies the viewport invariant |
| TreeView.Down | tui.go:286-295 | the cursor moves down one row unless it is on the last row; the window scrolls only as far as needed to keep it visible; the invariant holds afterwards |
| TreeView.Up | tui.go:297-306 | the cursor moves up one row unless it is on row 0; if it leaves the window, the window starts at the cursor; the invariant holds afterwards |
| TreeView.DownUp | tui.go:286-306 | above the last row, `Up` after `Down` returns the cursor to the same row and item |
| TreeView.PageDown | tui.go:308-347 | off the page bottom, the cursor snaps to the bottom and the window stays; at the bottom, the cursor moves down a page, clamped to the last row, and the window follows; the invariant holds afterwards |
| TreeView.PageDownSnap | tui.go:308-327 | the snap step changes only `idx` and `Curr`, moving them to row `min(off + rows - 1, total)` |
| TreeView.PageDownNext | tui.go:329-347 | the page step changes only the cursor and window: `idx` is advanced by `rows`, clamped to `total`, and `off` rises just enough to keep it visible |
| TreeView.PageDownTwice | tui.go:308-347 | with 100 rows and a 20-row window, two page-downs from the top go to row 19 and then row 39, with the window starting at row 20 |
| TreeView.PageUp | tui.go:349-372 | off the page top, the cursor snaps to the window's first row; at the top, it moves up a page, clamped at 0, and the window starts at the cursor; the invariant holds afterwards |
| TreeView.Home | tui.go:374-379 | cursor and window return to row 0 and the root |
| TreeView.End | tui.go:381-402 | the cursor goes to the last visible row and the window to `max(0, total - rows + 1)`, reached by walking `prevItem` back from the end; the invariant holds afterwards |
| TreeView.Left | tui.go:404-409 | only `pos` changes; it decreases by i but never below 0 |
| TreeView.Right | tui.go:411-413 | only `pos` changes; it increases by i with no upper bound |
| TreeView.RightThenLeft | tui.go:404-413 | `Left(i)` undoes `Right(i)` for a non-negative position and shift |
| TreeView.ToggleView | tui.go:415-417 | only the tree changes: the invariant still holds at the same `idx`, and every row up to the cursor is unchanged |
| TreeView.ToggleViewTwice | tui.go:415-417 | toggling the cursor item twice restores the view |
| TreeBuild.MakeDepsItems | tui.go:465-484 | the item tree mirrors the dependency tree: same names and depths, children in order, all unfolded, each `total` the number of descendants, so the invariant holds everywhere |
| TreeBuild.AddSubTreeAsWritten | tui.go:486-519 | as written: appends one label after the existing children, with the items as its leaf children in order; the label's `total` is `len(items) + 1` and the parent's is unchanged |
| TreeBuild.AddSubTreeAsWrittenMiscounts | tui.go:486-519 | adding an empty group to a well-formed item breaks the invariant: the parent then shows 2 rows while its `total` is still 0 |
| TreeBuild.AddSubTree | tui.go:486-519 | corrected: the label's `total` is `len(items)` and the parent's grows by `len(items) + 1`; earlier children, node and fold state are unchanged |
| TreeBuild.AddSubTreeWellFormed | tui.go:486-519 | the corrected `AddSubTree` keeps the invariant and adds exactly `len(items) + 1` visible rows |
| InfoView.InfoTree | tui.go:521-596 | a detail pane built with the corrected `AddSubTree` (a blank separator, then a titled group, per section) is well formed and has `1 + Σ(len(lines) + 2)` rows |
| InfoView.InfoTreeAsWritten | tui.go:521-596 | the detail pane as the code builds it has root `total` 0 and every separator and group over-counted by one, so the invariant fails as soon as there is a group |
| InfoView.InfoTreeSameRows | tui.go:521-596 | the two constructions show the same rows; only the stored counts differ |
| InfoView.RestoreInfoView | tui.go:623-644 | the pane takes the tree and position cached for the library under the current mode's map; a missing entry, or a mode none of the four maps, gives an empty tree at the origin |
| InfoView.SaveInfoView | tui.go:598-621 | as written: the caches are unchanged, since only local copies of the entries are assigned |
| InfoView.SaveIsForgotten | tui.go:598-644 | whatever position is saved, every later restore gives what it would have given without the save |
| InfoView.SaveLosesPosition | tui.go:598-644 | a pane saved at row 5 comes back at row 0 (a position no key handler reaches today) |
| InfoView.PaneStaysAtOrigin | tui.go:598-644 | with the caches as built, every restored pane is at `idx = off = pos = 0` |
| InfoView.SaveInfoViewIntended | tui.go:598-621 | corrected: the file, symbol and dynamic entries of the library being left take the pane position and keep their trees; other libraries and the section map are untouched |
| InfoView.SaveThenRestore | tui.go:598-644 | with the corrected save, returning to a library in file, symbol or dynamic mode restores the saved position with the library's own tree |
| InfoView.SaveKeepsOthers | tui.go:598-644 | the corrected save changes what no other library, and no section-mode pane, restores to |
| Dynamic.LERoundTrip | main.go:219-224 | little-endian decoding of a word is inverted by encoding at the same width |
| Dynamic.BERoundTrip | main.go:219-224 | big-endian decoding of a word is inverted by encoding at the same width |
| Dynamic.BEIsReversedLE | main.go:219-224 | a big-endian word is the little-endian reading of its bytes reversed |
| Dynamic.ElfString | main.go:187-195 | a string is read exactly when a NUL follows the offset in the table; it is the bytes up to the first such NUL, which it does not contain |
| Dynamic.ReadElfString | main.go:187-195 | the scanning loop finds the same string as the specification, and the missing-NUL case (an index panic in Go) as None |
| Dynamic.ElfStringAt | main.go:187-195 | given the position of the first NUL, the string read is the bytes before it |
| Dynamic.Words | main.go:215-225 | the section data splits into whole words of the class width; word m is chunk m decoded in the file's byte order |
| Dynamic.WordsRoundTrip | main.go:215-225 | data made of values written as whole words in the file's byte order, followed by fewer stray bytes than one word, reads back as exactly those values in order |
| Dynamic.EncodeWord | main.go:215-225 | the reference encoding of one value: w bytes that decode to the value in either byte order |
| Dynamic.Kept | main.go:227-244 | the entries kept are exactly the non-DT_NULL ones, in on-disk order |
| Dynamic.NullDoesNotStop | main.go:228-230 | a DT_NULL entry is dropped, but a later non-null entry is still kept |
| Dynamic.ScanEntries | main.go:215-246 | the scan succeeds exactly when every entry is in the data and every string tag's offset resolves; then entry k has the tag and value of word pair k, with the four string tags resolved through `.dynstr`; otherwise it panics |
| Dynamic.Unresolvable | main.go:237-239 | one string-tag entry with no NUL after its offset makes the whole read panic |
| Dynamic.ReadDynamic | main.go:197-247 | a missing or unreadable `.dynamic` gives -1; a missing `.dynstr` or an `Entsize` of 0 panics; unreadable `.dynstr` data gives -1; otherwise the result is that of the scan over `Size / Entsize` entries |
| Resolver.SplitJoin | main.go:130 | `strings.Split` on ':' loses nothing: joining the pieces gives back the string |
| Resolver.JoinSplit | main.go:130 | splitting a join of separator-free pieces gives back the pieces |
| Resolver.EmptyEnvProbesName | main.go:130-135 | an unset LD_LIBRARY_PATH is one empty component, so it probes `join("", name)` |
| Resolver.Probe | main.go:119-171 | a hit is present and is `join(dir, name)` for the first directory whose candidate is present, every earlier one being a directory whose candidate is absent; the result is a panic exactly when a non-string RPATH/RUNPATH value is reached before any hit; a miss means every directory was tried and none is present |
| Resolver.ProbeAppend | main.go:115-174 | probing a concatenation of directory lists is probing the first list, then the second if the first missed |
| Resolver.FindLib | main.go:114-174 | a name with a '/' is returned unchanged without probing; any other result is a present path, found by probing the search path |
| Resolver.SearchPathProbe | main.go:114-174 | the search order is the parent's DT_RPATH values, LD_LIBRARY_PATH, the parent's DT_RUNPATH values, ld.so.conf, then the default directories; the first hit wins |
| Resolver.RpathBeatsRunpath | main.go:119-153 | when a DT_RPATH directory has the library, that path is returned whatever LD_LIBRARY_PATH, DT_RUNPATH and the rest hold |
| Resolver.Classify | main.go:80-97 | blank and '#' lines are skipped; a line starting with "include" includes the pattern from column 8 on, and the bare word "include" panics; any other line is a library directory |
| Resolver.ReadLdSoConf | main.go:69-100 | an unopenable file returns the list unchanged; any result extends the list it was given |
| Resolver.PlainFile | main.go:76-98 | a file of only comments, blanks and paths appends exactly its paths, in file order |
| Resolver.IncludeLine | main.go:87-94 | an include line reads every file its pattern matches, in match order, starting from the list so far, and the rest of the file continues from the list they leave (or stops with their crash); a pattern the glob rejects is skipped |
| Resolver.PlainIncludes | main.go:92-94 | matched files without includes of their own append their entries one file after the other, in match order; a file that does not open adds nothing |
| Resolver.IncludeInPlace | main.go:69-100 | an included file's entries land where the include line stands: from `["/q"]`, a file `include g` / `/p` whose pattern matches `a` = `/x` and `b` = `/y`, a comment, `/z` reads as `/q /x /y /z /p` |
| Resolver.FuelEnough | main.go:92-94 | once the recursion depth suffices, more fuel does not change the result |
| Resolver.SelfIncludeDiverges | main.go:87-94 | a file that includes itself recurses without end |
| DepGraph.Init | main.go:398-401 | the worklist starts with the root node alone and no records |
| DepGraph.ProcessDep | main.go:249-328 | a name already recorded changes nothing; a new name fails exactly when its libraries cannot be read, and otherwise gets one child per needed library in order (parent set, depth one more), pushed ahead of the pending work, and its record |
| DepGraph.StepWalkSeen | main.go:250-253 | popping a duplicate only shortens the worklist and keeps the walk invariant |
| DepGraph.StepWalk | main.go:249-328 | one pop keeps the walk invariant: a tree rooted at the start, records for exactly the processed names, every unrecorded node pending exactly once |
| DepGraph.LoopStep | main.go:402-408 | each pop either records a new name or shortens the worklist, so the loop terminates |
| DepGraph.ExitWitness | main.go:256-312 | the walk fails only if some reachable library cannot be read |
| DepGraph.Closure | main.go:402-408 | when the worklist is empty, the records are exactly the names in the tree and every needed library has a record |
| DepGraph.BuildDeps | main.go:398-408 | the loop either fails at an unreadable library or ends with an empty worklist, a tree rooted at the start, and the state reached by that many pops; the records are then exactly the names reachable from the root through `needed`, one record per name |
| DepGraph.PopReachable | main.go:315-327 | a pop adds nodes only for libraries needed by a node already in the tree, so every node stays reachable from the root |
| DepGraph.RecordsReachable | main.go:402-408 | once the worklist is empty, a name has a record if and only if it is reachable from the root |
| DepGraph.Diamond | main.go:315-327 | for A→{B,C}, B→D, C→D the walk takes 5 pops and records A, B, C and D once each |
| ElfStrings.StrFlagsNames | elf.go:69-89 | each DT_FLAGS name appears exactly when its bit is set |
| ElfStrings.StrFlagsDecides | elf.go:69-89 | two values give the same DT_FLAGS names exactly when they agree on bits 0x1 to 0x10 |
| ElfStrings.StrFlagsSplit | elf.go:69-89 | the `|`-joined string is empty exactly when none of the five bits is set, and otherwise splits back into the names |
| ElfStrings.StrFlagsText | elf.go:69-89 | two values print the same DT_FLAGS text exactly when they agree on bits 0x1 to 0x10 |
| ElfStrings.DtFlagsPrintable | elf.go:69-89 | every DT_FLAGS name is non-empty and free of '|' |
| ElfStrings.StrFlags1Names | elf.go:92-175 | each DT_FLAGS_1 name appears exactly when its bit is set |
| ElfStrings.StrFlags1Decides | elf.go:92-175 | two values give the same DT_FLAGS_1 names exactly when they agree on bits 0x1 to 0x2000000 |
| ElfStrings.StrFlags1Split | elf.go:92-175 | the `|`-joined string is empty exactly when none of the 26 bits is set, and otherwise splits back into the names |
| ElfStrings.StrFlags1Text | elf.go:92-175 | two values print the same DT_FLAGS_1 text exactly when they agree on bits 0x1 to 0x2000000 |
| ElfStrings.DtFlags1Distinct | elf.go:92-175 | the 26 DT_FLAGS_1 names are pairwise different |
| ElfStrings.SectionFlagsDecides | elf.go:255-289 | two values give the same section letters exactly when they agree on the eleven lettered bits (0x8 has none) |
| ElfStrings.SectionFlagsText | elf.go:255-289 | two values print the same flag string exactly when they agree on the eleven lettered bits, since every letter is one character |
| ElfStrings.ShFlagsDistinct | elf.go:255-289 | the section letters are pairwise different |
| ElfStrings.NothingSet | elf.go:69-289 | a zero value names no flags |
| ElfStrings.ProgType | elf.go:16-35 | the three GNU segment types get their names; any other type is the library's name without its first three characters, and panics when that name is shorter |
| ElfStrings.ProgFlags | elf.go:37-52 | always three characters; exactly the six listed flag sets are printed, letter by letter from the R, W and X bits, and everything else is "???" |
| ElfStrings.ProgFlagsRoundTrip | elf.go:37-52 | a printed flag triple determines the flags |
| ElfStrings.SymType | elf.go:216-235 | three characters, "XXX" exactly for types above 6 |
| ElfStrings.SymBind | elf.go:237-247 | one character, "X" exactly for bindings above 2 |
| ElfStrings.SymbolTokensInjective | elf.go:216-247 | a known type or binding token determines its half of `st_info` |
| ElfStrings.MakeDynamicStrings | elf.go:177-214 | one line per entry, in order, each the entry's own line; it panics exactly when some entry's value has the wrong type for its tag, and never on entries as the dynamic-section reader stores them |
| ElfStrings.WellTypedLine | elf.go:177-214 | an entry whose line panics has a value of the wrong type for its tag |
| ElfStrings.DecodedWellTyped | elf.go:177-214 | entries decoded from the dynamic section hold a string exactly for the string tags, so their lines never panic |

## Left out

- Terminal rendering, colours, resizing, the status line and the event loop (`drawDepsNode`, `drawStrNode`, the `Buffer` methods, `resize`, the handlers in `ShowWithTUI`): foreign UI toolkit.
- `debug/elf` itself: `elf.Open`, `f.Section`, `Data()`, `ImportedLibraries`, the symbol readers and the enum `String()` methods. Their results are inputs: section data, a `needed` function, a `typeName` function.
- Filesystem and environment: `os.Stat`, `os.Open`, `filepath.Glob`, `path.Join`, `os.Getenv` and `realPath`. They are the parameters `present`, `files`, `glob`, `join`, `envlib`, `conflib` and `deflib`.
- printf column layout (`%-16s`, `%#8x`, padding): a formatted line is modelled as its tokens.
- `printDepTree`, `showDetails`, flag parsing, `init` and the `os.Exit` diagnostics: CLI and output.
- Resolver.ReadLdSoConf: the recursion carries fuel because the code has no include-cycle guard. Running out of fuel is reported as `Diverged`, whereas the program would overflow its stack.
- Resolver.ReadLdSoConf: `bufio.Scanner`'s 64 KiB line limit is not modelled; a file is a sequence of lines.
- Resolver.Classify: lines are sequences of characters, so the include pattern starts at character 8 rather than at byte 8 as Go's `t[8:]` does (main.go:88). The two differ when one of the first eight characters is not ASCII. For example, `include\u00A0/etc/x.conf` globs `"\xA0/etc/x.conf"` in Go but `"/etc/x.conf"` here. Likewise the blank test is a per-character whitespace check, not `strings.TrimSpace`'s UTF-8 decoding.
- Resolver.Probe: a path is `join(dir, name)` for an abstract `join`. `path.Join`'s cleaning of "..", duplicate slashes and the like is not modelled.
- DepGraph.ProcessDep: resolving a library (`findLib`, `elf.Open`, the ELF type check, `readDynamic`, `ImportedLibraries`) is folded into the abstract `needed`. A `None` from it stands for every fail-fast exit. The dependence of resolution on the parent's RPATH/RUNPATH is not modelled.
- Dynamic.ReadElfString: string bytes become `char`s one for one, with no UTF-8 decoding.
- Dynamic.ReadDynamic: tags and values are unbounded naturals. Go's `uint64` cannot overflow here, since a word is at most 8 bytes. Go panics are the single outcome `Crash`.
- TreeView.Down: `idx`, `off` and `pos` are unbounded integers; Go's `int` wrap-around is not modelled.
- TreeView.PageDown: the cursor operations are modelled only from views that satisfy `Inv`. A resize that shrinks the terminal sets `rows = Height - 2` (tui.go:650) without moving `off`, `idx` or `Top`, which breaks `Inv` and can even make `rows` ≤ 0. From such a view, PageDown's snap loop (tui.go:320-323) starts below `bottom` and never meets it. It walks `Curr` past the last row, and `nextItem` then dereferences nil (tui.go:113). Example: rows 20, off 0, idx 19, total 100, shrunk to rows 10.
- ElfStrings.SectionFlagsDecides: `sh_flags` is a `uint32` in Go and is widened to 64 bits here; only bits up to 0x800 are read.
- The section-type column of `makeSectionString` (`t[4:]` of the library's name for the type) is not modelled. It is the same name-slicing as `ProgType`.
- InfoView.SaveInfoView: modelled as the code behaves (it changes nothing). The intended save is `SaveInfoViewIntended`.

## Findings

| source | as written | input that shows it | evidently intended | confidence | as-written member | corrected member |
|---|---|---|---|---|---|---|
| tui.go:486-519 | after `parent = t`, `parent.total += len(items) + 1` adds to the new label, not to the item the group was appended to | latent: `AddSubTree("", nil, root)` on a fresh root leaves root `total` at 0 while it shows 2 rows, and the label claims 1 child row it does not have. `AddSubTree` builds only the detail-pane trees, no key handler navigates or toggles the detail pane (tui.go:700-840), and drawing walks `nextItem` without reading `total` (tui.go:262-284), so nothing visible depends on the wrong counts today | the label counts its `len(items)` children and the parent grows by `len(items) + 1` | medium (latent; no current reader of the counts), not executed | TreeBuild.AddSubTreeAsWritten (shown by TreeBuild.AddSubTreeAsWrittenMiscounts and InfoView.InfoTreeAsWritten) | TreeBuild.AddSubTree (proved by TreeBuild.AddSubTreeWellFormed and InfoView.InfoTree) |
| tui.go:598-621 | the position is written into `info`, a local copy of each map entry, and never stored back into `finfo`, `yinfo` or `dinfo` | latent: call `saveInfoView` with the detail pane at row 5, then restore: the pane is at row 0. No key handler moves the detail pane today (tui.go:700-840), so every save passes the origin and the stores are dead; the loss shows once the pane can scroll | the three entries keep the pane position, so restoring brings it back | medium (latent; unreachable with the current key handlers), not executed | InfoView.SaveInfoView (shown by InfoView.SaveLosesPosition and InfoView.SaveIsForgotten) | InfoView.SaveInfoViewIntended (proved by InfoView.SaveThenRestore and InfoView.SaveKeepsOthers) |

=== FILE: dep_graph.dfy ===
/**
  The discovery of the dependency tree (processDep and the worklist loop of
  main, main.go:249-328 and main.go:398-408).

  elftree allocates `DepsNode` records linked by parent and child
  pointers. Here they live in an arena, a sequence indexed by allocation
  order, so a node's index is its identity: node 0 is the root, and every
  node is created after its parent. The worklist holds arena indices.

  Opening and decoding each library (findLib, elf.Open, readDynamic,
  ImportedLibraries, ...) is the parameter `needed`: for a library name it
  gives the list of DT_NEEDED names, or None when any of those steps fails,
  in which case the program exits. `deps` keeps, per processed name, that
  list (the `libs` field of DepsInfo); the other fields are left out.
 */
module DepGraph {
  import opened Wrappers

  /** A node of the dependency tree: one occurrence of a library. */
  datatype Node = Node(name: string, parent: Option<nat>, children: seq<nat>, depth: int)

  /** The state of the walk: the arena, the worklist (deps_list) and the
      records of processed names (deps). */
  datatype Graph = Graph(nodes: seq<Node>, work: seq<nat>, deps: map<string, seq<string>>)

  type Needed = string -> Option<seq<string>>

  function Names(nodes: seq<Node>): (r: seq<string>)
    ensures |r| == |nodes|
    ensures forall i :: 0 <= i < |nodes| ==> r[i] == nodes[i].name
  {
    seq(|nodes|, i requires 0 <= i < |nodes| => nodes[i].name)
  }

  function Range(k: nat, n: nat): (r: seq<nat>)
    ensures |r| == n
    ensures forall j :: 0 <= j < n ==> r[j] == k + j
  {
    seq(n, j requires 0 <= j < n => k + j)
  }

  /** Children point to later nodes: what makes the tree finite. */
  ghost predicate Ordered(nodes: seq<Node>)
  {
    forall i, j :: 0 <= i < |nodes| && 0 <= j < |nodes[i].children| ==>
      i < nodes[i].children[j] < |nodes|
  }

  /** The arena is a tree rooted at node 0: every other node hangs below an
      earlier one, and each child link is matched by the child's parent
      link and depth. */
  ghost predicate Tree(nodes: seq<Node>)
  {
    && |nodes| >= 1
    && nodes[0].parent == None && nodes[0].depth == 0
    && Ordered(nodes)
    && (forall i, j :: 0 <= i < |nodes| && 0 <= j < |nodes[i].children| ==>
          nodes[nodes[i].children[j]].parent == Some(i) &&
          nodes[nodes[i].children[j]].depth == nodes[i].depth + 1)
    && (forall i :: 0 < i < |nodes| ==> nodes[i].parent.Some? && nodes[i].parent.value < i)
  }

  /** What a processed node records: its children are the needed names of
      its library, in order. */
  ghost predicate Expanded(g: Graph, i: nat)
    requires i < |g.nodes|
  {
    var nd := g.nodes[i];
    && nd.name in g.deps
    && |nd.children| == |g.deps[nd.name]|
    && (forall j :: 0 <= j < |nd.children| && nd.children[j] < |g.nodes| ==>
          g.nodes[nd.children[j]].name == g.deps[nd.name][j])
  }

  /** The records agree with `needed`; a node with children is the one
      occurrence of its name that was expanded, so at most one node per
      name has children. */
  ghost predicate Recorded(needed: Needed, g: Graph)
  {
    && (forall x :: x in g.deps ==> needed(x) == Some(g.deps[x]))
    && (forall i :: 0 <= i < |g.nodes| && g.nodes[i].children != [] ==> Expanded(g, i))
    && (forall i, j :: 0 <= i < j < |g.nodes| && g.nodes[i].name == g.nodes[j].name ==>
          g.nodes[i].children == [] || g.nodes[j].children == [])
  }

  /** The start of the walk: the root node alone on the worklist. */
  function Init(root: string): (g: Graph)
    ensures Tree(g.nodes) && g.work == [0] && g.deps == map[]
    ensures |g.nodes| == 1 && g.nodes[0].name == root && g.nodes[0].children == []
  {
    Graph([Node(root, None, [], 0)], [0], map[])
  }

  /** processDep on node d (already popped from the worklist). A name that
      has a record is skipped: nothing changes. Otherwise one fresh child
      per needed name is allocated below d, the children go, in order, in
      front of the pending worklist, and the name is recorded. None stands
      for the exit on a library that cannot be opened or read. */
  function ProcessDep(needed: Needed, g: Graph, d: nat): (r: Option<Graph>)
    requires d < |g.nodes|
    ensures g.nodes[d].name in g.deps ==> r == Some(g)
    ensures g.nodes[d].name !in g.deps ==> (r.None? <==> needed(g.nodes[d].name).None?)
    ensures r.Some? && g.nodes[d].name !in g.deps ==>
      var libs := needed(g.nodes[d].name).value;
      var k := |g.nodes|;
      && |r.value.nodes| == k + |libs|
      && r.value.nodes[d] == g.nodes[d].(children := g.nodes[d].children + Range(k, |libs|))
      && (forall i :: 0 <= i < k && i != d ==> r.value.nodes[i] == g.nodes[i])
      && (forall j :: 0 <= j < |libs| ==>
            r.value.nodes[k + j] == Node(libs[j], Some(d), [], g.nodes[d].depth + 1))
      && r.value.work == Range(k, |libs|) + g.work
      && r.value.deps == g.deps[g.nodes[d].name := libs]
  {
    var nd := g.nodes[d];
    if nd.name in g.deps then Some(g)
    else match needed(nd.name)
      case None => None
      case Some(libs) =>
        var k := |g.nodes|;
        var born := seq(|libs|, j requires 0 <= j < |libs| => Node(libs[j], Some(d), [], nd.depth + 1));
        var nodes := g.nodes[d := nd.(children := nd.children + Range(k, |libs|))] + born;
        Some(Graph(nodes, Range(k, |libs|) + g.work, g.deps[nd.name := libs]))
  }

  /** The invariant of the worklist loop over a universe U of names that
      `needed` never leaves: every node not yet popped is on the worklist,
      every popped node's name has a record, and every recorded name occurs
      in the arena. */
  ghost predicate Walk(needed: Needed, U: set<string>, root: string, g: Graph)
  {
    && Tree(g.nodes)
    && (forall i :: 0 <= i < |g.work| ==> g.work[i] < |g.nodes|)
    && Recorded(needed, g)
    && g.nodes[0].name == root
    && (forall i :: 0 <= i < |g.nodes| ==> g.nodes[i].name in U)
    && (forall i :: 0 <= i < |g.nodes| ==> g.nodes[i].name in g.deps || i in g.work)
    && (forall x :: x in g.deps ==> x in Names(g.nodes))
    && (forall x, y :: x in g.deps && y in g.deps[x] ==> y in Names(g.nodes))
    && (forall i, j :: 0 <= i < j < |g.work| ==> g.work[i] != g.work[j])
  }

  ghost predicate Closed(needed: Needed, U: set<string>)
  {
    forall x, y :: x in U && needed(x).Some? && y in needed(x).value ==> y in U
  }

  /** The arena and records after ProcessDep on a name seen for the first
      time (the worklist is dealt with separately). */
  ghost predicate Grown(h: Graph, s: Graph, d: nat, libs: seq<string>)
  {
    var k := |h.nodes|;
    && d < k
    && |s.nodes| == k + |libs|
    && s.nodes[d] == h.nodes[d].(children := h.nodes[d].children + Range(k, |libs|))
    && (forall i :: 0 <= i < k && i != d ==> s.nodes[i] == h.nodes[i])
    && (forall j :: 0 <= j < |libs| ==> s.nodes[k + j] == Node(libs[j], Some(d), [], h.nodes[d].depth + 1))
    && s.deps == h.deps[h.nodes[d].name := libs]
  }

  lemma {:induction false} GrownNodes(h: Graph, s: Graph, d: nat, libs: seq<string>)
    requires Grown(h, s, d, libs)
    ensures forall i :: 0 <= i < |h.nodes| ==>
      s.nodes[i].name == h.nodes[i].name && s.nodes[i].parent == h.nodes[i].parent &&
      s.nodes[i].depth == h.nodes[i].depth
    ensures forall i :: |h.nodes| <= i < |s.nodes| ==>
      s.nodes[i] == Node(libs[i - |h.nodes|], Some(d), [], h.nodes[d].depth + 1)
  {
    var k := |h.nodes|;
    forall i | k <= i < |s.nodes|
      ensures s.nodes[i] == Node(libs[i - k], Some(d), [], h.nodes[d].depth + 1)
    {
      assert s.nodes[k + (i - k)] == Node(libs[i - k], Some(d), [], h.nodes[d].depth + 1);
    }
  }

  /** One iteration of the loop keeps the loop invariant. */
  lemma {:induction false} StepWalk(needed: Needed, U: set<string>, root: string, g: Graph)
    requires Closed(needed, U) && Walk(needed, U, root, g) && g.work != []
    ensures var r := ProcessDep(needed, g.(work := g.work[1..]), g.work[0]);
      r.Some? ==> Walk(needed, U, root, r.value)
  {
    var d := g.work[0];
    var h := g.(work := g.work[1..]);
    var nd := g.nodes[d];
    var r := ProcessDep(needed, h, d);
    if nd.name in g.deps {
      StepWalkSeen(needed, U, root, g);
    } else if r.Some? {
      var libs := needed(nd.name).value;
      assert Grown(g, r.value, d, libs);
      StepWalkNew(needed, U, root, g, r.value, libs);
    }
  }

  /** StepWalk for a name that already has a record: only the pop. */
  lemma {:induction false} StepWalkSeen(needed: Needed, U: set<string>, root: string, g: Graph)
    requires Walk(needed, U, root, g) && g.work != [] && g.nodes[g.work[0]].name in g.deps
    ensures Walk(needed, U, root, g.(work := g.work[1..]))
  {
    var h := g.(work := g.work[1..]);
    forall i | 0 <= i < |g.nodes| && g.nodes[i].name !in g.deps
      ensures i in h.work
    {
      var w :| 0 <= w < |g.work| && g.work[w] == i;
      assert g.work[1..][w - 1] == i;
    }
  }

  /** StepWalk for a name seen for the first time. */
  lemma {:induction false} StepWalkNew(needed: Needed, U: set<string>, root: string, g: Graph, s: Graph, libs: seq<string>)
    requires Closed(needed, U) && Walk(needed, U, root, g) && g.work != []
    requires g.nodes[g.work[0]].name !in g.deps && needed(g.nodes[g.work[0]].name) == Some(libs)
    requires Grown(g, s, g.work[0], libs)
    requires s.work == Range(|g.nodes|, |libs|) + g.work[1..]
    ensures Walk(needed, U, root, s)
  {
    StepShape(needed, U, root, g, s, libs);
    var d := g.work[0];
    StepNamesInU(needed, U, g, s, d, libs);
    StepKeysInArena(g, s, d, libs);
    StepNeededInArena(g, s, d, libs);
    StepPending(g, s, d, libs);
  }

  /** The arena part of StepWalkNew: tree shape, worklist bounds, the root
      and the records. */
  lemma {:induction false} StepShape(needed: Needed, U: set<string>, root: string, g: Graph, s: Graph, libs: seq<string>)
    requires Walk(needed, U, root, g) && g.work != []
    requires g.nodes[g.work[0]].name !in g.deps && needed(g.nodes[g.work[0]].name) == Some(libs)
    requires Grown(g, s, g.work[0], libs)
    requires s.work == Range(|g.nodes|, |libs|) + g.work[1..]
    ensures Tree(s.nodes) && Recorded(needed, s) && s.nodes[0].name == root
    ensures forall i :: 0 <= i < |s.work| ==> s.work[i] < |s.nodes|
  {
    var d := g.work[0];
    assert !Expanded(g, d);
    assert g.nodes[d].children == [];
    StepValid(g, s, d, libs);
    StepRecorded(needed, g, s, d, libs);
    GrownNodes(g, s, d, libs);
  }

  /** The arena shape survives the allocation of d's children. */
  lemma {:induction false} StepValid(h: Graph, s: Graph, d: nat, libs: seq<string>)
    requires Tree(h.nodes) && Grown(h, s, d, libs) && h.nodes[d].children == []
    ensures Tree(s.nodes)
  {
    var k := |h.nodes|;
    GrownNodes(h, s, d, libs);
    forall i, j | 0 <= i < |s.nodes| && 0 <= j < |s.nodes[i].children|
      ensures i < s.nodes[i].children[j] < |s.nodes|
      ensures s.nodes[s.nodes[i].children[j]].parent == Some(i)
    {
      if i != d {
        assert s.nodes[i].children == h.nodes[i].children;
      }
    }
  }

  /** The records stay consistent with `needed` and with the children. */
  lemma {:induction false} StepRecorded(needed: Needed, g: Graph, s: Graph, d: nat, libs: seq<string>)
    requires Ordered(g.nodes) && Recorded(needed, g) && d < |g.nodes|
    requires g.nodes[d].name !in g.deps && needed(g.nodes[d].name) == Some(libs)
    requires g.nodes[d].children == []
    requires Grown(g, s, d, libs)
    ensures Recorded(needed, s)
  {
    var k := |g.nodes|;
    var name := g.nodes[d].name;
    GrownNodes(g, s, d, libs);
    forall i | 0 <= i < |s.nodes| && s.nodes[i].children != []
      ensures Expanded(s, i)
    {
      if i != d {
        var nd := g.nodes[i];
        assert s.nodes[i] == nd && Expanded(g, i);
        assert nd.name != name;
        forall j | 0 <= j < |nd.children| && nd.children[j] < |s.nodes|
          ensures s.nodes[nd.children[j]].name == s.deps[nd.name][j]
        {
          assert nd.children[j] < k;
        }
      }
    }
    forall o | 0 <= o < k && g.nodes[o].name == name
      ensures g.nodes[o].children == []
    {
      assert !Expanded(g, o);
    }
  }

  /** The names of the new nodes are needed names, so they stay in the
      universe. */
  lemma {:induction false} StepNamesInU(needed: Needed, U: set<string>, g: Graph, s: Graph, d: nat, libs: seq<string>)
    requires Closed(needed, U) && d < |g.nodes|
    requires forall i :: 0 <= i < |g.nodes| ==> g.nodes[i].name in U
    requires needed(g.nodes[d].name) == Some(libs)
    requires Grown(g, s, d, libs)
    ensures forall i :: 0 <= i < |s.nodes| ==> s.nodes[i].name in U
  {
    var k := |g.nodes|;
    GrownNodes(g, s, d, libs);
    forall i | k <= i < |s.nodes|
      ensures s.nodes[i].name in U
    {
      assert libs[i - k] in needed(g.nodes[d].name).value;
    }
  }

  /** Every recorded name occurs in the arena. */
  lemma {:induction false} StepKeysInArena(g: Graph, s: Graph, d: nat, libs: seq<string>)
    requires d < |g.nodes|
    requires forall x :: x in g.deps ==> x in Names(g.nodes)
    requires Grown(g, s, d, libs)
    ensures forall x :: x in s.deps ==> x in Names(s.nodes)
  {
    var k := |g.nodes|;
    GrownNodes(g, s, d, libs);
    var ns := Names(s.nodes);
    forall x | x in s.deps
      ensures x in ns
    {
      if x == g.nodes[d].name {
        assert ns[d] == x;
      } else {
        var i :| 0 <= i < k && Names(g.nodes)[i] == x;
        assert ns[i] == x;
      }
    }
  }

  /** Every name a record lists occurs in the arena. */
  lemma {:induction false} StepNeededInArena(g: Graph, s: Graph, d: nat, libs: seq<string>)
    requires d < |g.nodes|
    requires forall x, y :: x in g.deps && y in g.deps[x] ==> y in Names(g.nodes)
    requires Grown(g, s, d, libs)
    ensures forall x, y :: x in s.deps && y in s.deps[x] ==> y in Names(s.nodes)
  {
    var k := |g.nodes|;
    GrownNodes(g, s, d, libs);
    var ns := Names(s.nodes);
    forall x, y | x in s.deps && y in s.deps[x]
      ensures y in ns
    {
      if x == g.nodes[d].name {
        var j :| 0 <= j < |libs| && libs[j] == y;
        assert ns[k + j] == y;
      } else {
        assert x in g.deps && s.deps[x] == g.deps[x];
        assert y in g.deps[x];
        assert y in Names(g.nodes);
        var i :| 0 <= i < k && Names(g.nodes)[i] == y;
        assert ns[i] == y;
      }
    }
  }

  /** Every node not yet processed is on the worklist exactly once. */
  lemma {:induction false} StepPending(g: Graph, s: Graph, d: nat, libs: seq<string>)
    requires g.work != [] && d == g.work[0] && d < |g.nodes|
    requires forall i :: 0 <= i < |g.work| ==> g.work[i] < |g.nodes|
    requires forall i :: 0 <= i < |g.nodes| ==> g.nodes[i].name in g.deps || i in g.work
    requires forall i, j :: 0 <= i < j < |g.work| ==> g.work[i] != g.work[j]
    requires Grown(g, s, d, libs)
    requires s.work == Range(|g.nodes|, |libs|) + g.work[1..]
    ensures forall i :: 0 <= i < |s.nodes| ==> s.nodes[i].name in s.deps || i in s.work
    ensures forall i, j :: 0 <= i < j < |s.work| ==> s.work[i] != s.work[j]
  {
    var k := |g.nodes|;
    GrownNodes(g, s, d, libs);
    forall i | 0 <= i < |s.nodes| && s.nodes[i].name !in s.deps
      ensures i in s.work
    {
      if i >= k {
        assert s.work[i - k] == i;
      } else if i != d {
        var w :| 0 <= w < |g.work| && g.work[w] == i;
        assert s.work[|libs| + w - 1] == i;
      }
    }
    forall i, j | 0 <= i < j < |s.work|
      ensures s.work[i] != s.work[j]
    {
      if i >= |libs| {
        assert s.work[i] == g.work[i - |libs| + 1];
        assert s.work[j] == g.work[j - |libs| + 1];
      } else if j >= |libs| {
        assert s.work[j] == g.work[j - |libs| + 1] < k;
      }
    }
  }

  /** One iteration of the main loop: pop the front of the worklist and
      process it. */
  function Pop(needed: Needed, g: Graph): Option<Graph>
    requires g.work != [] && g.work[0] < |g.nodes|
  {
    ProcessDep(needed, g.(work := g.work[1..]), g.work[0])
  }

  /** The state after n iterations of the main loop; None once the
      program has exited or the worklist has run out. */
  function Pops(needed: Needed, g: Graph, n: nat): Option<Graph>
  {
    if n == 0 then Some(g)
    else match Pops(needed, g, n - 1)
      case None => None
      case Some(h) => if h.work != [] && h.work[0] < |h.nodes| then Pop(needed, h) else None
  }

  lemma {:induction false} PopsNext(needed: Needed, g0: Graph, n: nat, g: Graph)
    requires Pops(needed, g0, n) == Some(g) && g.work != [] && g.work[0] < |g.nodes|
    ensures Pops(needed, g0, n + 1) == Pop(needed, g)
  {
  }

  /** A chain of libraries, each one needed by the one before it. */
  ghost predicate Chain(needed: Needed, p: seq<string>)
  {
    && |p| >= 1
    && forall k :: 0 <= k < |p| - 1 ==> needed(p[k]).Some? && p[k + 1] in needed(p[k]).value
  }

  /** x is the root or is needed, directly or through other libraries, by
      the root. */
  ghost predicate Reachable(needed: Needed, root: string, x: string)
  {
    exists p :: Chain(needed, p) && p[0] == root && p[|p| - 1] == x
  }

  /** Every node of the arena is reachable from the root. */
  ghost predicate AllReachable(needed: Needed, root: string, g: Graph)
  {
    forall i :: 0 <= i < |g.nodes| ==> Reachable(needed, root, g.nodes[i].name)
  }

  /** A pop only adds nodes for libraries needed by a node already there,
      so every node stays reachable. */
  lemma {:induction false} PopReachable(needed: Needed, root: string, g: Graph)
    requires g.work != [] && g.work[0] < |g.nodes|
    requires AllReachable(needed, root, g) && Pop(needed, g).Some?
    ensures AllReachable(needed, root, Pop(needed, g).value)
  {
    var d := g.work[0];
    var name := g.nodes[d].name;
    var s := Pop(needed, g).value;
    if name !in g.deps {
      var libs := needed(name).value;
      var k := |g.nodes|;
      assert Reachable(needed, root, name);
      forall i | 0 <= i < |s.nodes|
        ensures Reachable(needed, root, s.nodes[i].name)
      {
        if i >= k {
          assert s.nodes[k + (i - k)].name == libs[i - k];
          NeededReachable(needed, root, name, libs[i - k]);
        } else if i != d {
          assert s.nodes[i] == g.nodes[i];
        }
      }
    }
  }

  /** A library needed by a reachable one is reachable. */
  lemma {:induction false} NeededReachable(needed: Needed, root: string, x: string, y: string)
    requires Reachable(needed, root, x) && needed(x).Some? && y in needed(x).value
    ensures Reachable(needed, root, y)
  {
    var p :| Chain(needed, p) && p[0] == root && p[|p| - 1] == x;
    var q := p + [y];
    assert Chain(needed, q) by {
      forall m | 0 <= m < |q| - 1
        ensures needed(q[m]).Some? && q[m + 1] in needed(q[m]).value
      {
        if m < |p| - 1 {
          assert q[m] == p[m] && q[m + 1] == p[m + 1];
        }
      }
    }
    assert q[0] == root && q[|q| - 1] == y;
  }

  /** Records closed under the needed relation and holding the root hold
      every reachable name. */
  lemma {:induction false} ChainRecorded(needed: Needed, deps: map<string, seq<string>>, p: seq<string>)
    requires Chain(needed, p) && p[0] in deps
    requires forall x :: x in deps ==> needed(x) == Some(deps[x])
    requires forall x, y :: x in deps && y in deps[x] ==> y in deps
    ensures p[|p| - 1] in deps
    decreases |p|
  {
    if |p| > 1 {
      var q := p[..|p| - 1];
      assert Chain(needed, q) by {
        forall m | 0 <= m < |q| - 1
          ensures needed(q[m]).Some? && q[m + 1] in needed(q[m]).value
        {
          assert q[m] == p[m] && q[m + 1] == p[m + 1];
        }
      }
      ChainRecorded(needed, deps, q);
      assert p[|p| - 2] == q[|q| - 1];
    }
  }

  /** At the end of the walk the records are exactly the reachable names:
      each recorded name labels a node, every node is reachable, and the
      records hold the root and are closed under the needed relation. */
  lemma {:induction false} RecordsReachable(needed: Needed, U: set<string>, root: string, g: Graph)
    requires Walk(needed, U, root, g) && g.work == [] && AllReachable(needed, root, g)
    ensures forall x :: x in g.deps <==> Reachable(needed, root, x)
  {
    Closure(needed, U, root, g);
    forall x
      ensures x in g.deps <==> Reachable(needed, root, x)
    {
      if x in g.deps {
        var i :| 0 <= i < |g.nodes| && Names(g.nodes)[i] == x;
      }
      if Reachable(needed, root, x) {
        var p :| Chain(needed, p) && p[0] == root && p[|p| - 1] == x;
        assert Names(g.nodes)[0] == root;
        ChainRecorded(needed, g.deps, p);
      }
    }
  }

  /** The main loop: pop the front of the worklist and process it until the
      worklist is empty. Given a universe of names closed under `needed`,
      it ends; on success the records are exactly the names reachable
      from the root, every name that occurs in the tree has exactly one
      record, and each expanded node lists its needed libraries as
      children in order. */
  method BuildDeps(needed: Needed, U: set<string>, root: string) returns (r: Option<Graph>)
    requires root in U && Closed(needed, U)
    ensures r.Some? ==> Tree(r.value.nodes) && Recorded(needed, r.value)
    ensures r.Some? ==> r.value.work == [] && r.value.nodes[0].name == root
    ensures r.Some? ==> forall x :: x in r.value.deps <==> x in Names(r.value.nodes)
    ensures r.Some? ==> forall x, y :: x in r.value.deps && y in r.value.deps[x] ==> y in r.value.deps
    ensures r.Some? ==> exists n :: Pops(needed, Init(root), n) == r
    ensures r.Some? ==> r.value.deps.Keys <= U
    ensures r.Some? ==> forall x :: x in r.value.deps <==> Reachable(needed, root, x)
    ensures r.None? ==> exists x :: x in U && needed(x) == None
  {
    var g := Init(root);
    ghost var n := 0;
    assert Chain(needed, [root]);
    while g.work != []
      invariant Walk(needed, U, root, g)
      invariant AllReachable(needed, root, g)
      invariant g.deps.Keys <= U
      invariant Pops(needed, Init(root), n) == Some(g)
      decreases |U - g.deps.Keys|, |g.work|
    {
      var next := Pop(needed, g);
      if next.None? {
        ExitWitness(needed, U, root, g);
        return None;
      }
      LoopStep(needed, U, root, g, n);
      PopReachable(needed, root, g);
      g := next.value;
      n := n + 1;
    }
    Closure(needed, U, root, g);
    RecordsReachable(needed, U, root, g);
    return Some(g);
  }

  /** One iteration of BuildDeps: the invariant is kept, the state is the
      next one of Pops, and either a new name is recorded or the worklist
      shrinks. */
  lemma {:induction false} LoopStep(needed: Needed, U: set<string>, root: string, g: Graph, n: nat)
    requires Closed(needed, U) && Walk(needed, U, root, g) && g.work != [] && g.deps.Keys <= U
    requires Pops(needed, Init(root), n) == Some(g) && Pop(needed, g).Some?
    ensures var s := Pop(needed, g).value;
      && Walk(needed, U, root, s) && s.deps.Keys <= U
      && Pops(needed, Init(root), n + 1) == Some(s)
      && (|U - s.deps.Keys| < |U - g.deps.Keys| ||
          (s.deps.Keys == g.deps.Keys && |s.work| < |g.work|))
  {
    var d := g.work[0];
    var name := g.nodes[d].name;
    StepWalk(needed, U, root, g);
    PopsNext(needed, Init(root), n, g);
    var s := Pop(needed, g).value;
    if name !in g.deps {
      assert U - s.deps.Keys < U - g.deps.Keys by {
        assert name in U - g.deps.Keys && name !in U - s.deps.Keys;
      }
    }
  }

  /** When processing fails, some name of the universe has no needed
      list: the program exits on it. */
  lemma {:induction false} ExitWitness(needed: Needed, U: set<string>, root: string, g: Graph)
    requires Walk(needed, U, root, g) && g.work != [] && Pop(needed, g).None?
    ensures exists x :: x in U && needed(x) == None
  {
    var name := g.nodes[g.work[0]].name;
    assert name in U && needed(name) == None;
  }

  /** With the worklist empty, every name in the tree has a record, so the
      records are closed under the needed relation. */
  lemma {:induction false} Closure(needed: Needed, U: set<string>, root: string, g: Graph)
    requires Walk(needed, U, root, g) && g.work == []
    ensures forall x :: x in g.deps <==> x in Names(g.nodes)
    ensures forall x, y :: x in g.deps && y in g.deps[x] ==> y in g.deps
  {
  }

  /** The needed relation A→{B,C}, B→D, C→D (D needs nothing). */
  function DiamondNeeded(): Needed
  {
    (x: string) => if x == "A" then Some(["B", "C"]) else if x == "B" || x == "C" then Some(["D"]) else Some([])
  }

  function DiamondAfter2(): Graph
  {
    Graph([Node("A", None, [1, 2], 0), Node("B", Some(0), [3], 1), Node("C", Some(0), [], 1),
      Node("D", Some(1), [], 2)], [3, 2], map["A" := ["B", "C"], "B" := ["D"]])
  }

  function DiamondAfter4(): Graph
  {
    Graph([Node("A", None, [1, 2], 0), Node("B", Some(0), [3], 1), Node("C", Some(0), [4], 1),
      Node("D", Some(1), [], 2), Node("D", Some(2), [], 2)], [4],
      map["A" := ["B", "C"], "B" := ["D"], "D" := [], "C" := ["D"]])
  }

  function DiamondAfter1(): Graph
  {
    Graph([Node("A", None, [1, 2], 0), Node("B", Some(0), [], 1), Node("C", Some(0), [], 1)],
      [1, 2], map["A" := ["B", "C"]])
  }

  function DiamondAfter3(): Graph
  {
    DiamondAfter2().(work := [2], deps := DiamondAfter2().deps["D" := []])
  }

  lemma {:induction false} DiamondStep1()
    ensures Pop(DiamondNeeded(), Init("A")) == Some(DiamondAfter1())
  {
    var g := Init("A");
    assert g.work[1..] == [];
    var h := g.(work := []);
    assert DiamondNeeded()("A") == Some(["B", "C"]);
    var r := ProcessDep(DiamondNeeded(), h, 0);
    assert r.Some?;
    assert Range(1, 2) == [1, 2];
    assert r.value.nodes[0] == Node("A", None, [1, 2], 0);
    assert r.value.nodes[1] == Node("B", Some(0), [], 1);
    assert r.value.nodes[2] == Node("C", Some(0), [], 1);
    assert r.value.nodes == DiamondAfter1().nodes;
    assert r.value.work == [1, 2];
    assert r.value.deps == DiamondAfter1().deps;
  }

  lemma {:induction false} DiamondStep2()
    ensures Pop(DiamondNeeded(), DiamondAfter1()) == Some(DiamondAfter2())
  {
    var g := DiamondAfter1();
    assert g.work[1..] == [2];
    var h := g.(work := [2]);
    assert DiamondNeeded()("B") == Some(["D"]);
    var r := ProcessDep(DiamondNeeded(), h, 1);
    assert r.Some?;
    assert Range(3, 1) == [3];
    assert r.value.nodes[1] == Node("B", Some(0), [3], 1);
    assert r.value.nodes[3] == Node("D", Some(1), [], 2);
    assert r.value.nodes == DiamondAfter2().nodes;
    assert r.value.work == [3, 2];
    assert r.value.deps == DiamondAfter2().deps;
  }

  lemma {:induction false} DiamondStep3()
    ensures Pop(DiamondNeeded(), DiamondAfter2()) == Some(DiamondAfter3())
  {
    var g := DiamondAfter2();
    assert g.work[1..] == [2];
    var h := g.(work := [2]);
    assert DiamondNeeded()("D") == Some([]);
    var r := ProcessDep(DiamondNeeded(), h, 3);
    assert r.Some?;
    assert Range(4, 0) == [];
    assert r.value.nodes[3] == g.nodes[3];
    assert r.value.nodes == DiamondAfter3().nodes;
    assert r.value.work == [2];
    assert r.value.deps == DiamondAfter3().deps;
  }

  lemma {:induction false} DiamondStep4()
    ensures Pop(DiamondNeeded(), DiamondAfter3()) == Some(DiamondAfter4())
  {
    var g := DiamondAfter3();
    assert g.work[1..] == [];
    var h := g.(work := []);
    assert DiamondNeeded()("C") == Some(["D"]);
    var r := ProcessDep(DiamondNeeded(), h, 2);
    assert r.Some?;
    assert Range(4, 1) == [4];
    assert r.value.nodes[2] == Node("C", Some(0), [4], 1);
    assert r.value.nodes[4] == Node("D", Some(2), [], 2);
    assert r.value.nodes == DiamondAfter4().nodes;
    assert r.value.work == [4];
    assert r.value.deps == DiamondAfter4().deps;
  }

  lemma {:induction false} DiamondStep5()
    ensures Pop(DiamondNeeded(), DiamondAfter4()) == Some(DiamondAfter4().(work := []))
  {
    var g := DiamondAfter4();
    assert g.work[1..] == [];
    assert g.nodes[4].name == "D" && "D" in g.deps;
  }

  /** A→{B,C}, B→D, C→D: after five iterations the worklist is empty; D is
      expanded under B, its second occurrence under C stays childless, and
      there are four records. */
  lemma {:induction false} Diamond()
    ensures Pops(DiamondNeeded(), Init("A"), 5) == Some(DiamondAfter4().(work := []))
    ensures DiamondAfter4().deps.Keys == {"A", "B", "C", "D"}
  {
    var needed := DiamondNeeded();
    var g0 := Init("A");
    DiamondStep1();
    PopsNext(needed, g0, 0, g0);
    DiamondStep2();
    PopsNext(needed, g0, 1, DiamondAfter1());
    DiamondStep3();
    PopsNext(needed, g0, 2, DiamondAfter2());
    DiamondStep4();
    PopsNext(needed, g0, 3, DiamondAfter3());
    DiamondStep5();
    PopsNext(needed, g0, 4, DiamondAfter4());
  }
}

=== FILE: dynamic.dfy ===
/**
  Reading the dynamic section (main.go:187-247): the `(d_tag, d_val)` word
  pairs of `.dynamic`, decoded at the file's word width and byte order,
  with string-valued tags resolved through the `.dynstr` string table (the
  System V ABI, chapter 4 "String Table" and chapter 5 "Dynamic Section").

  Section lookups and reads are inputs: a missing section is `None`, and a
  section whose data cannot be read has `data == None`. Go runtime panics
  (an index out of range, a division by zero, a nil dereference) are the
  outcome `Crash`.
 */
module Dynamic {
  import opened Wrappers

  type byte = x: int | 0 <= x < 256

  function Pow256(n: nat): (r: nat)
    ensures r >= 1
  {
    if n == 0 then 1 else 256 * Pow256(n - 1)
  }

  // ---------------------------------------------------------------------
  // Words in either byte order (encoding/binary's Uint32 and Uint64)

  /** Little-endian: the first byte is the least significant. */
  function LE(bs: seq<byte>): (r: nat)
    ensures r < Pow256(|bs|)
  {
    if bs == [] then 0 else bs[0] + 256 * LE(bs[1..])
  }

  /** Big-endian: the last byte is the least significant. */
  function BE(bs: seq<byte>): (r: nat)
    ensures r < Pow256(|bs|)
  {
    if bs == [] then 0 else BE(bs[..|bs| - 1]) * 256 + bs[|bs| - 1]
  }

  function Word(bs: seq<byte>, big: bool): nat
  {
    if big then BE(bs) else LE(bs)
  }

  /** The n little-endian bytes of v. */
  function EncodeLE(v: nat, n: nat): (r: seq<byte>)
    requires v < Pow256(n)
    ensures |r| == n && LE(r) == v
  {
    if n == 0 then [] else [v % 256] + EncodeLE(v / 256, n - 1)
  }

  /** The n big-endian bytes of v. */
  function EncodeBE(v: nat, n: nat): (r: seq<byte>)
    requires v < Pow256(n)
    ensures |r| == n && BE(r) == v
  {
    if n == 0 then [] else
      var r := EncodeBE(v / 256, n - 1) + [v % 256];
      assert r[..n - 1] == EncodeBE(v / 256, n - 1);
      r
  }

  /** Decoding loses nothing: the bytes are recovered from the value. */
  lemma {:induction false} LERoundTrip(bs: seq<byte>)
    ensures EncodeLE(LE(bs), |bs|) == bs
  {
    if bs != [] {
      LERoundTrip(bs[1..]);
      ByteSplit(bs[0], LE(bs[1..]));
      assert [bs[0]] + bs[1..] == bs;
    }
  }

  lemma {:induction false} BERoundTrip(bs: seq<byte>)
    ensures EncodeBE(BE(bs), |bs|) == bs
  {
    if bs != [] {
      var front := bs[..|bs| - 1];
      BERoundTrip(front);
      ByteSplit(bs[|bs| - 1], BE(front));
      assert front + [bs[|bs| - 1]] == bs;
    }
  }

  /** The low byte and the rest of a value, recovered by % 256 and / 256. */
  lemma {:induction false} ByteSplit(low: byte, high: nat)
    ensures (low + 256 * high) % 256 == low
    ensures (low + 256 * high) / 256 == high
    ensures (high * 256 + low) % 256 == low
    ensures (high * 256 + low) / 256 == high
  {
  }

  function Reverse(bs: seq<byte>): (r: seq<byte>)
    ensures |r| == |bs| && forall k :: 0 <= k < |bs| ==> r[k] == bs[|bs| - 1 - k]
  {
    if bs == [] then [] else [bs[|bs| - 1]] + Reverse(bs[..|bs| - 1])
  }

  /** The two byte orders read the same bytes in opposite directions. */
  lemma {:induction false} BEIsReversedLE(bs: seq<byte>)
    ensures BE(bs) == LE(Reverse(bs))
  {
    if bs != [] {
      BEIsReversedLE(bs[..|bs| - 1]);
      assert Reverse(bs)[1..] == Reverse(bs[..|bs| - 1]);
    }
  }

  // ---------------------------------------------------------------------
  // readElfString (main.go:187-195)

  /** Go's string conversion: one character per byte. */
  function Chars(bs: seq<byte>): (r: string)
    ensures |r| == |bs| && forall k :: 0 <= k < |bs| ==> r[k] == bs[k] as char
  {
    seq(|bs|, k requires 0 <= k < |bs| => bs[k] as char)
  }

  /** The string at offset i of a string table: the bytes up to the first
      NUL at or after i, each byte one character. Without such a NUL the
      code indexes past the table (None). */
  function ElfString(strtab: seq<byte>, i: nat): (r: Option<string>)
    ensures r.Some? <==> exists j :: i <= j < |strtab| && strtab[j] == 0
    ensures r.Some? ==> i + |r.value| < |strtab| && strtab[i + |r.value|] == 0
    ensures r.Some? ==> forall j :: i <= j < i + |r.value| ==> strtab[j] != 0
    ensures r.Some? ==> r.value == Chars(strtab[i..i + |r.value|])
    decreases |strtab| - i
  {
    if i >= |strtab| then None
    else if strtab[i] == 0 then Some([])
    else
      match ElfString(strtab, i + 1)
      case None => None
      case Some(s) =>
        assert Chars(strtab[i..i + 1 + |s|]) == [strtab[i] as char] + Chars(strtab[i + 1..i + 1 + |s|]);
        Some([strtab[i] as char] + s)
  }

  /** readElfString's loop: count bytes up to the NUL, then slice. */
  method ReadElfString(strtab: seq<byte>, i: nat) returns (r: Option<string>)
    ensures r == ElfString(strtab, i)
  {
    var len := 0;
    while i + len < |strtab| && strtab[i + len] != 0
      invariant i + len <= |strtab| || len == 0
      invariant forall j :: i <= j < i + len ==> strtab[j] != 0
      decreases |strtab| - i - len
    {
      len := len + 1;
    }
    if i + len >= |strtab| {
      assert forall j :: i <= j < |strtab| ==> strtab[j] != 0;
      return None;
    }
    r := Some(Chars(strtab[i..i + len]));
    ElfStringAt(strtab, i, len);
  }

  /** When the first NUL at or after i is at i + len, the string is the
      len bytes before it. */
  lemma {:induction false} ElfStringAt(strtab: seq<byte>, i: nat, len: nat)
    requires i + len < |strtab| && strtab[i + len] == 0
    requires forall j :: i <= j < i + len ==> strtab[j] != 0
    ensures ElfString(strtab, i) == Some(Chars(strtab[i..i + len]))
    decreases len
  {
    if len > 0 {
      ElfStringAt(strtab, i + 1, len - 1);
      assert Chars(strtab[i..i + len]) == [strtab[i] as char] + Chars(strtab[i + 1..i + len]);
    }
  }

  // ---------------------------------------------------------------------
  // readDynamic (main.go:197-247)

  const DT_NULL := 0
  const DT_NEEDED := 1
  const DT_RPATH := 15
  const DT_RUNPATH := 29
  const DT_SONAME := 14

  /** Tags whose value is an offset into `.dynstr`. */
  predicate StringTag(tag: nat)
  {
    tag == DT_NEEDED || tag == DT_RPATH || tag == DT_RUNPATH || tag == DT_SONAME
  }

  /** A section as far as readDynamic uses it: its header sizes and its
      data, `None` when reading failed. */
  datatype Section = Section(size: nat, entsize: nat, data: Option<seq<byte>>)

  datatype DynVal = Str(s: string) | Num(n: nat)
  datatype DynInfo = DynInfo(tag: nat, val: DynVal)

  /** NotRead is the code's -1; Read is 0 with the entries appended. */
  datatype Outcome = NotRead | Crash | Read(dyns: seq<DynInfo>)

  /** The word width: 8 bytes for ELFCLASS64, 4 otherwise. */
  function Width(class64: bool): (w: nat)
    ensures w > 0
  {
    if class64 then 8 else 4
  }

  /** Bytes m * w up to (m + 1) * w: word number m of the data. */
  function Chunk(data: seq<byte>, w: nat, m: nat): (r: seq<byte>)
    requires w > 0 && m < |data| / w
    ensures 0 <= m * w && m * w + w <= |data|
    ensures r == data[m * w..m * w + w]
  {
    ChunkInside(m, w, |data|);
    data[m * w..m * w + w]
  }

  /** The data cut into whole words of w bytes, each decoded; trailing
      bytes that do not fill a word are not read. */
  function Words(data: seq<byte>, w: nat, big: bool): (r: seq<nat>)
    requires w > 0
    ensures |r| == |data| / w
    ensures forall m :: 0 <= m < |r| ==> r[m] == Word(Chunk(data, w, m), big)
  {
    seq(|data| / w, m requires 0 <= m < |data| / w => Word(Chunk(data, w, m), big))
  }

  /** The w bytes of v in the file's byte order. */
  function EncodeWord(v: nat, w: nat, big: bool): (r: seq<byte>)
    requires v < Pow256(w)
    ensures |r| == w && Word(r, big) == v
  {
    if big then EncodeBE(v, w) else EncodeLE(v, w)
  }

  /** Every value fits in w bytes. */
  predicate Fits(vs: seq<nat>, w: nat)
  {
    forall m :: 0 <= m < |vs| ==> vs[m] < Pow256(w)
  }

  /** The section data holding vs, one w-byte word after the other. */
  function EncodeWords(vs: seq<nat>, w: nat, big: bool): seq<byte>
    requires Fits(vs, w)
  {
    Flatten(seq(|vs|, m requires 0 <= m < |vs| => EncodeWord(vs[m], w, big)))
  }

  /** The pieces laid end to end. */
  function Flatten(cs: seq<seq<byte>>): seq<byte>
  {
    if cs == [] then [] else cs[0] + Flatten(cs[1..])
  }

  /** Every piece is w bytes long. */
  predicate Uniform(cs: seq<seq<byte>>, w: nat)
  {
    forall m :: 0 <= m < |cs| ==> |cs[m]| == w
  }

  /** n words of w bytes, counted by repeated addition. */
  function Times(n: nat, w: nat): nat
  {
    if n == 0 then 0 else w + Times(n - 1, w)
  }

  /** Repeated addition is multiplication. */
  lemma {:induction false} TimesIsProduct(n: nat, w: nat)
    ensures Times(n, w) == n * w
    decreases n
  {
    if n > 0 {
      TimesIsProduct(n - 1, w);
      assert n * w == w + (n - 1) * w;
    }
  }

  /** Reading the words back: data made of whole words followed by fewer
      than w stray bytes decodes to exactly the values written, in order;
      the stray bytes are dropped. */
  lemma {:induction false} WordsRoundTrip(vs: seq<nat>, tail: seq<byte>, w: nat, big: bool)
    requires w > 0 && Fits(vs, w) && |tail| < w
    ensures Words(EncodeWords(vs, w, big) + tail, w, big) == vs
  {
    var cs := seq(|vs|, m requires 0 <= m < |vs| => EncodeWord(vs[m], w, big));
    assert Uniform(cs, w);
    var data := Flatten(cs) + tail;
    FlattenLength(cs, w);
    TimesIsProduct(|vs|, w);
    DivPlus(|vs|, w, |tail|);
    var r := Words(data, w, big);
    forall m | 0 <= m < |vs|
      ensures r[m] == vs[m]
    {
      ChunkOfFlatten(cs, tail, w, m);
    }
  }

  /** Word m of whole pieces followed by stray bytes is piece m. */
  lemma {:induction false} ChunkOfFlatten(cs: seq<seq<byte>>, tail: seq<byte>, w: nat, m: nat)
    requires w > 0 && Uniform(cs, w) && m < |cs|
    requires m < |Flatten(cs) + tail| / w
    ensures Chunk(Flatten(cs) + tail, w, m) == cs[m]
  {
    var e := Flatten(cs);
    FlattenAt(cs, w, m);
    TimesIsProduct(m, w);
    assert (e + tail)[m * w..m * w + w] == e[m * w..m * w + w];
  }

  /** n pieces of w bytes make Times(n, w) bytes. */
  lemma {:induction false} FlattenLength(cs: seq<seq<byte>>, w: nat)
    requires Uniform(cs, w)
    ensures |Flatten(cs)| == Times(|cs|, w)
    decreases |cs|
  {
    if cs != [] {
      assert Uniform(cs[1..], w) by { assert forall k :: 0 <= k < |cs| - 1 ==> cs[1..][k] == cs[k + 1]; }
      FlattenLength(cs[1..], w);
    }
  }

  /** Piece m sits at offset Times(m, w) of the flattened data. */
  lemma {:induction false} FlattenAt(cs: seq<seq<byte>>, w: nat, m: nat)
    requires Uniform(cs, w) && m < |cs|
    ensures Times(m, w) + w <= |Flatten(cs)|
    ensures Flatten(cs)[Times(m, w)..Times(m, w) + w] == cs[m]
    decreases m
  {
    var rest := cs[1..];
    assert Uniform(rest, w) by { assert forall k :: 0 <= k < |cs| - 1 ==> rest[k] == cs[k + 1]; }
    FlattenLength(rest, w);
    assert Flatten(cs) == cs[0] + Flatten(rest);
    if m == 0 {
      assert (cs[0] + Flatten(rest))[..w] == cs[0];
    } else {
      FlattenAt(rest, w, m - 1);
      assert rest[m - 1] == cs[m];
      SliceAfter(cs[0], Flatten(rest), Times(m - 1, w), Times(m - 1, w) + w);
    }
  }

  /** Slicing past the first part of a concatenation slices the second. */
  lemma {:induction false} SliceAfter(a: seq<byte>, b: seq<byte>, i: nat, j: nat)
    requires i <= j <= |b|
    ensures (a + b)[|a| + i..|a| + j] == b[i..j]
  {
    assert forall k :: 0 <= k < j - i ==> (a + b)[|a| + i..|a| + j][k] == b[i..j][k];
  }

  /** Fewer than w bytes past a multiple of w do not add a word. */
  lemma {:induction false} DivPlus(a: nat, w: nat, t: nat)
    requires w > 0 && t < w
    ensures (a * w + t) / w == a
  {
    var x := a * w + t;
    var q := x / w;
    var r := x % w;
    assert q * w + r == x;
    if q > a {
      MulAtLeast(q - a, a, w);
    } else if q < a {
      MulAtLeast(a - q, q, w);
    }
  }

  /** Multiplying by at least one more adds at least w. */
  lemma {:induction false} MulAtLeast(k: nat, a: nat, w: nat)
    requires k >= 1
    ensures (a + k) * w >= a * w + w
  {
    assert (a + k) * w == a * w + k * w;
    assert k * w >= w;
  }

  /** Word m lies inside the data when m is below the word count. */
  lemma {:induction false} ChunkInside(m: nat, w: nat, len: nat)
    requires w > 0 && m < len / w
    ensures 0 <= m * w && m * w + w <= len
  {
    var q := len / w;
    assert q * w <= len;
    assert m + 1 <= q;
    assert (m + 1) * w <= q * w;
  }

  /** The indices, in order, of the first n entries that are not DT_NULL:
      entry k is the words 2k (tag) and 2k + 1 (value). */
  function Kept(words: seq<nat>, n: nat): (r: seq<nat>)
    requires 2 * n <= |words|
    ensures forall j :: 0 <= j < |r| ==> r[j] < n && words[2 * r[j]] != DT_NULL
    ensures forall j, l :: 0 <= j < l < |r| ==> r[j] < r[l]
    ensures forall k :: 0 <= k < n && words[2 * k] != DT_NULL ==> k in r
  {
    if n == 0 then []
    else
      var prev := Kept(words, n - 1);
      if words[2 * (n - 1)] == DT_NULL then prev else prev + [n - 1]
  }

  /** Every string-valued entry among the first n has its string. */
  ghost predicate Resolvable(words: seq<nat>, stab: seq<byte>, n: nat)
    requires 2 * n <= |words|
  {
    forall k :: 0 <= k < n && StringTag(words[2 * k]) ==> ElfString(stab, words[2 * k + 1]).Some?
  }

  /** The entry the code appends for entry k. */
  function Entry(words: seq<nat>, stab: seq<byte>, k: nat): DynInfo
    requires 2 * k + 1 < |words|
    requires StringTag(words[2 * k]) ==> ElfString(stab, words[2 * k + 1]).Some?
  {
    var tag, val := words[2 * k], words[2 * k + 1];
    if StringTag(tag) then DynInfo(tag, Str(ElfString(stab, val).value)) else DynInfo(tag, Num(val))
  }

  /** `dyns` is one entry per non-null entry, in on-disk order. */
  ghost predicate Decoded(dyns: seq<DynInfo>, words: seq<nat>, stab: seq<byte>, n: nat)
    requires 2 * n <= |words| && Resolvable(words, stab, n)
  {
    var kept := Kept(words, n);
    |dyns| == |kept| && forall j :: 0 <= j < |dyns| ==> dyns[j] == Entry(words, stab, kept[j])
  }

  /** readDynamic. The `.dynamic` section missing or unreadable, or the
      `.dynstr` data unreadable, give -1 with nothing appended; a missing
      `.dynstr` is dereferenced anyway, and a zero entry size divides by
      zero. Otherwise the Size / Entsize entries are scanned in order:
      DT_NULL entries are skipped without ending the scan, string-valued
      tags carry their `.dynstr` string and every other tag its raw value.
      The scan fails when the data is too short for the entry count or a
      string offset has no terminating NUL. */
  method ReadDynamic(dynamic: Option<Section>, dynstr: Option<Section>, class64: bool, big: bool)
    returns (r: Outcome)
    ensures dynamic.None? || dynamic.value.data.None? ==> r == NotRead
    ensures dynamic.Some? && dynamic.value.data.Some? && dynstr.None? ==> r == Crash
    ensures dynamic.Some? && dynamic.value.data.Some? && dynstr.Some? && dynstr.value.data.None? ==> r == NotRead
    ensures dynamic.Some? && dynamic.value.data.Some? && dynstr.Some? && dynstr.value.data.Some? ==>
      var words := Words(dynamic.value.data.value, Width(class64), big);
      var stab := dynstr.value.data.value;
      && (dynamic.value.entsize == 0 ==> r == Crash)
      && (dynamic.value.entsize > 0 ==>
           var n := dynamic.value.size / dynamic.value.entsize;
           && (r.Read? <==> 2 * n <= |words| && Resolvable(words, stab, n))
           && (r.Read? ==> Decoded(r.dyns, words, stab, n))
           && (!r.Read? ==> r == Crash))
  {
    if dynamic.None? || dynamic.value.data.None? {
      return NotRead;
    }
    if dynstr.None? {
      return Crash;
    }
    if dynstr.value.data.None? {
      return NotRead;
    }
    var stab := dynstr.value.data.value;
    if dynamic.value.entsize == 0 {
      return Crash;
    }
    var count := dynamic.value.size / dynamic.value.entsize;
    var words := Words(dynamic.value.data.value, Width(class64), big);
    r := ScanEntries(words, stab, count);
  }

  /** readDynamic's loop over the first n entries. */
  method ScanEntries(words: seq<nat>, stab: seq<byte>, n: nat) returns (r: Outcome)
    ensures r.Read? <==> 2 * n <= |words| && Resolvable(words, stab, n)
    ensures r.Read? ==> Decoded(r.dyns, words, stab, n)
    ensures !r.Read? ==> r == Crash
  {
    var dyns: seq<DynInfo> := [];
    var i := 0;
    while i < n
      invariant i <= n && 2 * i <= |words|
      invariant Resolvable(words, stab, i)
      invariant Decoded(dyns, words, stab, i)
    {
      if 2 * i + 2 > |words| {
        return Crash;
      }
      var tag, val := words[2 * i], words[2 * i + 1];
      if StringTag(tag) {
        var s := ReadElfString(stab, val);
        if s.None? {
          Unresolvable(words, stab, i, n);
          return Crash;
        }
        DecodedStep(dyns, words, stab, i);
        dyns := dyns + [DynInfo(tag, Str(s.value))];
      } else {
        DecodedStep(dyns, words, stab, i);
        if tag != DT_NULL {
          dyns := dyns + [DynInfo(tag, Num(val))];
        }
      }
      i := i + 1;
    }
    r := Read(dyns);
  }

  /** One more entry: a null entry adds nothing, any other adds its
      decoded form. */
  lemma {:induction false} DecodedStep(dyns: seq<DynInfo>, words: seq<nat>, stab: seq<byte>, i: nat)
    requires 2 * i + 2 <= |words| && Resolvable(words, stab, i) && Decoded(dyns, words, stab, i)
    requires StringTag(words[2 * i]) ==> ElfString(stab, words[2 * i + 1]).Some?
    ensures Resolvable(words, stab, i + 1)
    ensures words[2 * i] == DT_NULL ==> Decoded(dyns, words, stab, i + 1)
    ensures words[2 * i] != DT_NULL ==> Decoded(dyns + [Entry(words, stab, i)], words, stab, i + 1)
  {
    ResolvableStep(words, stab, i);
    if words[2 * i] == DT_NULL {
      DecodedSkip(dyns, words, stab, i);
    } else {
      DecodedAppend(dyns, words, stab, i);
    }
  }

  lemma {:induction false} ResolvableStep(words: seq<nat>, stab: seq<byte>, i: nat)
    requires 2 * i + 2 <= |words| && Resolvable(words, stab, i)
    requires StringTag(words[2 * i]) ==> ElfString(stab, words[2 * i + 1]).Some?
    ensures Resolvable(words, stab, i + 1)
  {
  }

  lemma {:induction false} DecodedSkip(dyns: seq<DynInfo>, words: seq<nat>, stab: seq<byte>, i: nat)
    requires 2 * i + 2 <= |words| && Resolvable(words, stab, i + 1) && words[2 * i] == DT_NULL
    requires Decoded(dyns, words, stab, i)
    ensures Decoded(dyns, words, stab, i + 1)
  {
    assert Kept(words, i + 1) == Kept(words, i);
  }

  lemma {:induction false} DecodedAppend(dyns: seq<DynInfo>, words: seq<nat>, stab: seq<byte>, i: nat)
    requires 2 * i + 2 <= |words| && Resolvable(words, stab, i + 1) && words[2 * i] != DT_NULL
    requires Decoded(dyns, words, stab, i)
    ensures Decoded(dyns + [Entry(words, stab, i)], words, stab, i + 1)
  {
    assert Kept(words, i + 1) == Kept(words, i) + [i];
  }

  lemma {:induction false} Unresolvable(words: seq<nat>, stab: seq<byte>, i: nat, n: nat)
    requires i < n && 2 * i + 2 <= |words|
    requires StringTag(words[2 * i]) && ElfString(stab, words[2 * i + 1]).None?
    ensures 2 * n <= |words| ==> !Resolvable(words, stab, n)
  {
  }

  /** A DT_NULL entry does not end the scan: every later non-null entry is
      still decoded. */
  lemma {:induction false} NullDoesNotStop(words: seq<nat>, n: nat, k: nat, l: nat)
    requires 2 * n <= |words| && k < l < n
    requires words[2 * k] == DT_NULL && words[2 * l] != DT_NULL
    ensures l in Kept(words, n) && k !in Kept(words, n)
  {
  }
}

=== FILE: elf_strings.dfy ===
/**
  The ELF formatters (elf.go): DT_FLAGS and DT_FLAGS_1 names, section flag
  letters, program header flag triples and type names, symbol type and
  binding tokens, and the per-entry lines of the dynamic section (the
  System V ABI, chapter 4 "Sections" and "Symbol Table", chapter 5
  "Program Header" and "Dynamic Section").

  Go's uint64 and uint32 fields are `bv64` and `bv32`; the uint8 `st_info`
  is the `byte` range 0..255, as its two halves are read with `%` and `/`.
  The printf column layout is not modelled: a line is its tokens.
 */
module ElfStrings {
  import opened Wrappers
  import opened Dynamic
  import opened Resolver

  // ---------------------------------------------------------------------
  // Flag tables

  /** One flag bit and the name printed for it. */
  datatype Flag = Flag(mask: bv64, name: string)

  /** DT_FLAGS, bits 0x1 to 0x10 (strFlags). */
  const DtFlags: seq<Flag> := [
    Flag(0x1, "ORIGIN"), Flag(0x2, "SYMBOLIC"), Flag(0x4, "TEXTREL"), Flag(0x8, "BIND_NOW"),
    Flag(0x10, "STATIC_TLS")]

  /** DT_FLAGS_1, bits 0x1 to 0x2000000 (strFlags1). */
  const DtFlags1: seq<Flag> := [
    Flag(0x1, "NOW"), Flag(0x2, "GLOBAL"), Flag(0x4, "GROUP"), Flag(0x8, "NODELETE"),
    Flag(0x10, "LOADFLTR"), Flag(0x20, "INITFIRST"), Flag(0x40, "NOOPEN"), Flag(0x80, "ORIGIN"),
    Flag(0x100, "DIRECT"), Flag(0x200, "TRANS"), Flag(0x400, "INTERPOSE"), Flag(0x800, "NODEFLIB"),
    Flag(0x1000, "NODUMP"), Flag(0x2000, "CONFLAT"), Flag(0x4000, "ENDFILTEE"), Flag(0x8000, "DISPRELDNE"),
    Flag(0x10000, "DISPRELPND"), Flag(0x20000, "NODIRECT"), Flag(0x40000, "IGNMULDEF"), Flag(0x80000, "NOKSYMS"),
    Flag(0x100000, "NOHDR"), Flag(0x200000, "EDITED"), Flag(0x400000, "NORELOC"), Flag(0x800000, "SYMINTPOSE"),
    Flag(0x1000000, "GLOBAUDIT"), Flag(0x2000000, "SINGLETON")]

  /** sh_flags letters (makeSectionString); bit 0x8 has none. */
  const ShFlags: seq<Flag> := [
    Flag(0x1, "W"), Flag(0x2, "A"), Flag(0x4, "X"), Flag(0x10, "M"), Flag(0x20, "S"), Flag(0x40, "I"),
    Flag(0x80, "L"), Flag(0x100, "O"), Flag(0x200, "G"), Flag(0x400, "T"), Flag(0x800, "C")]

  ghost predicate Distinct(tab: seq<Flag>)
  {
    forall i, j :: 0 <= i < j < |tab| ==> tab[i].name != tab[j].name
  }

  /** Whether any bit of mask m is set in v (the code's `(val & m) != 0`). */
  predicate Has(v: bv64, m: bv64)
  {
    v & m != 0
  }

  /** The names of the flags from index b on whose bit is set in v, in
      table order (the code's chain of `if (val & mask) != 0` appends). */
  function SetNames(tab: seq<Flag>, v: bv64, b: nat): (r: seq<string>)
    requires b <= |tab|
    ensures |r| <= |tab| - b
    decreases |tab| - b
  {
    if b == |tab| then []
    else
      var rest := SetNames(tab, v, b + 1);
      if Has(v, tab[b].mask) then [tab[b].name] + rest else rest
  }

  /** A name no flag from index b on carries is not listed. */
  lemma {:induction false} NotListed(tab: seq<Flag>, v: bv64, b: nat, x: string)
    requires b <= |tab|
    requires forall k :: b <= k < |tab| ==> tab[k].name != x
    ensures x !in SetNames(tab, v, b)
    decreases |tab| - b
  {
    if b < |tab| {
      NotListed(tab, v, b + 1, x);
    }
  }

  /** With distinct names, a name is listed exactly when its bit is set. */
  lemma {:induction false} SetNamesMember(tab: seq<Flag>, v: bv64, b: nat, k: nat)
    requires Distinct(tab) && b <= k < |tab|
    ensures tab[k].name in SetNames(tab, v, b) <==> Has(v, tab[k].mask)
    decreases |tab| - b
  {
    if b < k {
      SetNamesMember(tab, v, b + 1, k);
      assert tab[b].name != tab[k].name;
    } else {
      NotListed(tab, v, b + 1, tab[k].name);
    }
  }

  /** The values' bits agree on every flag from index b on. */
  predicate AgreeFrom(tab: seq<Flag>, v: bv64, u: bv64, b: nat)
    requires b <= |tab|
    decreases |tab| - b
  {
    b == |tab| || (Has(v, tab[b].mask) == Has(u, tab[b].mask) && AgreeFrom(tab, v, u, b + 1))
  }

  /** Values whose bits agree on every flag print the same names. */
  lemma {:induction false} SetNamesAgree(tab: seq<Flag>, v: bv64, u: bv64, b: nat)
    requires b <= |tab| && AgreeFrom(tab, v, u, b)
    ensures SetNames(tab, v, b) == SetNames(tab, u, b)
    decreases |tab| - b
  {
    if b < |tab| {
      SetNamesAgree(tab, v, u, b + 1);
    }
  }

  /** With distinct names, values printing the same names agree on every
      flag. */
  lemma {:induction false} SameNamesAgree(tab: seq<Flag>, v: bv64, u: bv64, b: nat)
    requires Distinct(tab) && b <= |tab| && SetNames(tab, v, 0) == SetNames(tab, u, 0)
    ensures AgreeFrom(tab, v, u, b)
    decreases |tab| - b
  {
    if b < |tab| {
      SetNamesMember(tab, v, 0, b);
      SetNamesMember(tab, u, 0, b);
      SameNamesAgree(tab, v, u, b + 1);
    }
  }

  /** strFlags: the DT_FLAGS names joined by '|'. */
  function StrFlags(val: bv64): string
  {
    Join(SetNames(DtFlags, val, 0), '|')
  }

  /** strFlags1: the DT_FLAGS_1 names joined by '|'. */
  function StrFlags1(val: bv64): string
  {
    Join(SetNames(DtFlags1, val, 0), '|')
  }

  /** The section flag letters, concatenated. */
  function SectionFlags(val: bv64): string
  {
    Concat(SetNames(ShFlags, val, 0))
  }

  function Concat(parts: seq<string>): string
  {
    if parts == [] then "" else parts[0] + Concat(parts[1..])
  }

  // ---------------------------------------------------------------------
  // Exhaustive properties of the three flag formatters

  lemma {:induction false} DtFlagsDistinct()
    ensures Distinct(DtFlags)
  {
  }

  /** DT_FLAGS_1 names are distinct, checked a few rows at a time. */
  lemma {:induction false} DtFlags1Distinct()
    ensures Distinct(DtFlags1)
  {
    DtFlags1DistinctFrom0();
    DtFlags1DistinctFrom3();
    DtFlags1DistinctFrom6();
    DtFlags1DistinctFrom9();
    DtFlags1DistinctFrom12();
    DtFlags1DistinctFrom15();
    DtFlags1DistinctFrom18();
    DtFlags1DistinctFrom21();
    DtFlags1DistinctFrom24();
  }

  lemma {:induction false} DtFlags1DistinctFrom0()
    ensures forall i, j :: 0 <= i < 3 && i < j < |DtFlags1| ==> DtFlags1[i].name != DtFlags1[j].name
  {
  }

  lemma {:induction false} DtFlags1DistinctFrom3()
    ensures forall i, j :: 3 <= i < 6 && i < j < |DtFlags1| ==> DtFlags1[i].name != DtFlags1[j].name
  {
  }

  lemma {:induction false} DtFlags1DistinctFrom6()
    ensures forall i, j :: 6 <= i < 9 && i < j < |DtFlags1| ==> DtFlags1[i].name != DtFlags1[j].name
  {
  }

  lemma {:induction false} DtFlags1DistinctFrom9()
    ensures forall i, j :: 9 <= i < 12 && i < j < |DtFlags1| ==> DtFlags1[i].name != DtFlags1[j].name
  {
  }

  lemma {:induction false} DtFlags1DistinctFrom12()
    ensures forall i, j :: 12 <= i < 15 && i < j < |DtFlags1| ==> DtFlags1[i].name != DtFlags1[j].name
  {
  }

  lemma {:induction false} DtFlags1DistinctFrom15()
    ensures forall i, j :: 15 <= i < 18 && i < j < |DtFlags1| ==> DtFlags1[i].name != DtFlags1[j].name
  {
  }

  lemma {:induction false} DtFlags1DistinctFrom18()
    ensures forall i, j :: 18 <= i < 21 && i < j < |DtFlags1| ==> DtFlags1[i].name != DtFlags1[j].name
  {
  }

  lemma {:induction false} DtFlags1DistinctFrom21()
    ensures forall i, j :: 21 <= i < 24 && i < j < |DtFlags1| ==> DtFlags1[i].name != DtFlags1[j].name
  {
  }

  lemma {:induction false} DtFlags1DistinctFrom24()
    ensures forall i, j :: 24 <= i < 26 && i < j < |DtFlags1| ==> DtFlags1[i].name != DtFlags1[j].name
  {
  }

  lemma {:induction false} ShFlagsDistinct()
    ensures Distinct(ShFlags)
  {
  }

  lemma {:induction false} DtFlagsMasks()
    ensures DtFlags[0].mask == 0x1
    ensures DtFlags[1].mask == 0x2
    ensures DtFlags[2].mask == 0x4
    ensures DtFlags[3].mask == 0x8
    ensures DtFlags[4].mask == 0x10
  {
  }

  /** Agreement on every DT_FLAGS flag, bit by bit. */
  lemma {:induction false} DtFlagsBits(v: bv64, u: bv64)
    requires AgreeFrom(DtFlags, v, u, 0)
    ensures Has(v, 0x1) == Has(u, 0x1)
    ensures Has(v, 0x2) == Has(u, 0x2)
    ensures Has(v, 0x4) == Has(u, 0x4)
    ensures Has(v, 0x8) == Has(u, 0x8)
    ensures Has(v, 0x10) == Has(u, 0x10)
  {
    DtFlagsMasks();
    assert AgreeFrom(DtFlags, v, u, 1);
    assert AgreeFrom(DtFlags, v, u, 2);
    assert AgreeFrom(DtFlags, v, u, 3);
    assert AgreeFrom(DtFlags, v, u, 4);
  }

  lemma {:induction false} DtFlagsCombine(v: bv64, u: bv64)
    requires Has(v, 0x1) == Has(u, 0x1)
    requires Has(v, 0x2) == Has(u, 0x2)
    requires Has(v, 0x4) == Has(u, 0x4)
    requires Has(v, 0x8) == Has(u, 0x8)
    requires Has(v, 0x10) == Has(u, 0x10)
    ensures v & 0x1f == u & 0x1f
  {
  }

  lemma {:induction false} DtFlagsSeparate(v: bv64, u: bv64)
    requires v & 0x1f == u & 0x1f
    ensures Has(v, 0x1) == Has(u, 0x1)
    ensures Has(v, 0x2) == Has(u, 0x2)
    ensures Has(v, 0x4) == Has(u, 0x4)
    ensures Has(v, 0x8) == Has(u, 0x8)
    ensures Has(v, 0x10) == Has(u, 0x10)
  {
  }

  lemma {:induction false} DtFlagsAgree(v: bv64, u: bv64)
    requires Has(v, 0x1) == Has(u, 0x1)
    requires Has(v, 0x2) == Has(u, 0x2)
    requires Has(v, 0x4) == Has(u, 0x4)
    requires Has(v, 0x8) == Has(u, 0x8)
    requires Has(v, 0x10) == Has(u, 0x10)
    ensures AgreeFrom(DtFlags, v, u, 0)
  {
    DtFlagsMasks();
    assert AgreeFrom(DtFlags, v, u, 4);
    assert AgreeFrom(DtFlags, v, u, 3);
    assert AgreeFrom(DtFlags, v, u, 2);
    assert AgreeFrom(DtFlags, v, u, 1);
    assert AgreeFrom(DtFlags, v, u, 0);
  }

  lemma {:induction false} DtFlags1Masks0()
    ensures DtFlags1[0].mask == 0x1
    ensures DtFlags1[1].mask == 0x2
    ensures DtFlags1[2].mask == 0x4
    ensures DtFlags1[3].mask == 0x8
    ensures DtFlags1[4].mask == 0x10
    ensures DtFlags1[5].mask == 0x20
    ensures DtFlags1[6].mask == 0x40
  {
  }

  lemma {:induction false} DtFlags1Masks1()
    ensures DtFlags1[7].mask == 0x80
    ensures DtFlags1[8].mask == 0x100
    ensures DtFlags1[9].mask == 0x200
    ensures DtFlags1[10].mask == 0x400
    ensures DtFlags1[11].mask == 0x800
    ensures DtFlags1[12].mask == 0x1000
    ensures DtFlags1[13].mask == 0x2000
  {
  }

  lemma {:induction false} DtFlags1Masks2()
    ensures DtFlags1[14].mask == 0x4000
    ensures DtFlags1[15].mask == 0x8000
    ensures DtFlags1[16].mask == 0x10000
    ensures DtFlags1[17].mask == 0x20000
    ensures DtFlags1[18].mask == 0x40000
    ensures DtFlags1[19].mask == 0x80000
    ensures DtFlags1[20].mask == 0x100000
  {
  }

  lemma {:induction false} DtFlags1Masks3()
    ensures DtFlags1[21].mask == 0x200000
    ensures DtFlags1[22].mask == 0x400000
    ensures DtFlags1[23].mask == 0x800000
    ensures DtFlags1[24].mask == 0x1000000
    ensures DtFlags1[25].mask == 0x2000000
  {
  }

  /** Agreement on every DT_FLAGS_1 flag, bit by bit. */
  lemma {:induction false} DtFlags1Bits(v: bv64, u: bv64)
    requires AgreeFrom(DtFlags1, v, u, 0)
    ensures Has(v, 0x1) == Has(u, 0x1)
    ensures Has(v, 0x2) == Has(u, 0x2)
    ensures Has(v, 0x4) == Has(u, 0x4)
    ensures Has(v, 0x8) == Has(u, 0x8)
    ensures Has(v, 0x10) == Has(u, 0x10)
    ensures Has(v, 0x20) == Has(u, 0x20)
    ensures Has(v, 0x40) == Has(u, 0x40)
    ensures Has(v, 0x80) == Has(u, 0x80)
    ensures Has(v, 0x100) == Has(u, 0x100)
    ensures Has(v, 0x200) == Has(u, 0x200)
    ensures Has(v, 0x400) == Has(u, 0x400)
    ensures Has(v, 0x800) == Has(u, 0x800)
    ensures Has(v, 0x1000) == Has(u, 0x1000)
    ensures Has(v, 0x2000) == Has(u, 0x2000)
    ensures Has(v, 0x4000) == Has(u, 0x4000)
    ensures Has(v, 0x8000) == Has(u, 0x8000)
    ensures Has(v, 0x10000) == Has(u, 0x10000)
    ensures Has(v, 0x20000) == Has(u, 0x20000)
    ensures Has(v, 0x40000) == Has(u, 0x40000)
    ensures Has(v, 0x80000) == Has(u, 0x80000)
    ensures Has(v, 0x100000) == Has(u, 0x100000)
    ensures Has(v, 0x200000) == Has(u, 0x200000)
    ensures Has(v, 0x400000) == Has(u, 0x400000)
    ensures Has(v, 0x800000) == Has(u, 0x800000)
    ensures Has(v, 0x1000000) == Has(u, 0x1000000)
    ensures Has(v, 0x2000000) == Has(u, 0x2000000)
  {
    DtFlags1Masks0();
    DtFlags1Masks1();
    DtFlags1Masks2();
    DtFlags1Masks3();
    assert AgreeFrom(DtFlags1, v, u, 1);
    assert AgreeFrom(DtFlags1, v, u, 2);
    assert AgreeFrom(DtFlags1, v, u, 3);
    assert AgreeFrom(DtFlags1, v, u, 4);
    assert AgreeFrom(DtFlags1, v, u, 5);
    assert AgreeFrom(DtFlags1, v, u, 6);
    assert AgreeFrom(DtFlags1, v, u, 7);
    assert AgreeFrom(DtFlags1, v, u, 8);
    assert AgreeFrom(DtFlags1, v, u, 9);
    assert AgreeFrom(DtFlags1, v, u, 10);
    assert AgreeFrom(DtFlags1, v, u, 11);
    assert AgreeFrom(DtFlags1, v, u, 12);
    assert AgreeFrom(DtFlags1, v, u, 13);
    assert AgreeFrom(DtFlags1, v, u, 14);
    assert AgreeFrom(DtFlags1, v, u, 15);
    assert AgreeFrom(DtFlags1, v, u, 16);
    assert AgreeFrom(DtFlags1, v, u, 17);
    assert AgreeFrom(DtFlags1, v, u, 18);
    assert AgreeFrom(DtFlags1, v, u, 19);
    assert AgreeFrom(DtFlags1, v, u, 20);
    assert AgreeFrom(DtFlags1, v, u, 21);
    assert AgreeFrom(DtFlags1, v, u, 22);
    assert AgreeFrom(DtFlags1, v, u, 23);
    assert AgreeFrom(DtFlags1, v, u, 24);
    assert AgreeFrom(DtFlags1, v, u, 25);
  }

  lemma {:induction false} DtFlags1Combine(v: bv64, u: bv64)
    requires Has(v, 0x1) == Has(u, 0x1)
    requires Has(v, 0x2) == Has(u, 0x2)
    requires Has(v, 0x4) == Has(u, 0x4)
    requires Has(v, 0x8) == Has(u, 0x8)
    requires Has(v, 0x10) == Has(u, 0x10)
    requires Has(v, 0x20) == Has(u, 0x20)
    requires Has(v, 0x40) == Has(u, 0x40)
    requires Has(v, 0x80) == Has(u, 0x80)
    requires Has(v, 0x100) == Has(u, 0x100)
    requires Has(v, 0x200) == Has(u, 0x200)
    requires Has(v, 0x400) == Has(u, 0x400)
    requires Has(v, 0x800) == Has(u, 0x800)
    requires Has(v, 0x1000) == Has(u, 0x1000)
    requires Has(v, 0x2000) == Has(u, 0x2000)
    requires Has(v, 0x4000) == Has(u, 0x4000)
    requires Has(v, 0x8000) == Has(u, 0x8000)
    requires Has(v, 0x10000) == Has(u, 0x10000)
    requires Has(v, 0x20000) == Has(u, 0x20000)
    requires Has(v, 0x40000) == Has(u, 0x40000)
    requires Has(v, 0x80000) == Has(u, 0x80000)
    requires Has(v, 0x100000) == Has(u, 0x100000)
    requires Has(v, 0x200000) == Has(u, 0x200000)
    requires Has(v, 0x400000) == Has(u, 0x400000)
    requires Has(v, 0x800000) == Has(u, 0x800000)
    requires Has(v, 0x1000000) == Has(u, 0x1000000)
    requires Has(v, 0x2000000) == Has(u, 0x2000000)
    ensures v & 0x3ffffff == u & 0x3ffffff
  {
  }

  lemma {:induction false} DtFlags1Separate(v: bv64, u: bv64)
    requires v & 0x3ffffff == u & 0x3ffffff
    ensures Has(v, 0x1) == Has(u, 0x1)
    ensures Has(v, 0x2) == Has(u, 0x2)
    ensures Has(v, 0x4) == Has(u, 0x4)
    ensures Has(v, 0x8) == Has(u, 0x8)
    ensures Has(v, 0x10) == Has(u, 0x10)
    ensures Has(v, 0x20) == Has(u, 0x20)
    ensures Has(v, 0x40) == Has(u, 0x40)
    ensures Has(v, 0x80) == Has(u, 0x80)
    ensures Has(v, 0x100) == Has(u, 0x100)
    ensures Has(v, 0x200) == Has(u, 0x200)
    ensures Has(v, 0x400) == Has(u, 0x400)
    ensures Has(v, 0x800) == Has(u, 0x800)
    ensures Has(v, 0x1000) == Has(u, 0x1000)
    ensures Has(v, 0x2000) == Has(u, 0x2000)
    ensures Has(v, 0x4000) == Has(u, 0x4000)
    ensures Has(v, 0x8000) == Has(u, 0x8000)
    ensures Has(v, 0x10000) == Has(u, 0x10000)
    ensures Has(v, 0x20000) == Has(u, 0x20000)
    ensures Has(v, 0x40000) == Has(u, 0x40000)
    ensures Has(v, 0x80000) == Has(u, 0x80000)
    ensures Has(v, 0x100000) == Has(u, 0x100000)
    ensures Has(v, 0x200000) == Has(u, 0x200000)
    ensures Has(v, 0x400000) == Has(u, 0x400000)
    ensures Has(v, 0x800000) == Has(u, 0x800000)
    ensures Has(v, 0x1000000) == Has(u, 0x1000000)
    ensures Has(v, 0x2000000) == Has(u, 0x2000000)
  {
  }

  lemma {:induction false} DtFlags1Agree0(v: bv64, u: bv64)
    requires Has(v, 0x2000) == Has(u, 0x2000)
    requires Has(v, 0x4000) == Has(u, 0x4000)
    requires Has(v, 0x8000) == Has(u, 0x8000)
    requires Has(v, 0x10000) == Has(u, 0x10000)
    requires Has(v, 0x20000) == Has(u, 0x20000)
    requires Has(v, 0x40000) == Has(u, 0x40000)
    requires Has(v, 0x80000) == Has(u, 0x80000)
    requires Has(v, 0x100000) == Has(u, 0x100000)
    requires Has(v, 0x200000) == Has(u, 0x200000)
    requires Has(v, 0x400000) == Has(u, 0x400000)
    requires Has(v, 0x800000) == Has(u, 0x800000)
    requires Has(v, 0x1000000) == Has(u, 0x1000000)
    requires Has(v, 0x2000000) == Has(u, 0x2000000)
    ensures AgreeFrom(DtFlags1, v, u, 13)
  {
    DtFlags1Masks0();
    DtFlags1Masks1();
    DtFlags1Masks2();
    DtFlags1Masks3();
    assert AgreeFrom(DtFlags1, v, u, 25);
    assert AgreeFrom(DtFlags1, v, u, 24);
    assert AgreeFrom(DtFlags1, v, u, 23);
    assert AgreeFrom(DtFlags1, v, u, 22);
    assert AgreeFrom(DtFlags1, v, u, 21);
    assert AgreeFrom(DtFlags1, v, u, 20);
    assert AgreeFrom(DtFlags1, v, u, 19);
    assert AgreeFrom(DtFlags1, v, u, 18);
    assert AgreeFrom(DtFlags1, v, u, 17);
    assert AgreeFrom(DtFlags1, v, u, 16);
    assert AgreeFrom(DtFlags1, v, u, 15);
    assert AgreeFrom(DtFlags1, v, u, 14);
    assert AgreeFrom(DtFlags1, v, u, 13);
  }

  lemma {:induction false} DtFlags1Agree1(v: bv64, u: bv64)
    requires AgreeFrom(DtFlags1, v, u, 13)
    requires Has(v, 0x1) == Has(u, 0x1)
    requires Has(v, 0x2) == Has(u, 0x2)
    requires Has(v, 0x4) == Has(u, 0x4)
    requires Has(v, 0x8) == Has(u, 0x8)
    requires Has(v, 0x10) == Has(u, 0x10)
    requires Has(v, 0x20) == Has(u, 0x20)
    requires Has(v, 0x40) == Has(u, 0x40)
    requires Has(v, 0x80) == Has(u, 0x80)
    requires Has(v, 0x100) == Has(u, 0x100)
    requires Has(v, 0x200) == Has(u, 0x200)
    requires Has(v, 0x400) == Has(u, 0x400)
    requires Has(v, 0x800) == Has(u, 0x800)
    requires Has(v, 0x1000) == Has(u, 0x1000)
    ensures AgreeFrom(DtFlags1, v, u, 0)
  {
    DtFlags1Masks0();
    DtFlags1Masks1();
    DtFlags1Masks2();
    DtFlags1Masks3();
    assert AgreeFrom(DtFlags1, v, u, 12);
    assert AgreeFrom(DtFlags1, v, u, 11);
    assert AgreeFrom(DtFlags1, v, u, 10);
    assert AgreeFrom(DtFlags1, v, u, 9);
    assert AgreeFrom(DtFlags1, v, u, 8);
    assert AgreeFrom(DtFlags1, v, u, 7);
    assert AgreeFrom(DtFlags1, v, u, 6);
    assert AgreeFrom(DtFlags1, v, u, 5);
    assert AgreeFrom(DtFlags1, v, u, 4);
    assert AgreeFrom(DtFlags1, v, u, 3);
    assert AgreeFrom(DtFlags1, v, u, 2);
    assert AgreeFrom(DtFlags1, v, u, 1);
    assert AgreeFrom(DtFlags1, v, u, 0);
  }

  lemma {:induction false} ShFlagsMasks0()
    ensures ShFlags[0].mask == 0x1
    ensures ShFlags[1].mask == 0x2
    ensures ShFlags[2].mask == 0x4
    ensures ShFlags[3].mask == 0x10
    ensures ShFlags[4].mask == 0x20
    ensures ShFlags[5].mask == 0x40
    ensures ShFlags[6].mask == 0x80
  {
  }

  lemma {:induction false} ShFlagsMasks1()
    ensures ShFlags[7].mask == 0x100
    ensures ShFlags[8].mask == 0x200
    ensures ShFlags[9].mask == 0x400
    ensures ShFlags[10].mask == 0x800
  {
  }

  /** Agreement on every section flag, bit by bit. */
  lemma {:induction false} ShFlagsBits(v: bv64, u: bv64)
    requires AgreeFrom(ShFlags, v, u, 0)
    ensures Has(v, 0x1) == Has(u, 0x1)
    ensures Has(v, 0x2) == Has(u, 0x2)
    ensures Has(v, 0x4) == Has(u, 0x4)
    ensures Has(v, 0x10) == Has(u, 0x10)
    ensures Has(v, 0x20) == Has(u, 0x20)
    ensures Has(v, 0x40) == Has(u, 0x40)
    ensures Has(v, 0x80) == Has(u, 0x80)
    ensures Has(v, 0x100) == Has(u, 0x100)
    ensures Has(v, 0x200) == Has(u, 0x200)
    ensures Has(v, 0x400) == Has(u, 0x400)
    ensures Has(v, 0x800) == Has(u, 0x800)
  {
    ShFlagsMasks0();
    ShFlagsMasks1();
    assert AgreeFrom(ShFlags, v, u, 1);
    assert AgreeFrom(ShFlags, v, u, 2);
    assert AgreeFrom(ShFlags, v, u, 3);
    assert AgreeFrom(ShFlags, v, u, 4);
    assert AgreeFrom(ShFlags, v, u, 5);
    assert AgreeFrom(ShFlags, v, u, 6);
    assert AgreeFrom(ShFlags, v, u, 7);
    assert AgreeFrom(ShFlags, v, u, 8);
    assert AgreeFrom(ShFlags, v, u, 9);
    assert AgreeFrom(ShFlags, v, u, 10);
  }

  lemma {:induction false} ShFlagsCombine(v: bv64, u: bv64)
    requires Has(v, 0x1) == Has(u, 0x1)
    requires Has(v, 0x2) == Has(u, 0x2)
    requires Has(v, 0x4) == Has(u, 0x4)
    requires Has(v, 0x10) == Has(u, 0x10)
    requires Has(v, 0x20) == Has(u, 0x20)
    requires Has(v, 0x40) == Has(u, 0x40)
    requires Has(v, 0x80) == Has(u, 0x80)
    requires Has(v, 0x100) == Has(u, 0x100)
    requires Has(v, 0x200) == Has(u, 0x200)
    requires Has(v, 0x400) == Has(u, 0x400)
    requires Has(v, 0x800) == Has(u, 0x800)
    ensures v & 0xff7 == u & 0xff7
  {
  }

  lemma {:induction false} ShFlagsSeparate(v: bv64, u: bv64)
    requires v & 0xff7 == u & 0xff7
    ensures Has(v, 0x1) == Has(u, 0x1)
    ensures Has(v, 0x2) == Has(u, 0x2)
    ensures Has(v, 0x4) == Has(u, 0x4)
    ensures Has(v, 0x10) == Has(u, 0x10)
    ensures Has(v, 0x20) == Has(u, 0x20)
    ensures Has(v, 0x40) == Has(u, 0x40)
    ensures Has(v, 0x80) == Has(u, 0x80)
    ensures Has(v, 0x100) == Has(u, 0x100)
    ensures Has(v, 0x200) == Has(u, 0x200)
    ensures Has(v, 0x400) == Has(u, 0x400)
    ensures Has(v, 0x800) == Has(u, 0x800)
  {
  }

  lemma {:induction false} ShFlagsAgree(v: bv64, u: bv64)
    requires Has(v, 0x1) == Has(u, 0x1)
    requires Has(v, 0x2) == Has(u, 0x2)
    requires Has(v, 0x4) == Has(u, 0x4)
    requires Has(v, 0x10) == Has(u, 0x10)
    requires Has(v, 0x20) == Has(u, 0x20)
    requires Has(v, 0x40) == Has(u, 0x40)
    requires Has(v, 0x80) == Has(u, 0x80)
    requires Has(v, 0x100) == Has(u, 0x100)
    requires Has(v, 0x200) == Has(u, 0x200)
    requires Has(v, 0x400) == Has(u, 0x400)
    requires Has(v, 0x800) == Has(u, 0x800)
    ensures AgreeFrom(ShFlags, v, u, 0)
  {
    ShFlagsMasks0();
    ShFlagsMasks1();
    assert AgreeFrom(ShFlags, v, u, 10);
    assert AgreeFrom(ShFlags, v, u, 9);
    assert AgreeFrom(ShFlags, v, u, 8);
    assert AgreeFrom(ShFlags, v, u, 7);
    assert AgreeFrom(ShFlags, v, u, 6);
    assert AgreeFrom(ShFlags, v, u, 5);
    assert AgreeFrom(ShFlags, v, u, 4);
    assert AgreeFrom(ShFlags, v, u, 3);
    assert AgreeFrom(ShFlags, v, u, 2);
    assert AgreeFrom(ShFlags, v, u, 1);
    assert AgreeFrom(ShFlags, v, u, 0);
  }

  /** Each DT_FLAGS name appears exactly when its bit is set. */
  lemma {:induction false} StrFlagsNames(val: bv64, k: nat)
    requires k < |DtFlags|
    ensures DtFlags[k].name in SetNames(DtFlags, val, 0) <==> val & DtFlags[k].mask != 0
  {
    DtFlagsDistinct();
    SetNamesMember(DtFlags, val, 0, k);
  }

  /** Each DT_FLAGS_1 name appears exactly when its bit is set. */
  lemma {:induction false} StrFlags1Names(val: bv64, k: nat)
    requires k < |DtFlags1|
    ensures DtFlags1[k].name in SetNames(DtFlags1, val, 0) <==> val & DtFlags1[k].mask != 0
  {
    DtFlags1Distinct();
    SetNamesMember(DtFlags1, val, 0, k);
  }

  /** The DT_FLAGS names decide the low five bits and nothing else: equal
      lists exactly when the values agree on 0x1f. */
  lemma {:induction false} StrFlagsDecides(v: bv64, u: bv64)
    ensures SetNames(DtFlags, v, 0) == SetNames(DtFlags, u, 0) <==> v & 0x1f == u & 0x1f
  {
    if SetNames(DtFlags, v, 0) == SetNames(DtFlags, u, 0) {
      DtFlagsSameBits(v, u);
    }
    if v & 0x1f == u & 0x1f {
      DtFlagsSameNames(v, u);
    }
  }

  lemma {:induction false} DtFlagsSameBits(v: bv64, u: bv64)
    requires SetNames(DtFlags, v, 0) == SetNames(DtFlags, u, 0)
    ensures v & 0x1f == u & 0x1f
  {
    DtFlagsDistinct();
    SameNamesAgree(DtFlags, v, u, 0);
    DtFlagsBits(v, u);
    DtFlagsCombine(v, u);
  }

  lemma {:induction false} DtFlagsSameNames(v: bv64, u: bv64)
    requires v & 0x1f == u & 0x1f
    ensures SetNames(DtFlags, v, 0) == SetNames(DtFlags, u, 0)
  {
    DtFlagsSeparate(v, u);
    DtFlagsAgree(v, u);
    SetNamesAgree(DtFlags, v, u, 0);
  }

  /** The DT_FLAGS_1 names decide bits 0x1 to 0x2000000: equal lists
      exactly when the values agree on 0x3ffffff. */
  lemma {:induction false} StrFlags1Decides(v: bv64, u: bv64)
    ensures SetNames(DtFlags1, v, 0) == SetNames(DtFlags1, u, 0) <==> v & 0x3ffffff == u & 0x3ffffff
  {
    if SetNames(DtFlags1, v, 0) == SetNames(DtFlags1, u, 0) {
      DtFlags1SameBits(v, u);
    }
    if v & 0x3ffffff == u & 0x3ffffff {
      DtFlags1SameNames(v, u);
    }
  }

  lemma {:induction false} DtFlags1SameBits(v: bv64, u: bv64)
    requires SetNames(DtFlags1, v, 0) == SetNames(DtFlags1, u, 0)
    ensures v & 0x3ffffff == u & 0x3ffffff
  {
    DtFlags1Distinct();
    SameNamesAgree(DtFlags1, v, u, 0);
    DtFlags1Bits(v, u);
    DtFlags1Combine(v, u);
  }

  lemma {:induction false} DtFlags1SameNames(v: bv64, u: bv64)
    requires v & 0x3ffffff == u & 0x3ffffff
    ensures SetNames(DtFlags1, v, 0) == SetNames(DtFlags1, u, 0)
  {
    DtFlags1Separate(v, u);
    DtFlags1Agree0(v, u);
    DtFlags1Agree1(v, u);
    SetNamesAgree(DtFlags1, v, u, 0);
  }

  /** The section letters decide the flag bits they show: equal lists
      exactly when the values agree on 0xff7 (bit 0x8 is never shown). */
  lemma {:induction false} SectionFlagsDecides(v: bv64, u: bv64)
    ensures SetNames(ShFlags, v, 0) == SetNames(ShFlags, u, 0) <==> v & 0xff7 == u & 0xff7
  {
    if SetNames(ShFlags, v, 0) == SetNames(ShFlags, u, 0) {
      ShFlagsSameBits(v, u);
    }
    if v & 0xff7 == u & 0xff7 {
      ShFlagsSameNames(v, u);
    }
  }

  lemma {:induction false} ShFlagsSameBits(v: bv64, u: bv64)
    requires SetNames(ShFlags, v, 0) == SetNames(ShFlags, u, 0)
    ensures v & 0xff7 == u & 0xff7
  {
    ShFlagsDistinct();
    SameNamesAgree(ShFlags, v, u, 0);
    ShFlagsBits(v, u);
    ShFlagsCombine(v, u);
  }

  lemma {:induction false} ShFlagsSameNames(v: bv64, u: bv64)
    requires v & 0xff7 == u & 0xff7
    ensures SetNames(ShFlags, v, 0) == SetNames(ShFlags, u, 0)
  {
    ShFlagsSeparate(v, u);
    ShFlagsAgree(v, u);
    SetNamesAgree(ShFlags, v, u, 0);
  }

  /** Every name from index b on is non-empty and free of the separator. */
  predicate Printable(tab: seq<Flag>, sep: char, b: nat)
    requires b <= |tab|
    decreases |tab| - b
  {
    b == |tab| || (tab[b].name != "" && sep !in tab[b].name && Printable(tab, sep, b + 1))
  }

  lemma {:induction false} ListedPrintable(tab: seq<Flag>, v: bv64, sep: char, b: nat, x: string)
    requires b <= |tab| && Printable(tab, sep, b) && x in SetNames(tab, v, b)
    ensures x != "" && sep !in x
    decreases |tab| - b
  {
    if x != tab[b].name {
      ListedPrintable(tab, v, sep, b + 1, x);
    }
  }

  /** A value with no bit set prints no name. */
  lemma {:induction false} NothingSet(tab: seq<Flag>, b: nat)
    requires b <= |tab|
    ensures SetNames(tab, 0, b) == []
    decreases |tab| - b
  {
    if b < |tab| {
      NothingSet(tab, b + 1);
    }
  }

  lemma {:induction false} DtFlagsPrintable()
    ensures Printable(DtFlags, '|', 0)
  {
    assert Printable(DtFlags, '|', 4);
    assert Printable(DtFlags, '|', 3);
    assert Printable(DtFlags, '|', 2);
    assert Printable(DtFlags, '|', 1);
    assert Printable(DtFlags, '|', 0);
  }

  /** Joining non-empty parts gives a non-empty string. */
  lemma {:induction false} JoinNonEmpty(parts: seq<string>, sep: char)
    requires parts != [] && parts[0] != ""
    ensures Join(parts, sep) != ""
  {
    if |parts| > 1 {
      assert Join(parts, sep)[0] == parts[0][0];
    }
  }

  /** No DT_FLAGS name contains the separator, so the '|'-joined string
      gives the list back (when there is at least one name; no names print
      ""). */
  lemma {:induction false} StrFlagsSplit(val: bv64)
    ensures StrFlags(val) == "" <==> val & 0x1f == 0
    ensures val & 0x1f != 0 ==> Split(StrFlags(val), '|') == SetNames(DtFlags, val, 0)
  {
    var names := SetNames(DtFlags, val, 0);
    StrFlagsDecides(val, 0);
    NothingSet(DtFlags, 0);
    DtFlagsPrintable();
    forall j | 0 <= j < |names|
      ensures names[j] != "" && '|' !in names[j]
    {
      ListedPrintable(DtFlags, val, '|', 0, names[j]);
    }
    if names != [] {
      JoinSplit(names, '|');
      JoinNonEmpty(names, '|');
    }
  }

  /** Every DT_FLAGS_1 name is non-empty and free of '|' (checked a few
      names at a time). */
  lemma {:induction false} DtFlags1Printable()
    ensures Printable(DtFlags1, '|', 0)
  {
    DtFlags1PrintableTo7();
    DtFlags1PrintableTo13();
    DtFlags1PrintableTo20();
    DtFlags1PrintableTo26();
    PrintableFrom(DtFlags1, '|', 0);
  }

  lemma {:induction false} DtFlags1PrintableTo7()
    ensures forall k :: 0 <= k < 7 ==> DtFlags1[k].name != "" && '|' !in DtFlags1[k].name
  {
  }

  lemma {:induction false} DtFlags1PrintableTo13()
    ensures forall k :: 7 <= k < 13 ==> DtFlags1[k].name != "" && '|' !in DtFlags1[k].name
  {
  }

  lemma {:induction false} DtFlags1PrintableTo20()
    ensures forall k :: 13 <= k < 20 ==> DtFlags1[k].name != "" && '|' !in DtFlags1[k].name
  {
  }

  lemma {:induction false} DtFlags1PrintableTo26()
    ensures forall k :: 20 <= k < 26 ==> DtFlags1[k].name != "" && '|' !in DtFlags1[k].name
  {
  }

  /** The recursive check follows from the check of every name. */
  lemma {:induction false} PrintableFrom(tab: seq<Flag>, sep: char, b: nat)
    requires b <= |tab|
    requires forall k :: b <= k < |tab| ==> tab[k].name != "" && sep !in tab[k].name
    ensures Printable(tab, sep, b)
    decreases |tab| - b
  {
    if b < |tab| {
      PrintableFrom(tab, sep, b + 1);
    }
  }

  /** No DT_FLAGS_1 name contains the separator, so the '|'-joined string
      gives the list back (when there is at least one name; no names print
      ""). */
  lemma {:induction false} StrFlags1Split(val: bv64)
    ensures StrFlags1(val) == "" <==> val & 0x3ffffff == 0
    ensures val & 0x3ffffff != 0 ==> Split(StrFlags1(val), '|') == SetNames(DtFlags1, val, 0)
  {
    var names := SetNames(DtFlags1, val, 0);
    StrFlags1Decides(val, 0);
    NothingSet(DtFlags1, 0);
    DtFlags1Printable();
    forall j | 0 <= j < |names|
      ensures names[j] != "" && '|' !in names[j]
    {
      ListedPrintable(DtFlags1, val, '|', 0, names[j]);
    }
    if names != [] {
      JoinSplit(names, '|');
      JoinNonEmpty(names, '|');
    }
  }

  /** The DT_FLAGS text shows exactly bits 0x1 to 0x10: two values print
      the same text if and only if they agree on 0x1f. */
  lemma {:induction false} StrFlagsText(v: bv64, u: bv64)
    ensures StrFlags(v) == StrFlags(u) <==> v & 0x1f == u & 0x1f
  {
    StrFlagsDecides(v, u);
    StrFlagsSplit(v);
    StrFlagsSplit(u);
    if StrFlags(v) == StrFlags(u) && v & 0x1f != 0 {
      assert SetNames(DtFlags, v, 0) == SetNames(DtFlags, u, 0);
    }
  }

  /** The DT_FLAGS_1 text shows exactly bits 0x1 to 0x2000000: two values
      print the same text if and only if they agree on 0x3ffffff. */
  lemma {:induction false} StrFlags1Text(v: bv64, u: bv64)
    ensures StrFlags1(v) == StrFlags1(u) <==> v & 0x3ffffff == u & 0x3ffffff
  {
    StrFlags1Decides(v, u);
    StrFlags1Split(v);
    StrFlags1Split(u);
    if StrFlags1(v) == StrFlags1(u) && v & 0x3ffffff != 0 {
      assert SetNames(DtFlags1, v, 0) == SetNames(DtFlags1, u, 0);
    }
  }

  /** Every name from index b on is a single character. */
  predicate OneChar(tab: seq<Flag>, b: nat)
    requires b <= |tab|
    decreases |tab| - b
  {
    b == |tab| || (|tab[b].name| == 1 && OneChar(tab, b + 1))
  }

  lemma {:induction false} ListedOneChar(tab: seq<Flag>, v: bv64, b: nat, x: string)
    requires b <= |tab| && OneChar(tab, b) && x in SetNames(tab, v, b)
    ensures |x| == 1
    decreases |tab| - b
  {
    if x != tab[b].name {
      ListedOneChar(tab, v, b + 1, x);
    }
  }

  lemma {:induction false} ShFlagsOneChar()
    ensures OneChar(ShFlags, 0)
  {
    assert OneChar(ShFlags, 10);
    assert OneChar(ShFlags, 9);
    assert OneChar(ShFlags, 8);
    assert OneChar(ShFlags, 7);
    assert OneChar(ShFlags, 6);
    assert OneChar(ShFlags, 5);
    assert OneChar(ShFlags, 4);
    assert OneChar(ShFlags, 3);
    assert OneChar(ShFlags, 2);
    assert OneChar(ShFlags, 1);
    assert OneChar(ShFlags, 0);
  }

  /** Single letters laid end to end: one character per part, in order. */
  lemma {:induction false} ConcatSingles(parts: seq<string>)
    requires forall j :: 0 <= j < |parts| ==> |parts[j]| == 1
    ensures |Concat(parts)| == |parts|
    ensures forall j :: 0 <= j < |parts| ==> Concat(parts)[j] == parts[j][0]
    decreases |parts|
  {
    if parts != [] {
      var rest := parts[1..];
      assert forall j :: 0 <= j < |rest| ==> rest[j] == parts[j + 1];
      ConcatSingles(rest);
    }
  }

  /** The section letters show exactly the bits 0xff7: two values print
      the same letters if and only if they agree there. */
  lemma {:induction false} SectionFlagsText(v: bv64, u: bv64)
    ensures SectionFlags(v) == SectionFlags(u) <==> v & 0xff7 == u & 0xff7
  {
    SectionFlagsDecides(v, u);
    if SectionFlags(v) == SectionFlags(u) {
      var a := SetNames(ShFlags, v, 0);
      var b := SetNames(ShFlags, u, 0);
      ShFlagsOneChar();
      forall j | 0 <= j < |a|
        ensures |a[j]| == 1
      {
        ListedOneChar(ShFlags, v, 0, a[j]);
      }
      forall j | 0 <= j < |b|
        ensures |b[j]| == 1
      {
        ListedOneChar(ShFlags, u, 0, b[j]);
      }
      ConcatSingles(a);
      ConcatSingles(b);
      forall j | 0 <= j < |a|
        ensures a[j] == b[j]
      {
        assert a[j] == [a[j][0]] && b[j] == [b[j][0]];
      }
    }
  }

  // ---------------------------------------------------------------------
  // progHdrString (elf.go:16-55)

  const PT_LOOS: bv32 := 0x60000000
  const GNU_EH_FRAME: bv32 := PT_LOOS + 74769744
  const GNU_STACK: bv32 := PT_LOOS + 74769745
  const GNU_RELRO: bv32 := PT_LOOS + 74769746

  const PF_X: bv32 := 0x1
  const PF_W: bv32 := 0x2
  const PF_R: bv32 := 0x4

  /** The type column: the three GNU segment names, else the library's
      name for the type without its "PT_" prefix (a name shorter than
      three characters would be sliced past its end). */
  function ProgType(t: bv32, typeName: bv32 -> string): (r: Option<string>)
    ensures t == 0x6474e550 ==> r == Some("GNU_EH_FRAME")
    ensures t == 0x6474e551 ==> r == Some("GNU_STACK")
    ensures t == 0x6474e552 ==> r == Some("GNU_RELRO")
    ensures t !in {0x6474e550, 0x6474e551, 0x6474e552} ==>
      (r.Some? <==> |typeName(t)| >= 3) && (r.Some? ==> typeName(t) == typeName(t)[..3] + r.value)
  {
    if t == GNU_EH_FRAME then Some("GNU_EH_FRAME")
    else if t == GNU_STACK then Some("GNU_STACK")
    else if t == GNU_RELRO then Some("GNU_RELRO")
    else if |typeName(t)| < 3 then None
    else Some(typeName(t)[3..])
  }

  /** The flag column: exactly the six combinations X, W, R, RW, RX, RWX
      are spelled out; anything else, 0 and W|X included, is "???". */
  function ProgFlags(f: bv32): (r: string)
    ensures |r| == 3
    ensures r != "???" <==> f in {PF_X, PF_W, PF_R, PF_R | PF_W, PF_R | PF_X, PF_R | PF_W | PF_X}
    ensures r != "???" ==>
      && (r[0] == 'R' <==> f & PF_R != 0) && (r[0] == '_' <==> f & PF_R == 0)
      && (r[1] == 'W' <==> f & PF_W != 0) && (r[1] == '_' <==> f & PF_W == 0)
      && (r[2] == 'X' <==> f & PF_X != 0) && (r[2] == '_' <==> f & PF_X == 0)
  {
    if f == PF_X then "__X"
    else if f == PF_W then "_W_"
    else if f == PF_R then "R__"
    else if f == PF_R | PF_W then "RW_"
    else if f == PF_R | PF_X then "R_X"
    else if f == PF_R | PF_W | PF_X then "RWX"
    else "???"
  }

  /** Reading the flags back from the triple. */
  function ParseProgFlags(s: string): Option<bv32>
  {
    if |s| != 3 || s == "???" then None
    else Some((if s[0] == 'R' then PF_R else 0) | (if s[1] == 'W' then PF_W else 0) | (if s[2] == 'X' then PF_X else 0))
  }

  /** Every spelled-out triple gives its flags back. */
  lemma {:induction false} ProgFlagsRoundTrip(f: bv32)
    ensures ProgFlags(f) != "???" ==> ParseProgFlags(ProgFlags(f)) == Some(f)
  {
  }

  // ---------------------------------------------------------------------
  // makeSymbolString (elf.go:216-250)

  /** The type token of st_info's low four bits (Go's `info & 0xf` on a
      uint8 is `info % 16`). */
  function SymType(info: byte): (r: string)
    ensures |r| == 3
    ensures info % 16 <= 6 <==> r != "XXX"
  {
    var t := info % 16;
    if t == 0 then "NON" else if t == 1 then "OBJ" else if t == 2 then "FUN"
    else if t == 3 then "SEC" else if t == 4 then "FIL" else if t == 5 then "COM"
    else if t == 6 then "TLS" else "XXX"
  }

  /** The binding letter of st_info's high four bits (`info >> 4`). */
  function SymBind(info: byte): (r: string)
    ensures |r| == 1
    ensures info / 16 <= 2 <==> r != "X"
  {
    var b := info / 16;
    if b == 0 then "L" else if b == 1 then "G" else if b == 2 then "W" else "X"
  }

  /** The known type tokens name distinct types, and the binding letters
      distinct bindings: the tokens lose only what they print as XXX / X. */
  lemma {:induction false} SymbolTokensInjective(a: byte, b: byte)
    ensures SymType(a) == SymType(b) && SymType(a) != "XXX" ==> a % 16 == b % 16
    ensures SymBind(a) == SymBind(b) && SymBind(a) != "X" ==> a / 16 == b / 16
  {
  }

  // ---------------------------------------------------------------------
  // makeDynamicStrings (elf.go:57-66, 177-214)

  const DT_FLAGS := 30
  const DT_GNU_HASH := 0x6ffff000 + 3829
  const DT_VERSYM := 0x6ffffff0
  const DT_RELACOUNT := DT_VERSYM + 9
  const DT_RELCOUNT := DT_VERSYM + 10
  const DT_FLAGS_1 := DT_VERSYM + 11
  const DT_VERDEF := DT_VERSYM + 12
  const DT_VERDEFNUM := DT_VERSYM + 13
  const DT_VERNEED := DT_VERSYM + 14
  const DT_VERNEEDNUM := DT_VERSYM + 15

  /** How a line's value is printed: as text, in hex or in decimal. */
  datatype Shown = Text(s: string) | Hex(n: nat) | Dec(n: nat)

  /** A line of the dynamic-info group: the tag's label and its value. */
  datatype DynLine = DynLine(tagLabel: string, value: Shown)

  /** Go's uint64 truncation of a stored value. */
  function U64(n: nat): bv64
  {
    (n % 0x1_0000_0000_0000_0000) as bv64
  }

  /** The line for one entry; None where a type assertion on the value
      panics (a string tag with a numeric value, or DT_FLAGS / DT_FLAGS_1
      with a string). `tagName` is the library's name for a tag. A string
      value on a tag printed with `%x` is shown as its text here, where Go
      would print its bytes in hex; `DecodedWellTyped` shows that
      readDynamic never stores such an entry. */
  function DynamicLine(d: DynInfo, tagName: nat -> string): Option<DynLine>
  {
    var t := d.tag;
    if StringTag(t) then
      (match d.val case Str(s) => Some(DynLine(tagName(t), Text(s))) case Num(_) => None)
    else if t == DT_FLAGS then
      (match d.val case Num(n) => Some(DynLine("DT_FLAGS", Text(StrFlags(U64(n))))) case Str(_) => None)
    else if t == DT_FLAGS_1 then
      (match d.val case Num(n) => Some(DynLine("DT_FLAGS_1", Text(StrFlags1(U64(n))))) case Str(_) => None)
    else
      var name :=
        if t == DT_GNU_HASH then "DT_GNU_HASH"
        else if t == DT_RELACOUNT then "DT_RELACOUNT"
        else if t == DT_RELCOUNT then "DT_RELCOUNT"
        else if t == DT_VERDEF then "DT_VERDEF"
        else if t == DT_VERDEFNUM then "DT_VERDEFNUM"
        else if t == DT_VERNEED then "DT_VERNEED"
        else if t == DT_VERNEEDNUM then "DT_VERNEEDNUM"
        else tagName(t);
      var decimal := t in {DT_RELACOUNT, DT_RELCOUNT, DT_VERDEFNUM, DT_VERNEEDNUM};
      match d.val
      case Num(n) => Some(DynLine(name, if decimal then Dec(n) else Hex(n)))
      case Str(s) => Some(DynLine(name, Text(s)))
  }

  /** Entries as readDynamic stores them: a string exactly for the string
      tags. */
  ghost predicate WellTyped(dyns: seq<DynInfo>)
  {
    forall j :: 0 <= j < |dyns| ==> (dyns[j].val.Str? <==> StringTag(dyns[j].tag))
  }

  /** makeDynamicStrings: one line per entry, in entry order, or a panic
      if any entry's line panics. */
  method MakeDynamicStrings(dyns: seq<DynInfo>, tagName: nat -> string) returns (r: Option<seq<DynLine>>)
    ensures r.Some? <==> forall j :: 0 <= j < |dyns| ==> DynamicLine(dyns[j], tagName).Some?
    ensures r.Some? ==> |r.value| == |dyns|
    ensures r.Some? ==> forall j :: 0 <= j < |dyns| ==> Some(r.value[j]) == DynamicLine(dyns[j], tagName)
    ensures WellTyped(dyns) ==> r.Some?
  {
    var lines: seq<DynLine> := [];
    for i := 0 to |dyns|
      invariant |lines| == i
      invariant forall j :: 0 <= j < i ==> Some(lines[j]) == DynamicLine(dyns[j], tagName)
    {
      var l := DynamicLine(dyns[i], tagName);
      if l.None? {
        WellTypedLine(dyns, i, tagName);
        return None;
      }
      lines := lines + [l.value];
    }
    return Some(lines);
  }

  lemma {:induction false} WellTypedLine(dyns: seq<DynInfo>, i: nat, tagName: nat -> string)
    requires i < |dyns| && DynamicLine(dyns[i], tagName).None?
    ensures !WellTyped(dyns)
  {
  }

  /** What readDynamic decodes is well typed, so its lines never panic. */
  lemma {:induction false} DecodedWellTyped(dyns: seq<DynInfo>, words: seq<nat>, stab: seq<byte>, n: nat)
    requires 2 * n <= |words| && Resolvable(words, stab, n) && Decoded(dyns, words, stab, n)
    ensures WellTyped(dyns)
  {
    forall j | 0 <= j < |dyns|
      ensures dyns[j].val.Str? <==> StringTag(dyns[j].tag)
    {
      var k := Kept(words, n)[j];
      assert dyns[j] == Entry(words, stab, k);
    }
  }
}

=== FILE: info_view.dfy ===
/**
  The detail pane (tui.go:44-64, 521-644). For every library four detail
  trees are built up front, one per mode (file, symbol, dynamic, section),
  and kept in four maps keyed by library name. Moving the cursor in the
  library tree saves the pane's position for the library being left and
  restores the entry of the selected mode for the library reached.

  Each detail tree is the library's name with, per group, a blank
  separator and a titled group of text lines (`InfoTree`). The code's
  AddSubTree miscounts `total` (see TreeBuild), so the trees it builds
  are `InfoTreeAsWritten`; `InfoTree` is the same construction with the
  corrected AddSubTree.
 */
module InfoView {
  import opened Wrappers
  import opened TreeItems
  import opened TreeBuild

  /** The saved state of one detail tree: the tree and the pane position. */
  datatype FileInfo = FileInfo(root: Option<Item>, idx: int, off: int, pos: int)

  /** The value a Go map lookup yields for a missing key. */
  const NoInfo := FileInfo(None, 0, 0, 0)

  const ModeFile := 0
  const ModeSymbol := 1
  const ModeDynamic := 2
  const ModeSection := 3

  /** The four per-mode maps. */
  datatype Caches = Caches(finfo: map<string, FileInfo>, yinfo: map<string, FileInfo>,
                           dinfo: map<string, FileInfo>, sinfo: map<string, FileInfo>)

  /** What restoreInfoView sets in the pane; the pane's `Top` and `Curr`
      are left as they were. */
  datatype Pane = Pane(root: Option<Item>, idx: int, off: int, pos: int)

  /** One titled group of detail lines. */
  datatype Group = Group(title: string, lines: seq<string>)

  function Lookup(m: map<string, FileInfo>, name: string): (r: FileInfo)
    ensures name in m ==> r == m[name]
    ensures name !in m ==> r == NoInfo
  {
    if name in m then m[name] else NoInfo
  }

  /** The map restoreInfoView reads in `mode`; any other mode reads
      nothing. */
  function Selected(c: Caches, mode: int): Option<map<string, FileInfo>>
  {
    if mode == ModeFile then Some(c.finfo)
    else if mode == ModeSymbol then Some(c.yinfo)
    else if mode == ModeDynamic then Some(c.dinfo)
    else if mode == ModeSection then Some(c.sinfo)
    else None
  }

  // ---------------------------------------------------------------------
  // saveInfoView / restoreInfoView (tui.go:598-644)

  /** saveInfoView as the code does it: the pane position is written into
      copies of the file, symbol and dynamic entries held in one local
      variable, which is dropped; no map is written and the section map is
      not even read. */
  function SaveInfoView(c: Caches, name: string, iv: Pane): (r: Caches)
    ensures r == c
  {
    var f := Lookup(c.finfo, name).(off := iv.off, idx := iv.idx, pos := iv.pos);
    var y := Lookup(c.yinfo, name).(off := iv.off, idx := iv.idx, pos := iv.pos);
    var d := Lookup(c.dinfo, name).(off := iv.off, idx := iv.idx, pos := iv.pos);
    c
  }

  /** restoreInfoView: the pane shows the entry of the current mode for the
      library under the cursor, or an empty tree at the origin when there
      is none. */
  function RestoreInfoView(c: Caches, mode: int, name: string): (r: Pane)
    ensures mode == ModeFile && name in c.finfo ==>
      r == Pane(c.finfo[name].root, c.finfo[name].idx, c.finfo[name].off, c.finfo[name].pos)
    ensures mode == ModeSymbol && name in c.yinfo ==>
      r == Pane(c.yinfo[name].root, c.yinfo[name].idx, c.yinfo[name].off, c.yinfo[name].pos)
    ensures mode == ModeDynamic && name in c.dinfo ==>
      r == Pane(c.dinfo[name].root, c.dinfo[name].idx, c.dinfo[name].off, c.dinfo[name].pos)
    ensures mode == ModeSection && name in c.sinfo ==>
      r == Pane(c.sinfo[name].root, c.sinfo[name].idx, c.sinfo[name].off, c.sinfo[name].pos)
    ensures Selected(c, mode).None? || name !in Selected(c, mode).value ==> r == Pane(None, 0, 0, 0)
  {
    var info := match Selected(c, mode)
      case Some(m) => Lookup(m, name)
      case None => NoInfo;
    Pane(info.root, info.idx, info.off, info.pos)
  }

  /** Because saving writes nothing, the position of the pane is lost: a
      save followed by a restore shows what the restore alone shows,
      whatever the pane's position was. */
  lemma {:induction false} SaveIsForgotten(c: Caches, mode: int, left: string, reached: string, iv: Pane)
    ensures RestoreInfoView(SaveInfoView(c, left, iv), mode, reached) == RestoreInfoView(c, mode, reached)
  {
  }

  /** A concrete instance: a pane at row 5 is saved and the same library
      restored, and the pane comes back at row 0. No key handler scrolls
      the detail pane (tui.go:700-840), so the loss is latent today. */
  lemma {:induction false} SaveLosesPosition(root: Item)
    ensures var c := Caches(map["libc.so.6" := FileInfo(Some(root), 0, 0, 0)], map[], map[], map[]);
      RestoreInfoView(SaveInfoView(c, "libc.so.6", Pane(Some(root), 5, 2, 0)), ModeFile, "libc.so.6").idx == 0
  {
  }

  /** saveInfoView as intended: the pane position is stored back into the
      file, symbol and dynamic entries of the library being left (a Go map
      assignment, which adds the entry when it is missing); the section map
      is left alone, as the code never touches it. */
  function SaveInfoViewIntended(c: Caches, name: string, iv: Pane): (r: Caches)
    ensures r.sinfo == c.sinfo
    ensures name in r.finfo && name in r.yinfo && name in r.dinfo
    ensures r.finfo[name].root == Lookup(c.finfo, name).root
    ensures r.yinfo[name].root == Lookup(c.yinfo, name).root
    ensures r.dinfo[name].root == Lookup(c.dinfo, name).root
    ensures forall k :: k != name ==> Lookup(r.finfo, k) == Lookup(c.finfo, k)
    ensures forall k :: k != name ==> Lookup(r.yinfo, k) == Lookup(c.yinfo, k)
    ensures forall k :: k != name ==> Lookup(r.dinfo, k) == Lookup(c.dinfo, k)
  {
    var f := Lookup(c.finfo, name).(off := iv.off, idx := iv.idx, pos := iv.pos);
    var y := Lookup(c.yinfo, name).(off := iv.off, idx := iv.idx, pos := iv.pos);
    var d := Lookup(c.dinfo, name).(off := iv.off, idx := iv.idx, pos := iv.pos);
    c.(finfo := c.finfo[name := f], yinfo := c.yinfo[name := y], dinfo := c.dinfo[name := d])
  }

  /** With the intended save, coming back to a library in the file, symbol
      or dynamic mode shows its tree at the position it was left at. */
  lemma {:induction false} SaveThenRestore(c: Caches, mode: int, name: string, iv: Pane)
    requires mode == ModeFile || mode == ModeSymbol || mode == ModeDynamic
    ensures var p := RestoreInfoView(SaveInfoViewIntended(c, name, iv), mode, name);
      p.idx == iv.idx && p.off == iv.off && p.pos == iv.pos && p.root == RestoreInfoView(c, mode, name).root
  {
  }

  /** The intended save touches only the library being left, and never the
      section mode. */
  lemma {:induction false} SaveKeepsOthers(c: Caches, mode: int, name: string, other: string, iv: Pane)
    requires other != name || mode == ModeSection
    ensures RestoreInfoView(SaveInfoViewIntended(c, name, iv), mode, other) == RestoreInfoView(c, mode, other)
  {
  }

  /** Caches as built at start-up: every entry at the origin. */
  ghost predicate AtOrigin(c: Caches)
  {
    && (forall k :: k in c.finfo ==> c.finfo[k].idx == 0 && c.finfo[k].off == 0 && c.finfo[k].pos == 0)
    && (forall k :: k in c.yinfo ==> c.yinfo[k].idx == 0 && c.yinfo[k].off == 0 && c.yinfo[k].pos == 0)
    && (forall k :: k in c.dinfo ==> c.dinfo[k].idx == 0 && c.dinfo[k].off == 0 && c.dinfo[k].pos == 0)
    && (forall k :: k in c.sinfo ==> c.sinfo[k].idx == 0 && c.sinfo[k].off == 0 && c.sinfo[k].pos == 0)
  }

  /** Start-up caches stay at the origin across any save, so every
      restore puts the pane at row 0, column 0. */
  lemma {:induction false} PaneStaysAtOrigin(c: Caches, mode: int, left: string, reached: string, iv: Pane)
    requires AtOrigin(c)
    ensures AtOrigin(SaveInfoView(c, left, iv))
    ensures var p := RestoreInfoView(SaveInfoView(c, left, iv), mode, reached);
      p.idx == 0 && p.off == 0 && p.pos == 0
  {
  }

  // ---------------------------------------------------------------------
  // makeFileInfo, makeSymbolInfo, makeDynamicInfo, makeSectionInfo
  // (tui.go:521-596)

  /** The rows a detail tree's groups add: a separator, a title and the
      lines of each. */
  function GroupRows(gs: seq<Group>): nat
  {
    if gs == [] then 0 else GroupRows(gs[..|gs| - 1]) + 2 + |gs[|gs| - 1].lines|
  }

  /** A blank separator group with no lines, as the code adds one before
      every titled group; `extra` is what its `total` is off by. */
  function Separator(extra: nat): Item
  {
    Item(Text(""), false, extra, [])
  }

  /** A titled group holding its lines; `extra` is what its `total` is off
      by. */
  function GroupItem(g: Group, extra: nat): Item
  {
    Item(Text(g.title), false, |g.lines| + extra, Leaves(g.lines))
  }

  /** The children of a detail tree: per group, a separator and then the
      group, in order. */
  ghost predicate Shaped(r: Item, gs: seq<Group>, extra: nat)
  {
    && |r.children| == 2 * |gs|
    && forall j :: 0 <= j < |gs| ==>
         r.children[2 * j] == Separator(extra) && r.children[2 * j + 1] == GroupItem(gs[j], extra)
  }

  lemma {:induction false} ShapedStep(prev: Item, r: Item, gs: seq<Group>, extra: nat)
    requires gs != [] && Shaped(prev, gs[..|gs| - 1], extra)
    requires r.children == prev.children + [Separator(extra), GroupItem(gs[|gs| - 1], extra)]
    ensures Shaped(r, gs, extra)
  {
    forall j | 0 <= j < |gs|
      ensures r.children[2 * j] == Separator(extra) && r.children[2 * j + 1] == GroupItem(gs[j], extra)
    {
      if j < |gs| - 1 {
        assert gs[..|gs| - 1][j] == gs[j];
      }
    }
  }

  /** Appending through AddSubTree twice adds exactly the two children. */
  lemma {:induction false} AppendTwo(prev: Item, mid: Item, r: Item)
    requires |mid.children| == |prev.children| + 1 && mid.children[..|prev.children|] == prev.children
    requires |r.children| == |mid.children| + 1 && r.children[..|mid.children|] == mid.children
    ensures r.children == prev.children + [mid.children[|prev.children|], r.children[|mid.children|]]
  {
  }

  /** The detail tree with the corrected AddSubTree: two children per
      group (separator, then the group), the invariant on `total` kept,
      and every separator, title and line a visible row. */
  function InfoTree(name: string, gs: seq<Group>): (r: Item)
    ensures r.node == Text(name) && !r.folded
    ensures Shaped(r, gs, 0)
    ensures WellFormed(r)
    ensures r.total == GroupRows(gs) && |Rows(r)| == 1 + GroupRows(gs)
  {
    if gs == [] then
      var r := Item(Text(name), false, 0, []);
      RowCount(r);
      r
    else
      var prev := InfoTree(name, gs[..|gs| - 1]);
      var g := gs[|gs| - 1];
      var sep := AddSubTree(prev, "", []);
      var r := AddSubTree(sep, g.title, g.lines);
      AddSubTreeWellFormed(prev, "", []);
      AddSubTreeWellFormed(sep, g.title, g.lines);
      RowCount(r);
      AppendTwo(prev, sep, r);
      ShapedStep(prev, r, gs, 0);
      r
  }

  /** The detail tree as the code builds it: the same shape, but every
      separator and group counts one row too many and the root's `total`
      stays 0, so as soon as there is a group the invariant fails. */
  function InfoTreeAsWritten(name: string, gs: seq<Group>): (r: Item)
    ensures r.node == Text(name) && !r.folded && r.total == 0
    ensures Shaped(r, gs, 1)
    ensures gs != [] ==> !WellFormed(r)
  {
    if gs == [] then Item(Text(name), false, 0, [])
    else
      var prev := InfoTreeAsWritten(name, gs[..|gs| - 1]);
      var g := gs[|gs| - 1];
      var sep := AddSubTreeAsWritten(prev, "", []);
      var r := AddSubTreeAsWritten(sep, g.title, g.lines);
      AppendTwo(prev, sep, r);
      ShapedStep(prev, r, gs, 1);
      var g0 := gs[0];
      assert r.children[0] == Separator(1);
      r
  }

  /** The two constructions differ only in the stored totals: they show
      the same rows. */
  lemma {:induction false} InfoTreeSameRows(name: string, gs: seq<Group>)
    ensures Rows(InfoTreeAsWritten(name, gs)) == Rows(InfoTree(name, gs))
  {
    ShapedSameRows(InfoTreeAsWritten(name, gs), InfoTree(name, gs), gs);
  }

  lemma {:induction false} ShapedSameRows(a: Item, b: Item, gs: seq<Group>)
    requires Shaped(a, gs, 1) && Shaped(b, gs, 0) && a.folded == b.folded
    ensures Rows(a) == Rows(b)
  {
    forall k | 0 <= k < |a.children|
      ensures Rows(a.children[k]) == Rows(b.children[k])
    {
      var j := k / 2;
      if k == 2 * j {
        RowsIgnoreTotal(Separator(1), Separator(0));
      } else {
        RowsIgnoreTotal(GroupItem(gs[j], 1), GroupItem(gs[j], 0));
      }
    }
    ChildRowsAgree(a, b, |a.children|);
  }

  /** Rows do not depend on stored totals. */
  lemma {:induction false} RowsIgnoreTotal(a: Item, b: Item)
    requires a.folded == b.folded && a.children == b.children
    ensures Rows(a) == Rows(b)
  {
    ChildRowsAgree(a, b, |a.children|);
  }

  lemma {:induction false} ChildRowsAgree(a: Item, b: Item, k: nat)
    requires k <= |a.children| && k <= |b.children|
    requires forall j :: 0 <= j < k ==> Rows(a.children[j]) == Rows(b.children[j])
    ensures ChildRows(a, k) == ChildRows(b, k)
    decreases k
  {
    if k > 0 {
      ChildRowsAgree(a, b, k - 1);
    }
  }
}

=== FILE: resolver.dfy ===
/**
  Locating libraries (main.go:69-185): the ld.so.conf reader and the
  library search in elftree's own order (DT_RPATH even alongside
  DT_RUNPATH, no ld.so.cache, no $ORIGIN expansion).

  The file system is a set of parameters: `files` gives a file's lines
  (None when it cannot be opened), `glob` a pattern's matches in match
  order (None for a malformed pattern), `present` whether a path names an
  existing file and `join` Go's path.Join. Environment and configuration
  lists are passed in as values.
 */
module Resolver {
  import opened Wrappers
  import opened Dynamic

  // ---------------------------------------------------------------------
  // Go string helpers

  predicate HasPrefix(s: string, p: string)
  {
    |p| <= |s| && s[..|p|] == p
  }

  /** unicode.IsSpace. */
  predicate IsSpace(c: char)
  {
    || c == '\t' || c == '\n' || c == '\U{000B}' || c == '\U{000C}' || c == '\r' || c == ' '
    || c == '\U{0085}' || c == '\U{00A0}' || c == '\U{1680}'
    || ('\U{2000}' <= c <= '\U{200A}')
    || c == '\U{2028}' || c == '\U{2029}' || c == '\U{202F}' || c == '\U{205F}' || c == '\U{3000}'
  }

  /** strings.TrimSpace leaves nothing exactly when every character is a
      space. */
  predicate Blank(s: string)
  {
    forall k :: 0 <= k < |s| ==> IsSpace(s[k])
  }

  /** strings.Split with a one-character separator: the pieces between
      separators, so an empty string gives one empty piece. */
  function Split(s: string, sep: char): (r: seq<string>)
    ensures |r| >= 1
    ensures forall j :: 0 <= j < |r| ==> sep !in r[j]
    decreases |s|
  {
    if s == [] then [""]
    else
      var rest := Split(s[1..], sep);
      if s[0] == sep then [""] + rest else [[s[0]] + rest[0]] + rest[1..]
  }

  /** strings.Join with a one-character separator. */
  function Join(parts: seq<string>, sep: char): string
  {
    if parts == [] then ""
    else if |parts| == 1 then parts[0]
    else parts[0] + [sep] + Join(parts[1..], sep)
  }

  /** Splitting loses nothing: joining the pieces gives the string back. */
  lemma {:induction false} SplitJoin(s: string, sep: char)
    ensures Join(Split(s, sep), sep) == s
    decreases |s|
  {
    if s != [] {
      var rest := Split(s[1..], sep);
      SplitJoin(s[1..], sep);
      if s[0] == sep {
        assert Split(s, sep) == [""] + rest;
      } else {
        var r := Split(s, sep);
        assert r == [[s[0]] + rest[0]] + rest[1..];
        if |rest| == 1 {
          assert Join(r, sep) == [s[0]] + rest[0];
        } else {
          assert r[1..] == rest[1..];
          assert Join(rest, sep) == rest[0] + [sep] + Join(rest[1..], sep);
        }
      }
    }
  }

  /** Joining separator-free pieces and splitting again gives the pieces
      back. */
  lemma {:induction false} JoinSplit(parts: seq<string>, sep: char)
    requires |parts| >= 1
    requires forall j :: 0 <= j < |parts| ==> sep !in parts[j]
    ensures Split(Join(parts, sep), sep) == parts
    decreases |parts|, |parts[0]|
  {
    if |parts| == 1 {
      SplitPlain(parts[0], sep);
    } else {
      JoinSplit(parts[1..], sep);
      SplitPrefix(parts[0], Join(parts[1..], sep), sep);
    }
  }

  lemma {:induction false} SplitPlain(s: string, sep: char)
    requires sep !in s
    ensures Split(s, sep) == [s]
    decreases |s|
  {
    if s != [] {
      assert forall x :: x in s[1..] ==> x in s;
      SplitPlain(s[1..], sep);
      assert [s[0]] + s[1..] == s;
    }
  }

  /** A separator-free first piece, the separator, then the rest. */
  lemma {:induction false} SplitPrefix(a: string, b: string, sep: char)
    requires sep !in a
    ensures Split(a + [sep] + b, sep) == [a] + Split(b, sep)
    decreases |a|
  {
    if a == [] {
      assert a + [sep] + b == [sep] + b;
      assert ([sep] + b)[1..] == b;
    } else {
      SplitPrefix(a[1..], b, sep);
      assert (a + [sep] + b)[1..] == a[1..] + [sep] + b;
      assert [a[0]] + a[1..] == a;
    }
  }

  // ---------------------------------------------------------------------
  // findLib (main.go:114-174)

  /** A probe's outcome: the path found, nothing found (the code's ""),
      or a panic. */
  datatype Lookup = Hit(path: string) | Miss | Panic

  /** A directory to probe. `Bad` is a DT_RPATH or DT_RUNPATH entry whose
      value is not a string: the type assertion on it panics. */
  datatype Dir = Dir(path: string) | Bad

  /** The first i directories are plain directories none of which holds
      the name: the probe has passed them. */
  ghost predicate Passed(dirs: seq<Dir>, i: nat, name: string, present: string -> bool, join: (string, string) -> string)
    requires i <= |dirs|
  {
    forall j :: 0 <= j < i ==> dirs[j].Dir? && !present(join(dirs[j].path, name))
  }

  /** `path` is name joined to some directory i, every directory before
      which was passed. */
  ghost predicate FirstHit(dirs: seq<Dir>, path: string, name: string, present: string -> bool, join: (string, string) -> string)
  {
    exists i :: 0 <= i < |dirs| && Passed(dirs, i, name, present, join) && dirs[i].Dir? && path == join(dirs[i].path, name)
  }

  /** A bad entry comes right after directories that were all passed. */
  ghost predicate BadReached(dirs: seq<Dir>, name: string, present: string -> bool, join: (string, string) -> string)
  {
    exists i :: 0 <= i < |dirs| && Passed(dirs, i, name, present, join) && dirs[i].Bad?
  }

  /** Probe each directory in order: the first joined path that exists,
      else Miss; a bad entry reached before any hit panics. */
  function Probe(dirs: seq<Dir>, name: string, present: string -> bool, join: (string, string) -> string): (r: Lookup)
    ensures r.Hit? ==> present(r.path)
    ensures r.Hit? ==> FirstHit(dirs, r.path, name, present, join)
    ensures r == Panic <==> BadReached(dirs, name, present, join)
    ensures r == Miss <==> forall i :: 0 <= i < |dirs| ==> dirs[i].Dir? && !present(join(dirs[i].path, name))
  {
    if dirs == [] then Miss
    else
      match dirs[0]
      case Bad =>
        assert Passed(dirs, 0, name, present, join);
        Panic
      case Dir(d) =>
        if present(join(d, name)) then
          assert Passed(dirs, 0, name, present, join);
          assert forall i :: 0 < i <= |dirs| ==> !Passed(dirs, i, name, present, join);
          Hit(join(d, name))
        else
          var r := Probe(dirs[1..], name, present, join);
          PassedShift(dirs, name, present, join);
          assert forall i :: 1 <= i < |dirs| ==> dirs[i] == dirs[1..][i - 1];
          r
  }

  /** Passing a first directory that does not hold the name, then i more,
      is passing i + 1. */
  lemma {:induction false} PassedShift(dirs: seq<Dir>, name: string, present: string -> bool, join: (string, string) -> string)
    requires dirs != [] && dirs[0].Dir? && !present(join(dirs[0].path, name))
    ensures forall i :: 0 <= i < |dirs| ==>
      (Passed(dirs, i + 1, name, present, join) <==> Passed(dirs[1..], i, name, present, join))
  {
    forall i | 0 <= i < |dirs|
      ensures Passed(dirs, i + 1, name, present, join) <==> Passed(dirs[1..], i, name, present, join)
    {
      assert forall j :: 0 <= j < i ==> dirs[1..][j] == dirs[j + 1];
    }
  }

  /** One probing step: a bad entry panics, an existing path is the hit,
      and otherwise the probe goes on with the rest. */
  lemma {:induction false} ProbeHead(dirs: seq<Dir>, name: string, present: string -> bool, join: (string, string) -> string)
    requires dirs != []
    ensures Probe(dirs, name, present, join) ==
      match dirs[0]
      case Bad => Panic
      case Dir(d) => if present(join(d, name)) then Hit(join(d, name)) else Probe(dirs[1..], name, present, join)
  {
  }

  /** Probing two lists in turn is probing their concatenation. */
  lemma {:induction false} ProbeAppend(a: seq<Dir>, b: seq<Dir>, name: string, present: string -> bool, join: (string, string) -> string)
    ensures Probe(a + b, name, present, join) ==
      var r := Probe(a, name, present, join);
      if r == Miss then Probe(b, name, present, join) else r
  {
    if a == [] {
      assert a + b == b;
    } else {
      ProbeAppend(a[1..], b, name, present, join);
      ProbeHead(a, name, present, join);
      ProbeHead(a + b, name, present, join);
      assert (a + b)[0] == a[0];
      assert (a + b)[1..] == a[1..] + b;
    }
  }

  /** The parent's directories of one tag, in dynamic-section order. */
  function TagDirs(parent: Option<seq<DynInfo>>, tag: nat): (r: seq<Dir>)
    ensures parent.None? ==> r == []
  {
    match parent
    case None => []
    case Some(dyns) => TagDirsOf(dyns, tag)
  }

  function TagDirsOf(dyns: seq<DynInfo>, tag: nat): seq<Dir>
  {
    if dyns == [] then []
    else
      var d := dyns[0];
      var rest := TagDirsOf(dyns[1..], tag);
      if d.tag != tag then rest
      else match d.val
        case Str(s) => [Dir(s)] + rest
        case Num(_) => [Bad] + rest
  }

  function Plain(ds: seq<string>): (r: seq<Dir>)
    ensures |r| == |ds| && forall i :: 0 <= i < |ds| ==> r[i] == Dir(ds[i])
  {
    seq(|ds|, i requires 0 <= i < |ds| => Dir(ds[i]))
  }

  /** The search order: DT_RPATH values taken whole, the colon-separated
      LD_LIBRARY_PATH components, DT_RUNPATH values, the ld.so.conf
      directories, the default directories. */
  function SearchPath(parent: Option<seq<DynInfo>>, envlib: string, conflib: seq<string>, deflib: seq<string>): seq<Dir>
  {
    TagDirs(parent, DT_RPATH) + Plain(Split(envlib, ':')) + TagDirs(parent, DT_RUNPATH)
      + Plain(conflib) + Plain(deflib)
  }

  /** findLib: a name with a slash is returned unprobed; otherwise the five
      stages are tried in turn, each returning its first existing path. */
  function FindLib(name: string, parent: Option<seq<DynInfo>>, envlib: string, conflib: seq<string>,
                   deflib: seq<string>, present: string -> bool, join: (string, string) -> string): (r: Lookup)
    ensures '/' in name ==> r == Hit(name)
    ensures '/' !in name && r.Hit? ==> present(r.path)
    ensures '/' !in name ==> r == Probe(SearchPath(parent, envlib, conflib, deflib), name, present, join)
  {
    if '/' in name then Hit(name)
    else
      var rpath := Probe(TagDirs(parent, DT_RPATH), name, present, join);
      var env := Probe(Plain(Split(envlib, ':')), name, present, join);
      var runpath := Probe(TagDirs(parent, DT_RUNPATH), name, present, join);
      var conf := Probe(Plain(conflib), name, present, join);
      var def := Probe(Plain(deflib), name, present, join);
      var r := if rpath != Miss then rpath
        else if env != Miss then env
        else if runpath != Miss then runpath
        else if conf != Miss then conf
        else def;
      SearchPathProbe(name, parent, envlib, conflib, deflib, present, join);
      r
  }

  lemma {:induction false} SearchPathProbe(name: string, parent: Option<seq<DynInfo>>, envlib: string, conflib: seq<string>,
                        deflib: seq<string>, present: string -> bool, join: (string, string) -> string)
    ensures var p := Probe(SearchPath(parent, envlib, conflib, deflib), name, present, join);
      var rpath := Probe(TagDirs(parent, DT_RPATH), name, present, join);
      var env := Probe(Plain(Split(envlib, ':')), name, present, join);
      var runpath := Probe(TagDirs(parent, DT_RUNPATH), name, present, join);
      var conf := Probe(Plain(conflib), name, present, join);
      p == if rpath != Miss then rpath
        else if env != Miss then env
        else if runpath != Miss then runpath
        else if conf != Miss then conf
        else Probe(Plain(deflib), name, present, join)
  {
    var a := TagDirs(parent, DT_RPATH);
    var b := Plain(Split(envlib, ':'));
    var c := TagDirs(parent, DT_RUNPATH);
    var d := Plain(conflib);
    var e := Plain(deflib);
    ProbeAppend(a + b + c + d, e, name, present, join);
    ProbeAppend(a + b + c, d, name, present, join);
    ProbeAppend(a + b, c, name, present, join);
    ProbeAppend(a, b, name, present, join);
  }

  /** A DT_RPATH hit wins over everything after it, DT_RUNPATH included. */
  lemma {:induction false} RpathBeatsRunpath(name: string, dyns: seq<DynInfo>, envlib: string, conflib: seq<string>,
                          deflib: seq<string>, present: string -> bool, join: (string, string) -> string)
    requires '/' !in name
    requires Probe(TagDirsOf(dyns, DT_RPATH), name, present, join).Hit?
    ensures FindLib(name, Some(dyns), envlib, conflib, deflib, present, join) ==
      Probe(TagDirsOf(dyns, DT_RPATH), name, present, join)
  {
  }

  /** With LD_LIBRARY_PATH unset the one empty component is still probed,
      as the name joined to "". */
  lemma {:induction false} EmptyEnvProbesName(name: string, present: string -> bool, join: (string, string) -> string)
    ensures Probe(Plain(Split("", ':')), name, present, join) ==
      if present(join("", name)) then Hit(join("", name)) else Miss
  {
  }

  // ---------------------------------------------------------------------
  // readLdSoConf (main.go:69-100)

  /** The reader's outcome: the extended path list, a panic (a line that
      is exactly "include" is sliced past its end), or an include chain
      deeper than the fuel (the code has no guard against include cycles
      and recurses without end). */
  datatype Conf = Done(libpath: seq<string>) | Crashed | Diverged

  /** How a line is treated: skipped (blank after trimming, or starting
      with '#'), an include of the pattern after "include ", or a path. */
  datatype Line = Skip | Include(pattern: string) | TooShort | Path(dir: string)

  function Classify(t: string): (r: Line)
    ensures r == Skip <==> Blank(t) || HasPrefix(t, "#")
    ensures r.Include? ==> HasPrefix(t, "include") && |t| >= 8 && r.pattern == t[8..]
    ensures r == TooShort <==> t == "include"
    ensures r.Path? ==> r.dir == t && !HasPrefix(t, "include")
  {
    if Blank(t) then
      assert t == "include" ==> !IsSpace(t[0]);
      Skip
    else if HasPrefix(t, "#") then Skip
    else if HasPrefix(t, "include") then
      if |t| < 8 then assert t == t[..7]; TooShort else Include(t[8..])
    else Path(t)
  }

  /** readLdSoConf(name, libpath) with at most `fuel` nested files. */
  function ReadLdSoConf(files: string -> Option<seq<string>>, glob: string -> Option<seq<string>>,
                        name: string, libpath: seq<string>, fuel: nat): (r: Conf)
    ensures files(name).None? && fuel > 0 ==> r == Done(libpath)
    ensures r.Done? ==> libpath <= r.libpath
    decreases fuel, 0, 0
  {
    if fuel == 0 then Diverged
    else
      match files(name)
      case None => Done(libpath)
      case Some(lines) => ReadLines(files, glob, lines, libpath, fuel - 1)
  }

  /** The scanner loop over a file's lines. */
  function ReadLines(files: string -> Option<seq<string>>, glob: string -> Option<seq<string>>,
                     lines: seq<string>, libpath: seq<string>, fuel: nat): (r: Conf)
    ensures r.Done? ==> libpath <= r.libpath
    decreases fuel, 1, |lines|
  {
    if lines == [] then Done(libpath)
    else
      match Classify(lines[0])
      case Skip => ReadLines(files, glob, lines[1..], libpath, fuel)
      case TooShort => Crashed
      case Path(t) => Prefixed(libpath, [t], ReadLines(files, glob, lines[1..], libpath + [t], fuel))
      case Include(p) =>
        match glob(p)
        case None => ReadLines(files, glob, lines[1..], libpath, fuel)
        case Some(ms) =>
          match ReadIncludes(files, glob, ms, libpath, fuel)
          case Done(l) => Prefixed(libpath, l[|libpath|..], ReadLines(files, glob, lines[1..], l, fuel))
          case other => other
  }

  /** Every file matched by an include, in match order. */
  function ReadIncludes(files: string -> Option<seq<string>>, glob: string -> Option<seq<string>>,
                        ms: seq<string>, libpath: seq<string>, fuel: nat): (r: Conf)
    ensures r.Done? ==> libpath <= r.libpath
    decreases fuel, 0, |ms| + 1
  {
    if ms == [] then Done(libpath)
    else
      match ReadLdSoConf(files, glob, ms[0], libpath, fuel)
      case Done(l) => Prefixed(libpath, l[|libpath|..], ReadIncludes(files, glob, ms[1..], l, fuel))
      case other => other
  }

  /** Passes r through, noting that a result extending libpath + more also
      extends libpath. */
  function Prefixed(libpath: seq<string>, more: seq<string>, r: Conf): (s: Conf)
    requires r.Done? ==> libpath + more <= r.libpath
    ensures s == r && (s.Done? ==> libpath <= s.libpath)
  {
    assert r.Done? ==> (libpath + more)[..|libpath|] == libpath;
    r
  }

  /** The lines a file without includes contributes: those that are not
      skipped, in file order. */
  function Entries(lines: seq<string>): seq<string>
  {
    if lines == [] then []
    else (if Classify(lines[0]).Path? then [lines[0]] else []) + Entries(lines[1..])
  }

  /** A file without include lines (nor a bare "include"). */
  predicate PlainLines(lines: seq<string>)
  {
    forall k :: 0 <= k < |lines| ==> Classify(lines[k]).Skip? || Classify(lines[k]).Path?
  }

  /** A file without include lines appends its entries, verbatim and in
      file order, after the existing list. */
  lemma {:induction false} PlainFile(files: string -> Option<seq<string>>, glob: string -> Option<seq<string>>,
                                     lines: seq<string>, libpath: seq<string>, fuel: nat)
    requires PlainLines(lines)
    ensures ReadLines(files, glob, lines, libpath, fuel) == Done(libpath + Entries(lines))
    decreases |lines|
  {
    if lines != [] {
      var rest := lines[1..];
      assert forall k :: 0 <= k < |rest| ==> rest[k] == lines[k + 1];
      PlainLine(files, glob, lines, libpath, fuel);
      if Classify(lines[0]).Skip? {
        PlainFile(files, glob, rest, libpath, fuel);
      } else {
        PlainFile(files, glob, rest, libpath + [lines[0]], fuel);
        assert libpath + [lines[0]] + Entries(rest) == libpath + ([lines[0]] + Entries(rest));
      }
    }
  }

  /** One line of a file without includes: a skipped line reads nothing,
      a path line is appended. */
  lemma {:induction false} PlainLine(files: string -> Option<seq<string>>, glob: string -> Option<seq<string>>,
                                     lines: seq<string>, libpath: seq<string>, fuel: nat)
    requires lines != [] && (Classify(lines[0]).Skip? || Classify(lines[0]).Path?)
    ensures Classify(lines[0]).Skip? ==>
      && ReadLines(files, glob, lines, libpath, fuel) == ReadLines(files, glob, lines[1..], libpath, fuel)
      && Entries(lines) == Entries(lines[1..])
    ensures Classify(lines[0]).Path? ==>
      && ReadLines(files, glob, lines, libpath, fuel) == ReadLines(files, glob, lines[1..], libpath + [lines[0]], fuel)
      && Entries(lines) == [lines[0]] + Entries(lines[1..])
  {
  }

  /** An include line reads every file its pattern matches, in match
      order, from the list so far, and the rest of the file continues
      from the list they leave; a pattern glob rejects is skipped. */
  lemma {:induction false} IncludeLine(files: string -> Option<seq<string>>, glob: string -> Option<seq<string>>,
                                       lines: seq<string>, libpath: seq<string>, fuel: nat)
    requires lines != [] && Classify(lines[0]).Include?
    ensures var p := Classify(lines[0]).pattern;
      glob(p).None? ==> ReadLines(files, glob, lines, libpath, fuel) == ReadLines(files, glob, lines[1..], libpath, fuel)
    ensures var p := Classify(lines[0]).pattern;
      glob(p).Some? ==>
        (ReadLines(files, glob, lines, libpath, fuel) ==
           match ReadIncludes(files, glob, glob(p).value, libpath, fuel)
           case Done(l) => ReadLines(files, glob, lines[1..], l, fuel)
           case other => other)
  {
  }

  /** What the matched files contribute when none of them includes
      further: the entries of each file that opens, in match order. */
  function IncludedEntries(files: string -> Option<seq<string>>, ms: seq<string>): seq<string>
  {
    if ms == [] then []
    else
      (match files(ms[0]) case None => [] case Some(lines) => Entries(lines))
        + IncludedEntries(files, ms[1..])
  }

  /** Included files without includes of their own append their entries
      one file after the other, in match order; a file that does not open
      adds nothing. */
  lemma {:induction false} PlainIncludes(files: string -> Option<seq<string>>, glob: string -> Option<seq<string>>,
                                         ms: seq<string>, libpath: seq<string>, fuel: nat)
    requires fuel > 0
    requires PlainMatches(files, ms)
    ensures ReadIncludes(files, glob, ms, libpath, fuel) == Done(libpath + IncludedEntries(files, ms))
    decreases |ms|
  {
    if ms != [] {
      var first := PlainConf(files, glob, ms[0], libpath, fuel);
      var rest := ms[1..];
      assert PlainMatches(files, rest) by {
        assert forall k :: 0 <= k < |rest| ==> rest[k] == ms[k + 1];
      }
      PlainIncludes(files, glob, rest, libpath + first, fuel);
      IncludesHead(files, glob, ms, libpath, fuel);
      AppendAfter(libpath, first, IncludedEntries(files, rest), IncludedEntries(files, ms));
    }
  }

  /** Entries appended in two steps are the entries appended at once. */
  lemma {:induction false} AppendAfter(libpath: seq<string>, first: seq<string>, tail: seq<string>, whole: seq<string>)
    requires whole == first + tail
    ensures (libpath + first) + tail == libpath + whole
  {
  }

  /** Every matched file that opens is free of include lines. */
  predicate PlainMatches(files: string -> Option<seq<string>>, ms: seq<string>)
  {
    forall k :: 0 <= k < |ms| && files(ms[k]).Some? ==> PlainLines(files(ms[k]).value)
  }

  /** One matched file without includes: its entries, or nothing when it
      does not open. */
  lemma {:induction false} PlainConf(files: string -> Option<seq<string>>, glob: string -> Option<seq<string>>,
                                     name: string, libpath: seq<string>, fuel: nat) returns (first: seq<string>)
    requires fuel > 0
    requires files(name).Some? ==> PlainLines(files(name).value)
    ensures first == match files(name) case None => [] case Some(lines) => Entries(lines)
    ensures ReadLdSoConf(files, glob, name, libpath, fuel) == Done(libpath + first)
  {
    match files(name)
    case None =>
      first := [];
      assert libpath + first == libpath;
    case Some(lines) =>
      first := Entries(lines);
      PlainFile(files, glob, lines, libpath, fuel - 1);
  }

  /** ReadIncludes unfolded once. */
  lemma {:induction false} IncludesHead(files: string -> Option<seq<string>>, glob: string -> Option<seq<string>>,
                                        ms: seq<string>, libpath: seq<string>, fuel: nat)
    requires ms != []
    ensures ReadIncludes(files, glob, ms, libpath, fuel) ==
      match ReadLdSoConf(files, glob, ms[0], libpath, fuel)
      case Done(l) => ReadIncludes(files, glob, ms[1..], l, fuel)
      case other => other
  {
  }

  /** A worked instance: a file including two others between its own
      lines. From ["/q"], "root" = ["include g", "/p"] with g matching
      "a" = ["/x"] then "b" = ["/y", "# c", "/z"] gives
      ["/q", "/x", "/y", "/z", "/p"]. */
  lemma {:induction false} IncludeInPlace()
    ensures ReadLdSoConf(SampleFiles, SampleGlob, "root", ["/q"], 2) == Done(["/q", "/x", "/y", "/z", "/p"])
  {
    var root := ["include g", "/p"];
    assert SampleFiles("root") == Some(root);
    assert ReadLdSoConf(SampleFiles, SampleGlob, "root", ["/q"], 2) == ReadLines(SampleFiles, SampleGlob, root, ["/q"], 1);
    SampleRoot();
  }

  /** The lines of "root" read from ["/q"]: the included entries, then
      its own. */
  lemma {:induction false} SampleRoot()
    ensures ReadLines(SampleFiles, SampleGlob, ["include g", "/p"], ["/q"], 1) == Done(["/q", "/x", "/y", "/z", "/p"])
  {
    var root := ["include g", "/p"];
    assert Classify(root[0]) == Include("g") by {
      assert !IsSpace(root[0][0]);
      assert HasPrefix(root[0], "include") && root[0][8..] == "g";
    }
    assert SampleGlob("g") == Some(["a", "b"]);
    IncludeLine(SampleFiles, SampleGlob, root, ["/q"], 1);
    SampleIncludes();
    assert root[1..] == ["/p"];
    SampleTail();
  }

  /** The includes of "root" read from ["/q"]. */
  lemma {:induction false} SampleIncludes()
    ensures ReadIncludes(SampleFiles, SampleGlob, ["a", "b"], ["/q"], 1) == Done(["/q", "/x", "/y", "/z"])
  {
    SampleIncluded();
    PlainIncludes(SampleFiles, SampleGlob, ["a", "b"], ["/q"], 1);
    assert ["/q"] + ["/x", "/y", "/z"] == ["/q", "/x", "/y", "/z"];
  }

  /** The last line of "root" after the includes. */
  lemma {:induction false} SampleTail()
    ensures ReadLines(SampleFiles, SampleGlob, ["/p"], ["/q", "/x", "/y", "/z"], 1) == Done(["/q", "/x", "/y", "/z", "/p"])
  {
    ClassifyPath("/p");
    PlainFile(SampleFiles, SampleGlob, ["/p"], ["/q", "/x", "/y", "/z"], 1);
    assert Entries(["/p"]) == ["/p"];
  }

  /** The two included files of the worked instance and what they add. */
  lemma {:induction false} SampleIncluded()
    ensures PlainMatches(SampleFiles, ["a", "b"])
    ensures IncludedEntries(SampleFiles, ["a", "b"]) == ["/x", "/y", "/z"]
  {
    var ms := ["a", "b"];
    assert SampleFiles(ms[0]) == Some(["/x"]);
    assert SampleFiles(ms[1]) == Some(["/y", "# c", "/z"]);
    SamplePlain();
    assert ms[1..] == ["b"];
    assert ms[1..][1..] == [];
  }

  /** The lines of the two included files. */
  lemma {:induction false} SamplePlain()
    ensures PlainLines(["/x"]) && Entries(["/x"]) == ["/x"]
    ensures PlainLines(["/y", "# c", "/z"]) && Entries(["/y", "# c", "/z"]) == ["/y", "/z"]
  {
    ClassifyPath("/x");
    ClassifyPath("/y");
    ClassifyPath("/z");
    assert Classify("# c") == Skip by { assert HasPrefix("# c", "#"); }
    var b := ["/y", "# c", "/z"];
    assert b[1..] == ["# c", "/z"] && b[1..][1..] == ["/z"];
    assert Entries(b[1..][1..]) == ["/z"];
    assert Entries(b[1..]) == ["/z"];
  }

  /** The file system of the worked instance. */
  function SampleFiles(name: string): Option<seq<string>>
  {
    if name == "root" then Some(["include g", "/p"])
    else if name == "a" then Some(["/x"])
    else if name == "b" then Some(["/y", "# c", "/z"])
    else None
  }

  /** The glob of the worked instance. */
  function SampleGlob(pattern: string): Option<seq<string>>
  {
    if pattern == "g" then Some(["a", "b"]) else None
  }

  /** A line starting with '/' is a path. */
  lemma {:induction false} ClassifyPath(t: string)
    requires |t| > 0 && t[0] == '/'
    ensures Classify(t) == Path(t)
  {
    assert !IsSpace(t[0]);
    assert !HasPrefix(t, "#") && !HasPrefix(t, "include");
  }

  /** More fuel never changes a finished reading: the fuel bound only cuts
      off include chains that are deeper than any finite reading. */
  lemma {:induction false} FuelEnough(files: string -> Option<seq<string>>, glob: string -> Option<seq<string>>,
                                      name: string, libpath: seq<string>, fuel: nat)
    requires ReadLdSoConf(files, glob, name, libpath, fuel) != Diverged
    ensures ReadLdSoConf(files, glob, name, libpath, fuel + 1) == ReadLdSoConf(files, glob, name, libpath, fuel)
    decreases fuel, 0, 0
  {
    if files(name).Some? {
      LinesFuel(files, glob, files(name).value, libpath, fuel - 1);
    }
  }

  lemma {:induction false} LinesFuel(files: string -> Option<seq<string>>, glob: string -> Option<seq<string>>,
                                     lines: seq<string>, libpath: seq<string>, fuel: nat)
    requires ReadLines(files, glob, lines, libpath, fuel) != Diverged
    ensures ReadLines(files, glob, lines, libpath, fuel + 1) == ReadLines(files, glob, lines, libpath, fuel)
    decreases fuel, 1, |lines|
  {
    if lines != [] {
      match Classify(lines[0])
      case Skip => LinesFuel(files, glob, lines[1..], libpath, fuel);
      case TooShort =>
      case Path(t) => LinesFuel(files, glob, lines[1..], libpath + [t], fuel);
      case Include(p) =>
        if glob(p).Some? {
          var ms := glob(p).value;
          IncludesFuel(files, glob, ms, libpath, fuel);
          var inc := ReadIncludes(files, glob, ms, libpath, fuel);
          if inc.Done? {
            LinesFuel(files, glob, lines[1..], inc.libpath, fuel);
          }
        } else {
          LinesFuel(files, glob, lines[1..], libpath, fuel);
        }
    }
  }

  lemma {:induction false} IncludesFuel(files: string -> Option<seq<string>>, glob: string -> Option<seq<string>>,
                                        ms: seq<string>, libpath: seq<string>, fuel: nat)
    requires ReadIncludes(files, glob, ms, libpath, fuel) != Diverged
    ensures ReadIncludes(files, glob, ms, libpath, fuel + 1) == ReadIncludes(files, glob, ms, libpath, fuel)
    decreases fuel, 0, |ms| + 1
  {
    if ms != [] {
      FuelEnough(files, glob, ms[0], libpath, fuel);
      var first := ReadLdSoConf(files, glob, ms[0], libpath, fuel);
      if first.Done? {
        IncludesFuel(files, glob, ms[1..], first.libpath, fuel);
      }
    }
  }

  /** A file that includes itself never finishes, whatever the fuel. */
  lemma {:induction false} SelfIncludeDiverges(files: string -> Option<seq<string>>, glob: string -> Option<seq<string>>,
                                               name: string, libpath: seq<string>, fuel: nat)
    requires files(name) == Some(["include " + name]) && glob(name) == Some([name])
    ensures ReadLdSoConf(files, glob, name, libpath, fuel) == Diverged
    decreases fuel
  {
    if fuel > 0 {
      var t := "include " + name;
      assert t[..7] == "include" && t[8..] == name && |t| >= 8;
      assert !Blank(t) by { assert !IsSpace(t[0]); }
      assert Classify(t) == Include(name);
      SelfIncludeDiverges(files, glob, name, libpath, fuel - 1);
      assert ReadIncludes(files, glob, [name], libpath, fuel - 1) == Diverged;
    }
  }
}

=== FILE: tree_build.dfy ===
/**
  Building presentation trees (tui.go:465-519): makeDepsItems turns the
  dependency tree into items, AddSubTree appends a labelled group of text
  lines to the detail pane's tree.

  `Size` is the reference count of items in a tree, hidden ones included.
 */
module TreeBuild {
  import opened Wrappers
  import opened TreeItems
  import opened DepGraph

  function Size(t: Item): nat
    decreases t, |t.children| + 1
  {
    1 + ChildSize(t, |t.children|)
  }

  /** Σ Size over the first k children. */
  function ChildSize(t: Item, k: nat): nat
    requires k <= |t.children|
    decreases t, k
  {
    if k == 0 then 0 else ChildSize(t, k - 1) + Size(t.children[k - 1])
  }

  /** No item of the tree is folded. */
  ghost predicate Unfolded(t: Item)
  {
    !t.folded && forall i :: 0 <= i < |t.children| ==> Unfolded(t.children[i])
  }

  /** The running sum of the children's totals, as makeDepsItems adds them
      up, left to right. */
  function SumTotals(s: seq<Item>): int
  {
    if s == [] then 0 else SumTotals(s[..|s| - 1]) + s[|s| - 1].total
  }

  // ---------------------------------------------------------------------
  // makeDepsItems (tui.go:465-484)

  /** The item for dependency node i and, recursively, its children: all
      unfolded, children in the order of the dependency node's children,
      `total` the number of children plus the children's totals. That
      total is the number of descendants, which satisfies the invariant on
      `total` at every item and makes every item visible. */
  function MakeDepsItems(nodes: seq<Node>, i: nat): (r: Item)
    requires Ordered(nodes) && i < |nodes|
    ensures r.node == Library(nodes[i].name, nodes[i].depth)
    ensures |r.children| == |nodes[i].children|
    ensures forall j :: 0 <= j < |r.children| ==>
      r.children[j].node == Library(nodes[nodes[i].children[j]].name, nodes[nodes[i].children[j]].depth)
    ensures Unfolded(r) && WellFormed(r)
    ensures r.total == Size(r) - 1
    ensures |Rows(r)| == Size(r)
    decreases |nodes| - i
  {
    var cs := nodes[i].children;
    var kids := seq(|cs|, j requires 0 <= j < |cs| => MakeDepsItems(nodes, cs[j]));
    var r := Item(Library(nodes[i].name, nodes[i].depth), false, |cs| + SumTotals(kids), kids);
    Assemble(r);
    r
  }

  /** An unfolded item whose total is makeDepsItems' sum over children
      that already count their descendants counts its own. */
  lemma {:induction false} Assemble(r: Item)
    requires !r.folded && r.total == |r.children| + SumTotals(r.children)
    requires forall j :: 0 <= j < |r.children| ==>
      Unfolded(r.children[j]) && WellFormed(r.children[j]) && r.children[j].total == Size(r.children[j]) - 1
    ensures Unfolded(r) && WellFormed(r)
    ensures r.total == Size(r) - 1
    ensures |Rows(r)| == Size(r)
  {
    SumTotalsChildSum(r, |r.children|);
    assert r.children[..|r.children|] == r.children;
    ChildSizeChildSum(r, |r.children|);
    RowCount(r);
  }

  /** The left-to-right sum of makeDepsItems is the Σ(1 + total) of the
      invariant. */
  lemma {:induction false} SumTotalsChildSum(t: Item, k: nat)
    requires k <= |t.children|
    ensures ChildSum(t, k) == k + SumTotals(t.children[..k])
    decreases k
  {
    if k > 0 {
      SumTotalsChildSum(t, k - 1);
      assert t.children[..k][..k - 1] == t.children[..k - 1];
    }
  }

  /** When each child's total counts its descendants, Σ(1 + total) counts
      the items below. */
  lemma {:induction false} ChildSizeChildSum(t: Item, k: nat)
    requires k <= |t.children|
    requires forall j :: 0 <= j < |t.children| ==> t.children[j].total == Size(t.children[j]) - 1
    ensures ChildSize(t, k) == ChildSum(t, k)
    decreases k
  {
    if k > 0 {
      ChildSizeChildSum(t, k - 1);
    }
  }

  // ---------------------------------------------------------------------
  // AddSubTree (tui.go:486-519)

  /** A text line with no children, as AddSubTree creates its items. */
  function Leaf(s: string): Item
  {
    Item(Text(s), false, 0, [])
  }

  function Leaves(items: seq<string>): (r: seq<Item>)
    ensures |r| == |items|
    ensures forall j :: 0 <= j < |items| ==> r[j] == Leaf(items[j])
  {
    seq(|items|, j requires 0 <= j < |items| => Leaf(items[j]))
  }

  /** AddSubTree as the code does it: the group goes last among the
      parent's children with the lines as its children, but the closing
      update of `total` lands on the group (the variable naming the parent
      was reassigned to the group just before), so the group counts one
      row too many and the parent's total does not change. */
  function AddSubTreeAsWritten(parent: Item, name: string, items: seq<string>): (r: Item)
    ensures r == parent.(children := r.children)
    ensures |r.children| == |parent.children| + 1
    ensures r.children[..|parent.children|] == parent.children
    ensures r.children[|parent.children|] == Item(Text(name), false, |items| + 1, Leaves(items))
  {
    var group := Item(Text(name), false, |items| + 1, Leaves(items));
    var r := parent.(children := parent.children + [group]);
    assert r.children[..|parent.children|] == parent.children;
    r
  }

  /** The first call of the file-info builder (a blank group, no lines,
      under a fresh root) already breaks the invariant: the root shows two
      rows but counts none, and the group counts a row it does not have. */
  lemma {:induction false} AddSubTreeAsWrittenMiscounts()
    ensures WellFormed(Item(Text("x"), false, 0, []))
    ensures var r := AddSubTreeAsWritten(Item(Text("x"), false, 0, []), "", []);
      !WellFormed(r) && r.total == 0 && |Rows(r)| == 2 && r.children[0].total == 1
  {
    var r := AddSubTreeAsWritten(Item(Text("x"), false, 0, []), "", []);
    assert r.children[0] == Item(Text(""), false, 1, Leaves([]));
    assert Leaves([]) == [];
    assert ChildRows(r.children[0], 0) == [];
    assert Rows(r.children[0]) == [[]];
    assert ChildRows(r, 1) == ChildRows(r, 0) + Tag(0, [[]]);
    assert ChildSum(r.children[0], 0) == 0;
  }

  /** AddSubTree as intended: the group, with the lines as its children,
      goes last among the parent's children; the group counts its lines and
      the parent gains the group and its lines. */
  function AddSubTree(parent: Item, name: string, items: seq<string>): (r: Item)
    ensures |r.children| == |parent.children| + 1
    ensures r.children[..|parent.children|] == parent.children
    ensures r.children[|parent.children|] == Item(Text(name), false, |items|, Leaves(items))
    ensures r.node == parent.node && r.folded == parent.folded
    ensures r.total == parent.total + |items| + 1
  {
    var group := Item(Text(name), false, |items|, Leaves(items));
    var r := Item(parent.node, parent.folded, parent.total + |items| + 1, parent.children + [group]);
    assert r.children[..|parent.children|] == parent.children;
    r
  }

  /** On an unfolded well-formed parent the intended AddSubTree keeps the
      invariant on `total` and shows exactly |items| + 1 more rows. */
  lemma {:induction false} AddSubTreeWellFormed(parent: Item, name: string, items: seq<string>)
    requires WellFormed(parent) && !parent.folded
    ensures WellFormed(AddSubTree(parent, name, items))
    ensures |Rows(AddSubTree(parent, name, items))| == |Rows(parent)| + |items| + 1
  {
    var r := AddSubTree(parent, name, items);
    var group := r.children[|parent.children|];
    LeavesSum(group, |items|);
    ChildSumPrefix(parent, r, |parent.children|);
    RowCount(parent);
    RowCount(r);
  }

  lemma {:induction false} LeavesSum(group: Item, k: nat)
    requires forall j :: 0 <= j < |group.children| ==>
      !group.children[j].folded && group.children[j].total == 0 && group.children[j].children == []
    requires k <= |group.children|
    ensures ChildSum(group, k) == k
    ensures forall j :: 0 <= j < |group.children| ==> WellFormed(group.children[j])
    decreases k
  {
    if k > 0 {
      LeavesSum(group, k - 1);
    }
  }

  /** Trees whose first m children agree have the same Σ(1 + total) over
      them. */
  lemma {:induction false} ChildSumPrefix(a: Item, b: Item, m: nat)
    requires m <= |a.children| && m <= |b.children|
    requires forall j :: 0 <= j < m ==> a.children[j] == b.children[j]
    ensures ChildSum(a, m) == ChildSum(b, m)
    decreases m
  {
    if m > 0 {
      ChildSumPrefix(a, b, m - 1);
    }
  }
}

=== FILE: tree_fold.dfy ===
/**
  Folding and unfolding an item (`expand`, `fold` and `toggle` in tui.go).

  elftree keeps `total` correct incrementally: it changes the toggled
  item and then walks the parent pointers, adjusting every ancestor by the
  same amount, never recounting a subtree. `Rebuild` is that shape of
  update: replace the item at a path, add a delta to every proper ancestor.
 */
module TreeFold {
  import opened Wrappers
  import opened TreeItems

  /** The tree with the item at `p` replaced by `n` and `delta` added to the
      total of every proper ancestor of `p`. */
  function Rebuild(t: Item, p: Path, delta: int, n: Item): (r: Item)
    requires ValidPath(t, p)
    ensures p != [] ==> r.node == t.node && r.folded == t.folded && |r.children| == |t.children|
    ensures p != [] ==> r.total == t.total + delta
    decreases |p|
  {
    if p == [] then n
    else t.(total := t.total + delta,
            children := t.children[p[0] := Rebuild(t.children[p[0]], p[1..], delta, n)])
  }

  // ---------------------------------------------------------------------
  // What Rebuild changes and what it keeps

  lemma {:induction false} RebuildAt(t: Item, p: Path, delta: int, n: Item)
    requires ValidPath(t, p)
    ensures ValidPath(Rebuild(t, p, delta, n), p)
    ensures ItemAt(Rebuild(t, p, delta, n), p) == n
    decreases |p|
  {
    if p != [] {
      RebuildAt(t.children[p[0]], p[1..], delta, n);
    }
  }

  /** Every proper ancestor keeps its content, fold flag and number of
      children, and its total moves by `delta`. */
  lemma {:induction false} RebuildAncestor(t: Item, p: Path, delta: int, n: Item, m: nat)
    requires ValidPath(t, p) && m < |p|
    ensures ValidPath(t, p[..m])
    ensures ValidPath(Rebuild(t, p, delta, n), p[..m])
    ensures var a, b := ItemAt(t, p[..m]), ItemAt(Rebuild(t, p, delta, n), p[..m]);
      && b.node == a.node && b.folded == a.folded && |b.children| == |a.children|
      && b.total == a.total + delta
    decreases |p|
  {
    ValidPathPrefix(t, p, m);
    if m > 0 {
      assert p[..m][0] == p[0];
      assert p[..m][1..] == p[1..][..m - 1];
      RebuildAncestor(t.children[p[0]], p[1..], delta, n, m - 1);
    } else {
      assert p[..m] == [];
    }
  }

  /** Paths that part from `p` at some index. */
  predicate Diverges(x: Path, p: Path)
  {
    exists m :: 0 <= m < |x| && m < |p| && x[m] != p[m]
  }

  /** Items off the path to `p` are untouched. */
  lemma {:induction false} RebuildElsewhere(t: Item, p: Path, delta: int, n: Item, x: Path)
    requires ValidPath(t, p) && ValidPath(t, x) && Diverges(x, p)
    ensures ValidPath(Rebuild(t, p, delta, n), x)
    ensures ItemAt(Rebuild(t, p, delta, n), x) == ItemAt(t, x)
    decreases |p|
  {
    var r := Rebuild(t, p, delta, n);
    var m :| 0 <= m < |x| && m < |p| && x[m] != p[m];
    if x[0] != p[0] {
      assert r.children[x[0]] == t.children[x[0]];
    } else {
      assert x[1..][m - 1] != p[1..][m - 1];
      RebuildElsewhere(t.children[p[0]], p[1..], delta, n, x[1..]);
    }
  }

  /** Two rebuilds along the same path compose. */
  lemma {:induction false} RebuildTwice(t: Item, p: Path, d1: int, n1: Item, d2: int, n2: Item)
    requires ValidPath(t, p)
    ensures ValidPath(Rebuild(t, p, d1, n1), p)
    ensures Rebuild(Rebuild(t, p, d1, n1), p, d2, n2) == Rebuild(t, p, d1 + d2, n2)
    decreases |p|
  {
    RebuildAt(t, p, d1, n1);
    if p != [] {
      RebuildTwice(t.children[p[0]], p[1..], d1, n1, d2, n2);
    }
  }

  /** Putting back the item that is there, with no delta, changes nothing. */
  lemma {:induction false} RebuildSame(t: Item, p: Path)
    requires ValidPath(t, p)
    ensures Rebuild(t, p, 0, ItemAt(t, p)) == t
    decreases |p|
  {
    if p != [] {
      RebuildSame(t.children[p[0]], p[1..]);
    }
  }

  // ---------------------------------------------------------------------
  // Well-formedness of a rebuilt tree

  lemma {:induction false} ChildSumUpdate(t: Item, k: nat, c: Item, m: nat)
    requires k < |t.children| && m <= |t.children|
    ensures ChildSum(t.(children := t.children[k := c]), m) ==
      ChildSum(t, m) + (if k < m then c.total - t.children[k].total else 0)
    decreases m
  {
    var u := t.(children := t.children[k := c]);
    if m > 0 {
      ChildSumUpdate(t, k, c, m - 1);
      assert ChildSum(u, m) == ChildSum(u, m - 1) + 1 + u.children[m - 1].total;
      assert ChildSum(t, m) == ChildSum(t, m - 1) + 1 + t.children[m - 1].total;
    } else {
      assert ChildSum(u, 0) == 0 == ChildSum(t, 0);
    }
  }

  /** The delta applied to the ancestors is the change of the replaced
      item's total, so every ancestor's sum stays right: provided none of
      them is folded, which holds for an item on screen. */
  lemma {:induction false} RebuildWellFormed(t: Item, p: Path, n: Item)
    requires WellFormed(t) && Shown(t, p)
    requires WellFormed(n)
    ensures ValidPath(t, p)
    ensures WellFormed(Rebuild(t, p, n.total - ItemAt(t, p).total, n))
    decreases |p|
  {
    ShownIsValid(t, p);
    if p != [] {
      var k := p[0];
      var c := t.children[k];
      var d := n.total - ItemAt(t, p).total;
      RebuildWellFormed(c, p[1..], n);
      var c' := Rebuild(c, p[1..], d, n);
      if p[1..] == [] {
        assert c' == n;
      }
      assert c'.total == c.total + d;
      ChildSumUpdate(t, k, c', |t.children|);
      var r := Rebuild(t, p, d, n);
      assert r == t.(total := t.total + d, children := t.children[k := c']);
      forall i | 0 <= i < |r.children|
        ensures WellFormed(r.children[i])
      {
        if i != k {
          assert r.children[i] == t.children[i];
        }
      }
      assert !t.folded && !r.folded;
      ChildSumSameChildren(r, t.(children := t.children[k := c']), |r.children|);
      assert r.total == ChildSum(r, |r.children|);
      assert WellFormed(r);
    }
  }

  // ---------------------------------------------------------------------
  // expand, fold, toggle (tui.go:126-161)

  /** expand: on a folded item with children, add Σ(total(c)+1) over the
      children to its total, add that new total to every ancestor and clear
      the fold flag. A no-op on an unfolded or childless item. */
  function Expand(t: Item, p: Path): (r: Item)
    requires ValidPath(t, p)
    ensures ValidPath(r, p)
    ensures !ItemAt(t, p).folded || |ItemAt(t, p).children| == 0 ==> r == t
    ensures ItemAt(t, p).folded && |ItemAt(t, p).children| > 0 ==>
      var it, e := ItemAt(t, p), ItemAt(r, p);
      && !e.folded && e.node == it.node && e.children == it.children
      && e.total == it.total + ChildSum(it, |it.children|)
      && forall m :: 0 <= m < |p| ==>
           ValidPath(t, p[..m]) && ValidPath(r, p[..m]) &&
           ItemAt(r, p[..m]).total == ItemAt(t, p[..m]).total + e.total
  {
    var it := ItemAt(t, p);
    if !it.folded || |it.children| == 0 then t
    else
      var e := it.(total := it.total + ChildSum(it, |it.children|), folded := false);
      RebuildAt(t, p, e.total, e);
      RebuildAncestors(t, p, e.total, e);
      Rebuild(t, p, e.total, e)
  }

  /** fold: subtract the item's total from every ancestor, zero it and set
      the fold flag. A no-op on a folded or childless item. */
  function Fold(t: Item, p: Path): (r: Item)
    requires ValidPath(t, p)
    ensures ValidPath(r, p)
    ensures ItemAt(t, p).folded || |ItemAt(t, p).children| == 0 ==> r == t
    ensures !ItemAt(t, p).folded && |ItemAt(t, p).children| > 0 ==>
      var it, e := ItemAt(t, p), ItemAt(r, p);
      && e.folded && e.total == 0 && e.node == it.node && e.children == it.children
      && forall m :: 0 <= m < |p| ==>
           ValidPath(t, p[..m]) && ValidPath(r, p[..m]) &&
           ItemAt(r, p[..m]).total == ItemAt(t, p[..m]).total - it.total
  {
    var it := ItemAt(t, p);
    if it.folded || |it.children| == 0 then t
    else
      var e := it.(total := 0, folded := true);
      RebuildAt(t, p, -it.total, e);
      RebuildAncestors(t, p, -it.total, e);
      Rebuild(t, p, -it.total, e)
  }

  lemma {:induction false} RebuildAncestors(t: Item, p: Path, delta: int, n: Item)
    requires ValidPath(t, p)
    ensures forall m :: 0 <= m < |p| ==>
      ValidPath(t, p[..m]) && ValidPath(Rebuild(t, p, delta, n), p[..m]) &&
      ItemAt(Rebuild(t, p, delta, n), p[..m]).total == ItemAt(t, p[..m]).total + delta
  {
    forall m | 0 <= m < |p|
      ensures ValidPath(t, p[..m]) && ValidPath(Rebuild(t, p, delta, n), p[..m])
      ensures ItemAt(Rebuild(t, p, delta, n), p[..m]).total == ItemAt(t, p[..m]).total + delta
    {
      RebuildAncestor(t, p, delta, n, m);
    }
  }

  /** toggle: expand a folded item, fold an unfolded one. */
  function Toggle(t: Item, p: Path): (r: Item)
    requires ValidPath(t, p)
    ensures ValidPath(r, p)
    ensures ItemAt(t, p).folded ==> r == Expand(t, p)
    ensures !ItemAt(t, p).folded ==> r == Fold(t, p)
  {
    if ItemAt(t, p).folded then Expand(t, p) else Fold(t, p)
  }

  // ---------------------------------------------------------------------
  // The invariant is kept

  /** Expanding an item on screen keeps every total equal to the number of
      rows it covers. */
  lemma {:induction false} ExpandWellFormed(t: Item, p: Path)
    requires WellFormed(t) && Shown(t, p)
    ensures ValidPath(t, p)
    ensures WellFormed(Expand(t, p))
    ensures |Rows(Expand(t, p))| == Expand(t, p).total + 1
  {
    ShownIsValid(t, p);
    var it := ItemAt(t, p);
    WellFormedAt(t, p);
    if it.folded && |it.children| > 0 {
      var e := it.(total := it.total + ChildSum(it, |it.children|), folded := false);
      assert ChildSum(e, |e.children|) == ChildSum(it, |it.children|) by {
        ChildSumSameChildren(it, e, |it.children|);
      }
      assert WellFormed(e);
      RebuildWellFormed(t, p, e);
    }
    RowCount(Expand(t, p));
  }

  /** Folding an item on screen keeps the invariant as well. */
  lemma {:induction false} FoldWellFormed(t: Item, p: Path)
    requires WellFormed(t) && Shown(t, p)
    ensures ValidPath(t, p)
    ensures WellFormed(Fold(t, p))
    ensures |Rows(Fold(t, p))| == Fold(t, p).total + 1
  {
    ShownIsValid(t, p);
    var it := ItemAt(t, p);
    WellFormedAt(t, p);
    if !it.folded && |it.children| > 0 {
      var e := it.(total := 0, folded := true);
      assert WellFormed(e);
      RebuildWellFormed(t, p, e);
    }
    RowCount(Fold(t, p));
  }

  lemma {:induction false} ToggleWellFormed(t: Item, p: Path)
    requires WellFormed(t) && Shown(t, p)
    ensures ValidPath(t, p)
    ensures WellFormed(Toggle(t, p))
    ensures |Rows(Toggle(t, p))| == Toggle(t, p).total + 1
  {
    ShownIsValid(t, p);
    if ItemAt(t, p).folded {
      ExpandWellFormed(t, p);
    } else {
      FoldWellFormed(t, p);
    }
  }

  lemma {:induction false} ChildSumSameChildren(a: Item, b: Item, m: nat)
    requires a.children == b.children && m <= |a.children|
    ensures ChildSum(a, m) == ChildSum(b, m)
    decreases m
  {
    if m > 0 {
      ChildSumSameChildren(a, b, m - 1);
    }
  }

  /** Toggling the same item twice restores the whole tree, every total
      included. */
  lemma {:induction false} ToggleTwice(t: Item, p: Path)
    requires WellFormed(t) && ValidPath(t, p)
    ensures ValidPath(Toggle(t, p), p)
    ensures Toggle(Toggle(t, p), p) == t
  {
    WellFormedAt(t, p);
    if |ItemAt(t, p).children| > 0 {
      if ItemAt(t, p).folded {
        ExpandThenFold(t, p);
      } else {
        FoldThenExpand(t, p);
      }
    }
  }

  /** Folding an item just expanded restores the tree. */
  lemma {:induction false} ExpandThenFold(t: Item, p: Path)
    requires ValidPath(t, p) && WellFormed(ItemAt(t, p))
    requires ItemAt(t, p).folded && |ItemAt(t, p).children| > 0
    ensures ValidPath(Expand(t, p), p) && !ItemAt(Expand(t, p), p).folded
    ensures Fold(Expand(t, p), p) == t
  {
    var it := ItemAt(t, p);
    var e := it.(total := it.total + ChildSum(it, |it.children|), folded := false);
    RebuildAt(t, p, e.total, e);
    assert Expand(t, p) == Rebuild(t, p, e.total, e);
    var f := e.(total := 0, folded := true);
    assert f == it;
    assert Fold(Expand(t, p), p) == Rebuild(Rebuild(t, p, e.total, e), p, -e.total, f);
    RebuildTwice(t, p, e.total, e, -e.total, f);
    RebuildSame(t, p);
  }

  /** Expanding an item just folded restores the tree. */
  lemma {:induction false} FoldThenExpand(t: Item, p: Path)
    requires ValidPath(t, p) && WellFormed(ItemAt(t, p))
    requires !ItemAt(t, p).folded && |ItemAt(t, p).children| > 0
    ensures ValidPath(Fold(t, p), p) && ItemAt(Fold(t, p), p).folded
    ensures Expand(Fold(t, p), p) == t
  {
    var it := ItemAt(t, p);
    var f := it.(total := 0, folded := true);
    RebuildAt(t, p, -it.total, f);
    assert Fold(t, p) == Rebuild(t, p, -it.total, f);
    var e := f.(total := f.total + ChildSum(f, |f.children|), folded := false);
    ChildSumSameChildren(it, f, |it.children|);
    assert e == it;
    assert Expand(Fold(t, p), p) == Rebuild(Rebuild(t, p, -it.total, f), p, it.total, e);
    RebuildTwice(t, p, -it.total, f, it.total, e);
    RebuildSame(t, p);
  }

  // ---------------------------------------------------------------------
  // Rows up to the toggled item do not move

  lemma {:induction false} ChildRowsSame(a: Item, b: Item, k: nat)
    requires k <= |a.children| && k <= |b.children|
    requires forall m :: 0 <= m < k ==> a.children[m] == b.children[m]
    ensures ChildRows(a, k) == ChildRows(b, k)
    decreases k
  {
    if k > 0 {
      ChildRowsSame(a, b, k - 1);
    }
  }

  /** The visible rows up to and including row j of child k. */
  lemma {:induction false} RowsPrefixAt(t: Item, k: nat, j: nat)
    requires !t.folded && k < |t.children| && j < |Rows(t.children[k])|
    ensures 1 + |ChildRows(t, k)| + j < |Rows(t)|
    ensures Rows(t)[..1 + |ChildRows(t, k)| + j + 1] ==
      [[]] + ChildRows(t, k) + Tag(k, Rows(t.children[k])[..j + 1])
  {
    var n := |t.children|;
    var rc := Rows(t.children[k]);
    var a := ChildRows(t, k);
    var c1 := ChildRows(t, k + 1);
    var cr := ChildRows(t, n);
    var m := |a| + j + 1;
    ChildRowsPrefix(t, k + 1, n);
    assert c1 == a + Tag(k, rc);
    PrefixOfPrefix(cr, m, |c1|);
    TagPrefix(k, rc, j + 1);
    PrefixOfAppend(a, Tag(k, rc), j + 1);
    RowsOpen(t);
    PrefixOfAppend([[]], cr, m);
  }

  lemma {:induction false} RowsOpen(t: Item)
    requires !t.folded
    ensures Rows(t) == [[]] + ChildRows(t, |t.children|)
  {
  }

  lemma {:induction false} PrefixOfPrefix(s: seq<Path>, m: nat, l: nat)
    requires m <= l <= |s|
    ensures s[..l][..m] == s[..m]
  {
  }

  lemma {:induction false} PrefixOfAppend(a: seq<Path>, b: seq<Path>, x: nat)
    requires x <= |b|
    ensures (a + b)[..|a| + x] == a + b[..x]
  {
  }

  lemma {:induction false} TagPrefix(k: nat, rows: seq<Path>, x: nat)
    requires x <= |rows|
    ensures Tag(k, rows)[..x] == Tag(k, rows[..x])
  {
  }

  /** Replacing an item on screen leaves it on screen at the same row. */
  lemma {:induction false} RebuildKeepsIndex(t: Item, p: Path, delta: int, n: Item)
    requires Shown(t, p)
    ensures ValidPath(t, p)
    ensures Shown(Rebuild(t, p, delta, n), p)
    ensures RowIndex(Rebuild(t, p, delta, n), p) == RowIndex(t, p)
    decreases |p|
  {
    ShownIsValid(t, p);
    if p != [] {
      var r := Rebuild(t, p, delta, n);
      var k := p[0];
      RebuildKeepsIndex(t.children[k], p[1..], delta, n);
      forall m | 0 <= m < k
        ensures r.children[m] == t.children[m]
      {
      }
      ChildRowsSame(t, r, k);
    }
  }

  /** ... and leaves every row before it where it was. */
  lemma {:induction false} RebuildKeepsRowsBefore(t: Item, p: Path, delta: int, n: Item)
    requires Shown(t, p)
    ensures ValidPath(t, p)
    ensures RowIndex(t, p) < |Rows(t)| && RowIndex(t, p) < |Rows(Rebuild(t, p, delta, n))|
    ensures Rows(Rebuild(t, p, delta, n))[..RowIndex(t, p) + 1] == Rows(t)[..RowIndex(t, p) + 1]
  {
    ShownIsValid(t, p);
    RebuildSameRows(t, p, delta, n);
  }

  lemma {:induction false} RebuildSameRows(t: Item, p: Path, delta: int, n: Item)
    requires Shown(t, p)
    ensures ValidPath(t, p)
    ensures SameRowsUpTo(Rebuild(t, p, delta, n), t, RowIndex(t, p))
    decreases |p|
  {
    ShownIsValid(t, p);
    if p != [] {
      RebuildSameRows(t.children[p[0]], p[1..], delta, n);
      RebuildRowsStep(t, p, delta, n);
    } else {
      var r := Rebuild(t, p, delta, n);
      assert Rows(r)[..1] == [[]] == Rows(t)[..1];
    }
  }

  /** The inductive step of RebuildKeepsRowsBefore, from the claim for the
      child the path enters. */
  lemma {:induction false} RebuildRowsStep(t: Item, p: Path, delta: int, n: Item)
    requires Shown(t, p) && p != [] && ValidPath(t, p)
    requires SameRowsUpTo(Rebuild(t.children[p[0]], p[1..], delta, n), t.children[p[0]], RowIndex(t.children[p[0]], p[1..]))
    ensures SameRowsUpTo(Rebuild(t, p, delta, n), t, RowIndex(t, p))
  {
    var r := Rebuild(t, p, delta, n);
    var k := p[0];
    RebuildChildren(t, p, delta, n);
    RowsPrefixStep(t, r, k, RowIndex(t.children[k], p[1..]), RowIndex(t, p));
  }

  lemma {:induction false} RebuildChildren(t: Item, p: Path, delta: int, n: Item)
    requires p != [] && ValidPath(t, p)
    ensures var r := Rebuild(t, p, delta, n);
      && r.folded == t.folded && |r.children| == |t.children|
      && r.children[p[0]] == Rebuild(t.children[p[0]], p[1..], delta, n)
      && forall m :: 0 <= m < |t.children| && m != p[0] ==> r.children[m] == t.children[m]
  {
  }

  /** Two trees show the same rows 0..i. */
  ghost predicate SameRowsUpTo(a: Item, b: Item, i: nat)
  {
    i < |Rows(a)| && i < |Rows(b)| && Rows(a)[..i + 1] == Rows(b)[..i + 1]
  }

  /** The step of RebuildKeepsRowsBefore: trees that agree on the first k
      children and on the first j+1 rows of child k agree on the rows up to
      that one. */
  lemma {:induction false} RowsPrefixStep(t: Item, r: Item, k: nat, j: nat, i: nat)
    requires !t.folded && !r.folded
    requires k < |t.children| && k < |r.children|
    requires forall m :: 0 <= m < k ==> r.children[m] == t.children[m]
    requires SameRowsUpTo(r.children[k], t.children[k], j)
    requires i == 1 + |ChildRows(t, k)| + j
    ensures SameRowsUpTo(r, t, i)
  {
    ChildRowsSame(t, r, k);
    RowsPrefixAt(t, k, j);
    RowsPrefixAt(r, k, j);
  }

  /** Toggling the item on screen at row i keeps it at row i and keeps rows
      0..i in place. */
  lemma {:induction false} ToggleKeepsRowsBefore(t: Item, p: Path)
    requires Shown(t, p)
    ensures ValidPath(t, p)
    ensures Shown(Toggle(t, p), p)
    ensures RowIndex(Toggle(t, p), p) == RowIndex(t, p)
    ensures RowIndex(t, p) < |Rows(t)| && RowIndex(t, p) < |Rows(Toggle(t, p))|
    ensures Rows(Toggle(t, p))[..RowIndex(t, p) + 1] == Rows(t)[..RowIndex(t, p) + 1]
  {
    ShownIsValid(t, p);
    ShownRow(t, p);
    var it := ItemAt(t, p);
    var d, e := ToggleShape(t, p);
    RebuildKeepsIndex(t, p, d, e);
    RebuildKeepsRowsBefore(t, p, d, e);
  }

  /** Toggle is a Rebuild along the path. */
  lemma {:induction false} ToggleShape(t: Item, p: Path) returns (d: int, e: Item)
    requires ValidPath(t, p)
    ensures Toggle(t, p) == Rebuild(t, p, d, e)
  {
    var it := ItemAt(t, p);
    if it.folded && |it.children| > 0 {
      e := it.(total := it.total + ChildSum(it, |it.children|), folded := false);
      d := e.total;
    } else if !it.folded && |it.children| > 0 {
      e := it.(total := 0, folded := true);
      d := -it.total;
    } else {
      d, e := 0, it;
      RebuildSame(t, p);
    }
  }
}

=== FILE: tree_items.dfy ===
/**
  The navigable presentation tree of the viewer (`TreeItem` in tui.go).

  elftree links items by parent, first-child and prev/next-sibling
  pointers. Here an item owns the ordered sequence of its children, and a
  position in the tree is a path of child indices from the root: the parent
  of a path is its prefix without the last index, the previous and next
  siblings are the last index minus and plus one.

  `total` is the stored count of visible descendant rows, kept up to date
  incrementally by the fold operations (module TreeFold). `WellFormed` is the
  invariant it is meant to satisfy, and `Rows` is the independent reference
  definition of what is visible: the pre-order list of rows that are not
  hidden under a folded item.
 */
module TreeItems {
  import opened Wrappers

  /** What an item shows: a library of the dependency tree or a text line. */
  datatype Content = Library(name: string, depth: int) | Text(line: string)

  datatype Item = Item(node: Content, folded: bool, total: int, children: seq<Item>)

  type Path = seq<nat>

  // ---------------------------------------------------------------------
  // Addressing items by path

  ghost predicate ValidPath(t: Item, p: Path)
    decreases |p|
  {
    p == [] || (p[0] < |t.children| && ValidPath(t.children[p[0]], p[1..]))
  }

  function ItemAt(t: Item, p: Path): Item
    requires ValidPath(t, p)
    decreases |p|
  {
    if p == [] then t else ItemAt(t.children[p[0]], p[1..])
  }

  function Parent(p: Path): Path
    requires p != []
  {
    p[..|p| - 1]
  }

  function Last(p: Path): nat
    requires p != []
  {
    p[|p| - 1]
  }

  /** An item shows its children when it has some and is not folded. */
  predicate ShowsChildren(it: Item)
  {
    |it.children| > 0 && !it.folded
  }

  /** Every proper prefix of the path leads to an unfolded item: the item at
      the end of the path is on screen. */
  ghost predicate Shown(t: Item, p: Path)
    decreases |p|
  {
    p == [] || (!t.folded && p[0] < |t.children| && Shown(t.children[p[0]], p[1..]))
  }

  lemma {:induction false} ShownIsValid(t: Item, p: Path)
    requires Shown(t, p)
    ensures ValidPath(t, p)
    decreases |p|
  {
    if p != [] {
      ShownIsValid(t.children[p[0]], p[1..]);
    }
  }

  lemma {:induction false} ValidPathConcat(t: Item, p: Path, q: Path)
    requires ValidPath(t, p)
    ensures ValidPath(t, p + q) <==> ValidPath(ItemAt(t, p), q)
    ensures ValidPath(t, p + q) ==> ItemAt(t, p + q) == ItemAt(ItemAt(t, p), q)
    decreases |p|
  {
    if p != [] {
      assert (p + q)[0] == p[0];
      assert (p + q)[1..] == p[1..] + q;
      ValidPathConcat(t.children[p[0]], p[1..], q);
    } else {
      assert p + q == q;
    }
  }

  lemma {:induction false} ValidPathCons(t: Item, k: nat, q: Path)
    requires k < |t.children|
    ensures ValidPath(t, [k] + q) <==> ValidPath(t.children[k], q)
    ensures ValidPath(t, [k] + q) ==> ItemAt(t, [k] + q) == ItemAt(t.children[k], q)
  {
    assert ([k] + q)[0] == k;
    assert ([k] + q)[1..] == q;
  }

  lemma {:induction false} ParentValid(t: Item, p: Path)
    requires p != [] && ValidPath(t, p)
    ensures ValidPath(t, Parent(p))
    ensures Last(p) < |ItemAt(t, Parent(p)).children|
    ensures ItemAt(t, p) == ItemAt(t, Parent(p)).children[Last(p)]
  {
    assert p == Parent(p) + [Last(p)];
    ValidPathPrefix(t, p, |p| - 1);
    ValidPathConcat(t, Parent(p), [Last(p)]);
  }

  lemma {:induction false} ValidPathPrefix(t: Item, p: Path, m: nat)
    requires ValidPath(t, p) && m <= |p|
    ensures ValidPath(t, p[..m])
    decreases |p|
  {
    if m > 0 {
      assert p[..m][0] == p[0];
      assert p[..m][1..] == p[1..][..m - 1];
      ValidPathPrefix(t.children[p[0]], p[1..], m - 1);
    }
  }

  // ---------------------------------------------------------------------
  // The reference definition of the visible rows

  /** The paths each prefixed with the child index `k`. */
  function Tag(k: nat, rows: seq<Path>): (r: seq<Path>)
    ensures |r| == |rows|
    ensures forall j {:trigger r[j]} :: 0 <= j < |rows| ==> r[j] == [k] + rows[j]
  {
    seq(|rows|, j requires 0 <= j < |rows| => [k] + rows[j])
  }

  /** The visible rows of an item in pre-order, as paths relative to it:
      the item itself, then (unless folded) the rows of each child. */
  function Rows(t: Item): (r: seq<Path>)
    ensures |r| >= 1 && r[0] == []
    decreases t, |t.children| + 1
  {
    [[]] + (if t.folded then [] else ChildRows(t, |t.children|))
  }

  /** The rows of the first `k` children of `t`, in order. */
  function ChildRows(t: Item, k: nat): seq<Path>
    requires k <= |t.children|
    decreases t, k
  {
    if k == 0 then [] else ChildRows(t, k - 1) + Tag(k - 1, Rows(t.children[k - 1]))
  }

  /** Σ (1 + total(c)) over the first `k` children: what an unfolded item's
      total must be. */
  function ChildSum(t: Item, k: nat): int
    requires k <= |t.children|
  {
    if k == 0 then 0 else ChildSum(t, k - 1) + 1 + t.children[k - 1].total
  }

  /** The invariant on `total` at every item, hidden ones included: an
      unfolded item counts the rows of its children, a folded one counts 0. */
  ghost predicate WellFormed(t: Item)
  {
    && (t.folded ==> t.total == 0)
    && (!t.folded ==> t.total == ChildSum(t, |t.children|))
    && forall i :: 0 <= i < |t.children| ==> WellFormed(t.children[i])
  }

  /** The key fact about `total`: on a well-formed tree it is exactly the
      number of visible rows below the item. */
  lemma {:induction false} RowCount(t: Item)
    requires WellFormed(t)
    ensures |Rows(t)| == t.total + 1
    decreases t, |t.children| + 1
  {
    if !t.folded {
      ChildRowsCount(t, |t.children|);
    }
  }

  lemma {:induction false} ChildRowsCount(t: Item, k: nat)
    requires k <= |t.children|
    requires forall i :: 0 <= i < |t.children| ==> WellFormed(t.children[i])
    ensures |ChildRows(t, k)| == ChildSum(t, k)
    decreases t, k
  {
    if k > 0 {
      ChildRowsCount(t, k - 1);
      RowCount(t.children[k - 1]);
    }
  }

  lemma {:induction false} WellFormedChild(t: Item, k: nat)
    requires WellFormed(t) && k < |t.children|
    ensures WellFormed(t.children[k])
  {
  }

  lemma {:induction false} WellFormedAt(t: Item, p: Path)
    requires WellFormed(t) && ValidPath(t, p)
    ensures WellFormed(ItemAt(t, p))
    decreases |p|
  {
    if p != [] {
      WellFormedAt(t.children[p[0]], p[1..]);
    }
  }

  // ---------------------------------------------------------------------
  // Locating rows inside ChildRows

  /** ChildRows over more children extends ChildRows over fewer. */
  lemma {:induction false} ChildRowsPrefix(t: Item, k: nat, m: nat)
    requires k <= m <= |t.children|
    ensures |ChildRows(t, k)| <= |ChildRows(t, m)|
    ensures ChildRows(t, m)[..|ChildRows(t, k)|] == ChildRows(t, k)
    decreases m
  {
    if k < m {
      ChildRowsPrefix(t, k, m - 1);
      var a := ChildRows(t, m - 1);
      var b := Tag(m - 1, Rows(t.children[m - 1]));
      assert ChildRows(t, m) == a + b;
      assert (a + b)[..|a|] == a;
    }
  }

  /** Row `j` of child `k` sits at offset |ChildRows(t, k)| + j. */
  lemma {:induction false} ChildRowsAt(t: Item, m: nat, k: nat, j: nat)
    requires k < m <= |t.children|
    requires j < |Rows(t.children[k])|
    ensures |ChildRows(t, k)| + j < |ChildRows(t, m)|
    ensures ChildRows(t, m)[|ChildRows(t, k)| + j] == [k] + Rows(t.children[k])[j]
  {
    ChildRowsPrefix(t, k + 1, m);
    var a := ChildRows(t, k);
    var b := Tag(k, Rows(t.children[k]));
    var c1 := ChildRows(t, k + 1);
    assert c1 == a + b;
    assert c1[|a| + j] == b[j];
    var cm := ChildRows(t, m);
    assert cm[..|c1|] == c1;
    assert cm[|a| + j] == cm[..|c1|][|a| + j];
  }

  /** Every index of ChildRows belongs to exactly one child. */
  lemma {:induction false} Locate(t: Item, m: nat, i: nat) returns (k: nat, j: nat)
    requires m <= |t.children|
    requires i < |ChildRows(t, m)|
    ensures k < m && j < |Rows(t.children[k])|
    ensures i == |ChildRows(t, k)| + j
    decreases m
  {
    var a := ChildRows(t, m - 1);
    if i < |a| {
      k, j := Locate(t, m - 1, i);
    } else {
      k, j := m - 1, i - |a|;
    }
  }

  // ---------------------------------------------------------------------
  // nextItem and prevItem (tui.go:91-124)

  /** The item's next sibling, else the nearest ancestor's next sibling;
      None past the root. This is the upward loop of nextItem. */
  function NextSiblingUp(t: Item, p: Path): (r: Option<Path>)
    requires ValidPath(t, p)
    ensures r.Some? ==> ValidPath(t, r.value)
    decreases |p|
  {
    if p == [] then None
    else
      ParentValid(t, p);
      if Last(p) + 1 < |ItemAt(t, Parent(p)).children| then
        ValidPathConcat(t, Parent(p), [Last(p) + 1]);
        Some(Parent(p) + [Last(p) + 1])
      else NextSiblingUp(t, Parent(p))
  }

  /** nextItem: the first child of an item that shows its children, else the
      next sibling of the item or of its nearest ancestor that has one. */
  function NextItem(t: Item, p: Path): (r: Option<Path>)
    requires ValidPath(t, p)
    ensures r.Some? ==> ValidPath(t, r.value)
  {
    if ShowsChildren(ItemAt(t, p)) then
      ValidPathConcat(t, p, [0]);
      Some(p + [0])
    else NextSiblingUp(t, p)
  }

  /** The path, relative to `it`, of its last visible descendant (the item
      itself when it shows no children): the descending loop of prevItem. */
  function LastVisible(it: Item): Path
  {
    if ShowsChildren(it) then [|it.children| - 1] + LastVisible(it.children[|it.children| - 1])
    else []
  }

  /** prevItem: the parent when there is no previous sibling, otherwise the
      last visible descendant of the previous sibling. */
  function PrevItem(t: Item, p: Path): (r: Option<Path>)
    requires ValidPath(t, p)
    ensures r.Some? ==> ValidPath(t, r.value)
  {
    if p == [] then None
    else if Last(p) == 0 then
      ParentValid(t, p);
      Some(Parent(p))
    else
      ParentValid(t, p);
      var s := Parent(p) + [Last(p) - 1];
      ValidPathConcat(t, Parent(p), [Last(p) - 1]);
      LastVisibleValid(ItemAt(t, s));
      ValidPathConcat(t, s, LastVisible(ItemAt(t, s)));
      Some(s + LastVisible(ItemAt(t, s)))
  }

  lemma {:induction false} LastVisibleValid(it: Item)
    ensures ValidPath(it, LastVisible(it))
    decreases it
  {
    if ShowsChildren(it) {
      var k := |it.children| - 1;
      LastVisibleValid(it.children[k]);
      ValidPathCons(it, k, LastVisible(it.children[k]));
    }
  }

  // ---------------------------------------------------------------------
  // Top-down characterisation of nextItem

  lemma {:induction false} NextSiblingUpCons(t: Item, k: nat, q: Path)
    requires k < |t.children| && ValidPath(t.children[k], q)
    ensures ValidPath(t, [k] + q)
    ensures NextSiblingUp(t, [k] + q) ==
      match NextSiblingUp(t.children[k], q)
      case Some(r) => Some([k] + r)
      case None => if k + 1 < |t.children| then Some([k + 1]) else None
    decreases |q|
  {
    ValidPathCons(t, k, q);
    var p := [k] + q;
    if q == [] {
      assert Parent(p) == [] && Last(p) == k;
      assert Parent(p) + [Last(p) + 1] == [k + 1];
      assert ItemAt(t, Parent(p)) == t;
    } else {
      assert Parent(p) == [k] + Parent(q);
      assert Last(p) == Last(q);
      ParentValid(t.children[k], q);
      ValidPathCons(t, k, Parent(q));
      assert Parent(p) + [Last(p) + 1] == [k] + (Parent(q) + [Last(q) + 1]);
      NextSiblingUpCons(t, k, Parent(q));
    }
  }

  lemma {:induction false} NextItemCons(t: Item, k: nat, q: Path)
    requires k < |t.children| && ValidPath(t.children[k], q)
    ensures ValidPath(t, [k] + q)
    ensures NextItem(t, [k] + q) ==
      match NextItem(t.children[k], q)
      case Some(r) => Some([k] + r)
      case None => if k + 1 < |t.children| then Some([k + 1]) else None
  {
    ValidPathCons(t, k, q);
    NextSiblingUpCons(t, k, q);
    assert [k] + q + [0] == [k] + (q + [0]);
  }

  /** nextItem walks the visible rows in pre-order: it maps each row to the
      following one and the last row to None. */
  lemma {:induction false} NextItemRow(t: Item, i: nat)
    requires i < |Rows(t)|
    ensures ValidPath(t, Rows(t)[i])
    ensures NextItem(t, Rows(t)[i]) == if i + 1 < |Rows(t)| then Some(Rows(t)[i + 1]) else None
    decreases t
  {
    if i == 0 {
      NextItemRoot(t);
    } else {
      var n := |t.children|;
      RowsUnfolded(t, i - 1);
      var k, j := Locate(t, n, i - 1);
      NextItemRow(t.children[k], j);
      NextItemChild(t, k, j);
    }
  }

  lemma {:induction false} RowsUnfolded(t: Item, x: nat)
    requires x + 1 < |Rows(t)|
    ensures !t.folded
    ensures |Rows(t)| == 1 + |ChildRows(t, |t.children|)|
    ensures Rows(t)[x + 1] == ChildRows(t, |t.children|)[x]
  {
  }

  lemma {:induction false} NextItemRoot(t: Item)
    ensures NextItem(t, []) == if 1 < |Rows(t)| then Some(Rows(t)[1]) else None
  {
    var n := |t.children|;
    if ShowsChildren(t) {
      ChildRowsAt(t, n, 0, 0);
      assert [] + [0] == [0] + [];
      assert Rows(t)[1] == ChildRows(t, n)[0];
    } else if !t.folded {
      assert ChildRows(t, 0) == [];
    }
  }

  /** The inductive step of NextItemRow: row j of child k, assuming the
      claim for the child. */
  lemma {:induction false} NextItemChild(t: Item, k: nat, j: nat)
    requires !t.folded && k < |t.children|
    requires j < |Rows(t.children[k])|
    requires ValidPath(t.children[k], Rows(t.children[k])[j])
    requires NextItem(t.children[k], Rows(t.children[k])[j]) ==
      if j + 1 < |Rows(t.children[k])| then Some(Rows(t.children[k])[j + 1]) else None
    ensures 1 + |ChildRows(t, k)| + j < |Rows(t)|
    ensures ValidPath(t, Rows(t)[1 + |ChildRows(t, k)| + j])
    ensures var i := 1 + |ChildRows(t, k)| + j;
      NextItem(t, Rows(t)[i]) == if i + 1 < |Rows(t)| then Some(Rows(t)[i + 1]) else None
  {
    if j + 1 < |Rows(t.children[k])| {
      NextInChild(t, k, j);
    } else {
      NextOutOfChild(t, k, j);
    }
  }

  /** Row j of child k sits at row 1 + |ChildRows(t, k)| + j of t. */
  lemma {:induction false} RowOfChild(t: Item, k: nat, j: nat)
    requires !t.folded && k < |t.children| && j < |Rows(t.children[k])|
    ensures 1 + |ChildRows(t, k)| + j < |Rows(t)|
    ensures Rows(t)[1 + |ChildRows(t, k)| + j] == [k] + Rows(t.children[k])[j]
  {
    ChildRowsAt(t, |t.children|, k, j);
    RowsOfOpen(t, |ChildRows(t, k)| + j);
  }

  lemma {:induction false} RowsOfOpen(t: Item, x: nat)
    requires !t.folded && x < |ChildRows(t, |t.children|)|
    ensures x + 1 < |Rows(t)|
    ensures Rows(t)[x + 1] == ChildRows(t, |t.children|)[x]
  {
  }

  lemma {:induction false} NextInChild(t: Item, k: nat, j: nat)
    requires !t.folded && k < |t.children|
    requires j + 1 < |Rows(t.children[k])|
    requires ValidPath(t.children[k], Rows(t.children[k])[j])
    requires NextItem(t.children[k], Rows(t.children[k])[j]) == Some(Rows(t.children[k])[j + 1])
    ensures var i := 1 + |ChildRows(t, k)| + j;
      && i + 1 < |Rows(t)| && ValidPath(t, Rows(t)[i])
      && NextItem(t, Rows(t)[i]) == Some(Rows(t)[i + 1])
  {
    RowOfChild(t, k, j);
    RowOfChild(t, k, j + 1);
    NextItemCons(t, k, Rows(t.children[k])[j]);
  }

  lemma {:induction false} NextOutOfChild(t: Item, k: nat, j: nat)
    requires !t.folded && k < |t.children|
    requires j + 1 == |Rows(t.children[k])|
    requires ValidPath(t.children[k], Rows(t.children[k])[j])
    requires NextItem(t.children[k], Rows(t.children[k])[j]) == None
    ensures var i := 1 + |ChildRows(t, k)| + j;
      && i < |Rows(t)| && ValidPath(t, Rows(t)[i])
      && NextItem(t, Rows(t)[i]) == if i + 1 < |Rows(t)| then Some(Rows(t)[i + 1]) else None
  {
    RowOfChild(t, k, j);
    NextItemCons(t, k, Rows(t.children[k])[j]);
    if k + 1 < |t.children| {
      NextRowAcross(t, k);
    } else {
      NextRowEnd(t, k);
    }
  }

  /** The row after the last row of child k is child k+1 itself. */
  lemma {:induction false} NextRowAcross(t: Item, k: nat)
    requires !t.folded && k + 1 < |t.children|
    ensures 1 + |ChildRows(t, k)| + |Rows(t.children[k])| < |Rows(t)|
    ensures Rows(t)[1 + |ChildRows(t, k)| + |Rows(t.children[k])|] == [k + 1]
  {
    var n := |t.children|;
    ChildRowsAt(t, n, k + 1, 0);
    assert ChildRows(t, k + 1) == ChildRows(t, k) + Tag(k, Rows(t.children[k]));
    assert Rows(t.children[k + 1])[0] == [];
    assert [k + 1] + [] == [k + 1];
  }

  /** The rows of the last child end the rows of the item. */
  lemma {:induction false} NextRowEnd(t: Item, k: nat)
    requires !t.folded && k + 1 == |t.children|
    ensures 1 + |ChildRows(t, k)| + |Rows(t.children[k])| == |Rows(t)|
  {
    assert ChildRows(t, k + 1) == ChildRows(t, k) + Tag(k, Rows(t.children[k]));
  }

  // ---------------------------------------------------------------------
  // Top-down characterisation of prevItem

  lemma {:induction false} PrevItemCons(t: Item, k: nat, q: Path)
    requires k < |t.children| && ValidPath(t.children[k], q) && q != []
    ensures ValidPath(t, [k] + q)
    ensures PrevItem(t.children[k], q).Some?
    ensures PrevItem(t, [k] + q) == Some([k] + PrevItem(t.children[k], q).value)
  {
    ValidPathCons(t, k, q);
    var p := [k] + q;
    assert Parent(p) == [k] + Parent(q);
    assert Last(p) == Last(q);
    if Last(q) > 0 {
      ParentValid(t.children[k], q);
      var s := Parent(q) + [Last(q) - 1];
      ValidPathConcat(t.children[k], Parent(q), [Last(q) - 1]);
      ValidPathCons(t, k, s);
      assert Parent(p) + [Last(p) - 1] == [k] + s;
      var x := LastVisible(ItemAt(t.children[k], s));
      assert [k] + s + x == [k] + (s + x);
    }
  }

  /** The last visible descendant is the last visible row. */
  lemma {:induction false} LastVisibleIsLastRow(t: Item)
    ensures Rows(t)[|Rows(t)| - 1] == LastVisible(t)
    decreases t
  {
    if ShowsChildren(t) {
      LastRowStep(t);
      LastVisibleIsLastRow(t.children[|t.children| - 1]);
    }
  }

  /** The last row of an item showing its children is the last row of its
      last child. */
  lemma {:induction false} LastRowStep(t: Item)
    requires ShowsChildren(t)
    ensures var c := t.children[|t.children| - 1];
      Rows(t)[|Rows(t)| - 1] == [|t.children| - 1] + Rows(c)[|Rows(c)| - 1]
  {
    var n := |t.children|;
    var c := t.children[n - 1];
    var tail := Tag(n - 1, Rows(c));
    assert Rows(t) == [[]] + (ChildRows(t, n - 1) + tail);
    assert Rows(t)[|Rows(t)| - 1] == tail[|tail| - 1];
  }

  /** prevItem walks the visible rows backwards: it maps each row to the
      preceding one and the first row (the root) to None. */
  lemma {:induction false} PrevItemRow(t: Item, i: nat)
    requires i < |Rows(t)|
    ensures ValidPath(t, Rows(t)[i])
    ensures PrevItem(t, Rows(t)[i]) == if i == 0 then None else Some(Rows(t)[i - 1])
    decreases t
  {
    NextItemRow(t, i);
    if i > 0 {
      var n := |t.children|;
      RowsUnfolded(t, i - 1);
      var k, j := Locate(t, n, i - 1);
      if j > 0 {
        PrevItemRow(t.children[k], j);
      }
      PrevItemChild(t, k, j);
    }
  }

  /** prevItem on a path of length one: the root for the first child, the
      last visible row of the previous sibling otherwise. */
  lemma {:induction false} PrevItemTop(t: Item, k: nat)
    requires k < |t.children|
    ensures ValidPath(t, [k])
    ensures PrevItem(t, [k]) ==
      if k == 0 then Some([]) else Some([k - 1] + LastVisible(t.children[k - 1]))
  {
    ValidPathCons(t, k, []);
    assert [k] + [] == [k];
    assert Last([k]) == k && Parent([k]) == [];
    if k > 0 {
      assert [] + [k - 1] == [k - 1] == [k - 1] + [];
      ValidPathCons(t, k - 1, []);
    }
  }

  /** The inductive step of PrevItemRow: row j of child k. */
  lemma {:induction false} PrevItemChild(t: Item, k: nat, j: nat)
    requires !t.folded && k < |t.children|
    requires j < |Rows(t.children[k])|
    requires ValidPath(t.children[k], Rows(t.children[k])[j])
    requires j > 0 ==> PrevItem(t.children[k], Rows(t.children[k])[j]) == Some(Rows(t.children[k])[j - 1])
    ensures 1 + |ChildRows(t, k)| + j < |Rows(t)|
    ensures ValidPath(t, Rows(t)[1 + |ChildRows(t, k)| + j])
    ensures var i := 1 + |ChildRows(t, k)| + j;
      PrevItem(t, Rows(t)[i]) == Some(Rows(t)[i - 1])
  {
    var n := |t.children|;
    var rc := Rows(t.children[k]);
    var off := |ChildRows(t, k)|;
    ChildRowsAt(t, n, k, j);
    assert Rows(t)[1 + off + j] == [k] + rc[j];
    ValidPathCons(t, k, rc[j]);
    if j > 0 {
      PrevItemCons(t, k, rc[j]);
      ChildRowsAt(t, n, k, j - 1);
    } else {
      assert [k] + rc[0] == [k];
      PrevRowFirst(t, k);
    }
  }

  /** The row before child k is the root for k = 0 and the last visible
      row of child k-1 otherwise; prevItem finds it. */
  lemma {:induction false} PrevRowFirst(t: Item, k: nat)
    requires !t.folded && k < |t.children|
    ensures 1 + |ChildRows(t, k)| < |Rows(t)|
    ensures ValidPath(t, [k])
    ensures PrevItem(t, [k]) == Some(Rows(t)[|ChildRows(t, k)|])
  {
    PrevItemTop(t, k);
    ChildRowsAt(t, |t.children|, k, 0);
    if k > 0 {
      PrevRowBefore(t, k);
    } else {
      assert ChildRows(t, 0) == [];
    }
  }

  lemma {:induction false} PrevRowBefore(t: Item, k: nat)
    requires !t.folded && 0 < k < |t.children|
    ensures |ChildRows(t, k)| < |Rows(t)|
    ensures Rows(t)[|ChildRows(t, k)|] == [k - 1] + LastVisible(t.children[k - 1])
  {
    var n := |t.children|;
    var b := t.children[k - 1];
    ChildRowsAt(t, n, k - 1, |Rows(b)| - 1);
    assert ChildRows(t, k) == ChildRows(t, k - 1) + Tag(k - 1, Rows(b));
    LastVisibleIsLastRow(b);
  }

  /** nextItem and prevItem are mutual inverses on the visible rows. */
  lemma {:induction false} NextPrevInverse(t: Item, i: nat)
    requires i < |Rows(t)|
    ensures ValidPath(t, Rows(t)[i])
    ensures i + 1 < |Rows(t)| ==>
      NextItem(t, Rows(t)[i]).Some? &&
      PrevItem(t, NextItem(t, Rows(t)[i]).value) == Some(Rows(t)[i])
    ensures 0 < i ==>
      PrevItem(t, Rows(t)[i]).Some? &&
      NextItem(t, PrevItem(t, Rows(t)[i]).value) == Some(Rows(t)[i])
  {
    NextItemRow(t, i);
    PrevItemRow(t, i);
    if i + 1 < |Rows(t)| {
      PrevItemRow(t, i + 1);
    }
    if 0 < i {
      NextItemRow(t, i - 1);
    }
  }

  // ---------------------------------------------------------------------
  // Row index of a shown path

  /** Where a shown item appears among the visible rows. */
  ghost function RowIndex(t: Item, p: Path): nat
    requires Shown(t, p)
    decreases |p|
  {
    if p == [] then 0
    else 1 + |ChildRows(t, p[0])| + RowIndex(t.children[p[0]], p[1..])
  }

  /** A path is a visible row exactly when it is shown, and RowIndex finds it. */
  lemma {:induction false} ShownRow(t: Item, p: Path)
    requires Shown(t, p)
    ensures RowIndex(t, p) < |Rows(t)|
    ensures Rows(t)[RowIndex(t, p)] == p
    decreases |p|
  {
    if p != [] {
      var k := p[0];
      var c := t.children[k];
      ShownRow(c, p[1..]);
      ChildRowsAt(t, |t.children|, k, RowIndex(c, p[1..]));
      assert [k] + p[1..] == p;
    }
  }

  lemma {:induction false} RowShown(t: Item, i: nat)
    requires i < |Rows(t)|
    ensures Shown(t, Rows(t)[i])
    ensures RowIndex(t, Rows(t)[i]) == i
    decreases t
  {
    if i > 0 {
      var n := |t.children|;
      var k, j := Locate(t, n, i - 1);
      var c := t.children[k];
      ChildRowsAt(t, n, k, j);
      RowShown(c, j);
      var p := [k] + Rows(c)[j];
      assert p[0] == k && p[1..] == Rows(c)[j];
    }
  }
}

=== FILE: tree_view.dfy ===
/**
  The scrolling pane over a tree (`TreeView` in tui.go): a cursor row `idx`
  with its item `curr`, the first displayed row `off` with its item `top`,
  a horizontal offset `pos` and the number of rows the pane shows.

  elftree never indexes rows directly: every cursor operation moves
  `curr` and `top` by counted steps of nextItem/prevItem. `Forward`,
  `Backward` and `RunToEnd` are those stepping loops. `Inv` is the viewport
  invariant the operations maintain; with the row-count fact about `total`
  it pins `curr` and `top` to the rows `idx` and `off`.
 */
module TreeView {
  import opened Wrappers
  import opened TreeItems
  import opened TreeFold

  datatype View = View(root: Item, top: Path, curr: Path, idx: int, off: int, pos: int, rows: int)

  function Min(a: int, b: int): int { if a < b then a else b }
  function Max(a: int, b: int): int { if a < b then b else a }

  /** The viewport invariant: the cursor is on screen, within the rows of
      the tree, and `curr`/`top` are the items at rows `idx`/`off`. */
  ghost predicate Inv(v: View)
  {
    && WellFormed(v.root)
    && |Rows(v.root)| == v.root.total + 1
    && v.rows >= 1
    && 0 <= v.off <= v.idx < v.off + v.rows
    && v.idx <= v.root.total
    && v.curr == Rows(v.root)[v.idx]
    && v.top == Rows(v.root)[v.off]
  }

  // ---------------------------------------------------------------------
  // Counted walks

  /** `n` steps of nextItem from `p`; None when a step runs past the last row
      (where the Go code would dereference nil). */
  function Forward(t: Item, p: Path, n: nat): (r: Option<Path>)
    requires ValidPath(t, p)
    ensures r.Some? ==> ValidPath(t, r.value)
    decreases n
  {
    if n == 0 then Some(p)
    else match NextItem(t, p)
      case None => None
      case Some(q) => Forward(t, q, n - 1)
  }

  /** `n` steps of prevItem from `p`. */
  function Backward(t: Item, p: Path, n: nat): (r: Option<Path>)
    requires ValidPath(t, p)
    ensures r.Some? ==> ValidPath(t, r.value)
    decreases n
  {
    if n == 0 then Some(p)
    else match PrevItem(t, p)
      case None => None
      case Some(q) => Backward(t, q, n - 1)
  }

  /** Stepping n rows forward from row i lands on row i+n. */
  lemma {:induction false} ForwardRows(t: Item, i: nat, n: nat)
    requires i + n < |Rows(t)|
    ensures ValidPath(t, Rows(t)[i])
    ensures Forward(t, Rows(t)[i], n) == Some(Rows(t)[i + n])
    decreases n
  {
    NextItemRow(t, i);
    if n > 0 {
      ForwardStep(t, Rows(t)[i], Rows(t)[i + 1], n);
      ForwardRows(t, i + 1, n - 1);
    }
  }

  lemma {:induction false} ForwardStep(t: Item, p: Path, q: Path, n: nat)
    requires ValidPath(t, p) && n > 0 && NextItem(t, p) == Some(q)
    ensures ValidPath(t, q)
    ensures Forward(t, p, n) == Forward(t, q, n - 1)
  {
  }

  /** Stepping n rows back from row i lands on row i-n. */
  lemma {:induction false} BackwardRows(t: Item, i: nat, n: nat)
    requires n <= i < |Rows(t)|
    ensures ValidPath(t, Rows(t)[i])
    ensures Backward(t, Rows(t)[i], n) == Some(Rows(t)[i - n])
    decreases n
  {
    PrevItemRow(t, i);
    if n > 0 {
      BackwardRows(t, i - 1, n - 1);
      BackwardStep(t, Rows(t)[i], Rows(t)[i - 1], Rows(t)[i - n], n);
    }
  }

  lemma {:induction false} BackwardStep(t: Item, p: Path, q: Path, e: Path, n: nat)
    requires ValidPath(t, p) && n > 0 && PrevItem(t, p) == Some(q)
    requires ValidPath(t, q) && Backward(t, q, n - 1) == Some(e)
    ensures Backward(t, p, n) == Some(e)
  {
  }

  /** The loop of End: follow nextItem until it returns nil. From any
      visible row it reaches the last one. */
  function RunToEnd(t: Item, p: Path): (r: Path)
    requires Shown(t, p)
    ensures ValidPath(t, r)
    ensures r == Rows(t)[|Rows(t)| - 1]
    decreases |Rows(t)| - RowIndex(t, p)
  {
    ShownRow(t, p);
    var i := RowIndex(t, p);
    NextItemRow(t, i);
    match NextItem(t, p)
    case None => p
    case Some(q) =>
      RowShown(t, i + 1);
      assert RowIndex(t, q) == i + 1;
      RunToEnd(t, q)
  }

  /** Putting the cursor on row idx and the page on row off, with the items
      of those rows, keeps the invariant whenever the indices are in range. */
  lemma {:induction false} Moved(v: View, idx: int, off: int)
    requires Inv(v) && 0 <= off <= idx < off + v.rows && idx <= v.root.total
    ensures Inv(v.(idx := idx, off := off, curr := Rows(v.root)[idx], top := Rows(v.root)[off]))
  {
  }

  // ---------------------------------------------------------------------
  // The pane as first shown (tui.go:671-677, NewTreeView at tui.go:71-80)

  function InitView(root: Item, rows: int): (r: View)
    requires WellFormed(root) && rows >= 1
    ensures Inv(r) && r.idx == 0 && r.off == 0 && r.pos == 0
    ensures r.curr == [] && r.top == []
  {
    RowCount(root);
    View(root, [], [], 0, 0, 0, rows)
  }

  // ---------------------------------------------------------------------
  // Cursor operations (tui.go:286-417)

  /** Down: one visible row further, unless on the last row; scroll by one
      row when the cursor would leave the pane. */
  function Down(v: View): (r: View)
    requires Inv(v)
    ensures Inv(r)
    ensures r.root == v.root && r.rows == v.rows && r.pos == v.pos
    ensures r.idx == Min(v.idx + 1, v.root.total)
    ensures r.off == Max(v.off, r.idx - v.rows + 1)
  {
    NextItemRow(v.root, v.idx);
    var idx := if v.idx < v.root.total then v.idx + 1 else v.idx;
    var curr := if v.idx < v.root.total then NextItem(v.root, v.curr).value else v.curr;
    NextItemRow(v.root, v.off);
    if idx - v.off >= v.rows then
      v.(idx := idx, curr := curr, off := v.off + 1, top := NextItem(v.root, v.top).value)
    else
      v.(idx := idx, curr := curr)
  }

  /** Up: one visible row back, unless on the first row; scroll so that
      the cursor row becomes the top one when it would leave the pane. */
  function Up(v: View): (r: View)
    requires Inv(v)
    ensures Inv(r)
    ensures r.root == v.root && r.rows == v.rows && r.pos == v.pos
    ensures r.idx == Max(v.idx - 1, 0)
    ensures r.off == Min(v.off, r.idx)
  {
    PrevItemRow(v.root, v.idx);
    var idx := if v.idx > 0 then v.idx - 1 else v.idx;
    var curr := if v.idx > 0 then PrevItem(v.root, v.curr).value else v.curr;
    if idx < v.off then v.(idx := idx, curr := curr, off := idx, top := curr)
    else v.(idx := idx, curr := curr)
  }

  /** PageDown: first to the last row of the current page (or of the
      tree); from there a full page further, clamped to the last row,
      scrolling just enough to keep the cursor on screen. */
  function PageDown(v: View): (r: View)
    requires Inv(v)
    ensures Inv(r)
    ensures r.root == v.root && r.rows == v.rows && r.pos == v.pos
    ensures var bottom := Min(v.off + v.rows - 1, v.root.total);
      if v.idx != bottom then r.idx == bottom && r.off == v.off
      else r.idx == Min(v.idx + v.rows, v.root.total) && r.off == Max(v.off, r.idx - v.rows + 1)
  {
    var bottom := if v.off + v.rows - 1 > v.root.total then v.root.total else v.off + v.rows - 1;
    if v.idx != bottom then PageDownSnap(v) else PageDownNext(v)
  }

  /** The first phase of PageDown: the cursor moves to the last row on
      screen, the page stays. */
  function PageDownSnap(v: View): (r: View)
    requires Inv(v)
    ensures Inv(r)
    ensures r == v.(idx := r.idx, curr := r.curr)
    ensures r.idx == Min(v.off + v.rows - 1, v.root.total)
  {
    var bottom := if v.off + v.rows - 1 > v.root.total then v.root.total else v.off + v.rows - 1;
    SnapStep(v, bottom);
    v.(idx := bottom, curr := Forward(v.root, v.curr, bottom - v.idx).value)
  }

  lemma {:induction false} SnapStep(v: View, bottom: int)
    requires Inv(v) && bottom == Min(v.off + v.rows - 1, v.root.total)
    ensures v.idx <= bottom && ValidPath(v.root, v.curr)
    ensures Forward(v.root, v.curr, bottom - v.idx) == Some(Rows(v.root)[bottom])
    ensures Inv(v.(idx := bottom, curr := Rows(v.root)[bottom]))
  {
    ForwardRows(v.root, v.idx, bottom - v.idx);
    Moved(v, bottom, v.off);
  }

  /** The second phase of PageDown: the cursor moves a page further,
      clamped to the last row, and the page follows when the cursor would
      leave it (zero steps of the top item otherwise). */
  function PageDownNext(v: View): (r: View)
    requires Inv(v)
    ensures Inv(r)
    ensures r == v.(idx := r.idx, curr := r.curr, off := r.off, top := r.top)
    ensures r.idx == Min(v.idx + v.rows, v.root.total)
    ensures r.off == Max(v.off, r.idx - v.rows + 1)
  {
    var idx := if v.idx + v.rows > v.root.total then v.root.total else v.idx + v.rows;
    var off := if idx - v.off >= v.rows then idx - v.rows + 1 else v.off;
    NextStep(v, idx, off);
    v.(idx := idx, curr := Forward(v.root, v.curr, idx - v.idx).value,
       off := off, top := Forward(v.root, v.top, off - v.off).value)
  }

  lemma {:induction false} NextStep(v: View, idx: int, off: int)
    requires Inv(v) && idx == Min(v.idx + v.rows, v.root.total) && off == Max(v.off, idx - v.rows + 1)
    ensures v.idx <= idx && v.off <= off && ValidPath(v.root, v.curr) && ValidPath(v.root, v.top)
    ensures Forward(v.root, v.curr, idx - v.idx) == Some(Rows(v.root)[idx])
    ensures Forward(v.root, v.top, off - v.off) == Some(Rows(v.root)[off])
    ensures Inv(v.(idx := idx, curr := Rows(v.root)[idx], off := off, top := Rows(v.root)[off]))
  {
    WalkRows(v.root, v.idx, idx);
    WalkRows(v.root, v.off, off);
    Moved(v, idx, off);
  }

  lemma {:induction false} WalkRows(t: Item, i: int, j: int)
    requires 0 <= i <= j < |Rows(t)|
    ensures ValidPath(t, Rows(t)[i])
    ensures Forward(t, Rows(t)[i], j - i) == Some(Rows(t)[j])
  {
    ForwardRows(t, i, j - i);
  }

  /** PageUp: first to the top row of the page; from there a full page
      back, clamped to the first row, which becomes the top row. */
  function PageUp(v: View): (r: View)
    requires Inv(v)
    ensures Inv(r)
    ensures r.root == v.root && r.rows == v.rows && r.pos == v.pos
    ensures if v.idx != v.off then r.idx == v.off && r.off == v.off
      else r.idx == Max(v.idx - v.rows, 0) && r.off == r.idx
  {
    if v.idx != v.off then v.(idx := v.off, curr := v.top)
    else
      var idx := if v.idx - v.rows < 0 then 0 else v.idx - v.rows;
      BackwardRows(v.root, v.idx, v.idx - idx);
      var curr := Backward(v.root, v.curr, v.idx - idx).value;
      Moved(v, idx, idx);
      v.(idx := idx, off := idx, curr := curr, top := curr)
  }

  /** Home: cursor and page back to the root. */
  function Home(v: View): (r: View)
    requires Inv(v)
    ensures Inv(r)
    ensures r.root == v.root && r.rows == v.rows && r.pos == v.pos
    ensures r.idx == 0 && r.off == 0 && r.curr == [] && r.top == []
  {
    v.(idx := 0, off := 0, curr := [], top := [])
  }

  /** End: cursor to the last row, found by walking nextItem to its end;
      the page ends there, so the top row is found by stepping back. */
  function End(v: View): (r: View)
    requires Inv(v)
    ensures Inv(r)
    ensures r.root == v.root && r.rows == v.rows && r.pos == v.pos
    ensures r.idx == v.root.total && r.off == Max(0, v.root.total - v.rows + 1)
    ensures r.curr == Rows(v.root)[|Rows(v.root)| - 1]
  {
    RowShown(v.root, v.idx);
    EndStep(v);
    var idx := v.root.total;
    var off := Max(0, idx - v.rows + 1);
    var curr := RunToEnd(v.root, v.curr);
    v.(idx := idx, off := off, curr := curr, top := Backward(v.root, curr, idx - off).value)
  }

  lemma {:induction false} EndStep(v: View)
    requires Inv(v)
    ensures var idx := v.root.total; var off := Max(0, idx - v.rows + 1);
      && idx == |Rows(v.root)| - 1 && 0 <= off <= idx
      && ValidPath(v.root, Rows(v.root)[idx])
      && Backward(v.root, Rows(v.root)[idx], idx - off) == Some(Rows(v.root)[off])
      && Inv(v.(idx := idx, off := off, curr := Rows(v.root)[idx], top := Rows(v.root)[off]))
  {
    var idx := v.root.total;
    var off := Max(0, idx - v.rows + 1);
    BackwardRows(v.root, idx, idx - off);
    Moved(v, idx, off);
  }

  /** Left(i): scroll left by i columns, never before column 0. */
  function Left(v: View, i: int): (r: View)
    ensures r == v.(pos := r.pos)
    ensures r.pos >= 0 && r.pos >= v.pos - i
    ensures r.pos == 0 || r.pos == v.pos - i
  {
    if v.pos - i < 0 then v.(pos := 0) else v.(pos := v.pos - i)
  }

  /** Right(i): scroll right by i columns, with no upper bound. */
  function Right(v: View, i: int): (r: View)
    ensures r == v.(pos := r.pos)
    ensures r.pos - i == v.pos
  {
    v.(pos := v.pos + i)
  }

  /** Scrolling right and back left by the same amount returns to the
      same column. */
  lemma {:induction false} RightThenLeft(v: View, i: int)
    requires v.pos >= 0 && i >= 0
    ensures Left(Right(v, i), i) == v
  {
  }

  /** Toggle: fold or unfold the item under the cursor. The cursor, the
      page and their items stay as they are, and the invariant still holds:
      only rows after the cursor appear or disappear. */
  function ToggleView(v: View): (r: View)
    requires Inv(v)
    ensures Inv(r)
    ensures r == v.(root := r.root)
    ensures Rows(r.root)[..v.idx + 1] == Rows(v.root)[..v.idx + 1]
  {
    RowShown(v.root, v.idx);
    ToggleWellFormed(v.root, v.curr);
    ToggleKeepsRowsBefore(v.root, v.curr);
    var root := Toggle(v.root, v.curr);
    assert Rows(root)[v.off] == Rows(root)[..v.idx + 1][v.off];
    assert Rows(root)[v.idx] == Rows(root)[..v.idx + 1][v.idx];
    v.(root := root)
  }

  /** Toggling the cursor item twice gives back the same pane. */
  lemma {:induction false} ToggleViewTwice(v: View)
    requires Inv(v)
    ensures Inv(ToggleView(v))
    ensures ToggleView(ToggleView(v)) == v
  {
    RowShown(v.root, v.idx);
    ShownIsValid(v.root, v.curr);
    ToggleTwice(v.root, v.curr);
  }

  /** With 100 rows and a 20-row pane, the first PageDown from the top
      lands on row 19 and the second on row 39, with row 20 on top. */
  lemma {:induction false} PageDownTwice(v: View)
    requires Inv(v) && v.idx == 0 && v.off == 0 && v.rows == 20 && v.root.total == 99
    ensures PageDown(v).idx == 19 && PageDown(v).off == 0
    ensures PageDown(PageDown(v)).idx == 39 && PageDown(PageDown(v)).off == 20
  {
  }

  /** Down then Up returns to the same row whenever Down moved. */
  lemma {:induction false} DownUp(v: View)
    requires Inv(v) && v.idx < v.root.total
    ensures Up(Down(v)).idx == v.idx && Up(Down(v)).curr == v.curr
  {
  }
}

=== FILE: wrappers.dfy ===
/** The optional value shared by every module: a nil pointer, a missing
    map entry or a failed lookup in the Go code. */
module Wrappers {
  datatype Option<T> = None | Some(value: T)
}
